=== FILE: README.md ===
# S.O.M.B.R.A. operation lifecycle, maintenance jobs and routing rules in Dafny

S.O.M.B.R.A. is a multi-day group game. A user creates an *operation*, becomes
its first member and gets a six-symbol invite code. Other agents join by typing
that code. The join route turns agents away once an operation has five members,
so at most four join by code. Once the operation has started, a daily reset at a chosen hour brings new missions.
When the operation ends it is completed, and a week later it is purged.

This project models the sequential core of that system and proves properties
of the model:

- **Operation store** (`operations.dfy`, module `Operations`). The class
  `Store` holds the operations table, the memberships and the notification
  log. Its methods are the create-operation route and the join-by-code route,
  modelled in the source's guard order. The invariants they keep, in runs
  where the routes' membership and count reads answer:
  - one row per (operation, user);
  - unique invite codes, under the unique constraint on `invite_code` that the
    model assumes (see Conventions);
  - at most one live operation per user;
  - at most five members per operation.

  Those reads fail open: a failed read counts as no rows or zero.
  `Operations.CreateRejectionReads` and `Operations.JoinAtReads` model that,
  and lemmas show how the last two invariants then break (see "## Left out").
- **Scheduled jobs** (`maintenance.dfy`, module `Maintenance`). Each job is a
  loop over a `Store`:
  - completing expired operations;
  - purging completed operations with their storage paths;
  - the once-per-(operation, day) daily-reset notification.

  Each loop is proved against a recursive function of the scan (the rows its
  query returned). The properties are proved about that function.
- **Push subscriptions** (`push.dfy`, module `Push`). The table as a class
  with its `GET`/`POST`/`DELETE` handlers, and the push sender's send loop
  with stale-endpoint pruning.
- **VAPID key decoding** (`base64url.dfy`, module `Base64Url`).
  `urlBase64ToUint8Array` as a method that fills a fresh array. It goes
  through a model of `atob` that follows forgiving-base64 decode in the WHATWG
  HTML standard. A round-trip lemma shows that it inverts the unpadded
  base64url encoding of section 5 of RFC 4648.
- **Day and rank arithmetic** (`utils.dfy`, module `Utils`): rank
  normalisation, rank order and colour, the difficulty glyphs, the operation
  day counter, the countdown to the next reset, and the points label.
- **Validators and routing**:
  - the onboarding code-name checks (`onboarding.dfy`);
  - the request gate, OAuth callback and login page (`auth.dfy`);
  - the bottom navigation rules (`nav.dfy`).
- **Client tallies**:
  - vote and reaction counts (`feed.dfy`);
  - the mission list filters and countdown (`missions.dfy`);
  - the rank insignia (`insignia.dfy`).

`wrappers.dfy`, `strings.dfy` and `seqs.dfy` hold shared helpers:
- `Option`/`Result`;
- JavaScript-like string functions (`startsWith`, `trim`, `indexOf`, decimal
  conversion);
- `filter` and counting over sequences.

## Conventions
- **Time**: integer milliseconds since the epoch, read in UTC, with every day
  exactly 24 hours long.
- **Randomness**: supplied draws. `Math.random` in `generateCode` becomes a
  sequence of six indices per code.
- **Database calls whose outcome the code branches on**: parameters of the
  model, such as sets of failing ids or a failure flag. The store's create
  and join methods take the code lookups, the inserts and the callback's
  profile re-read this way. The live-membership, count and own-row reads are
  the exceptions: the store takes them as answering, and separate decision
  functions model their failures (see "## Left out").
- **Calls into code that is not modelled**: recorded, in order, as entries of
  an effect trace. These are `award_operation_badges`,
  `increment_profile_stat`, the storage removal, the row delete and the
  pushes sent through `fetch`. `calculate_operation_day` is a map from
  operation to its answer.
- **`encodeURIComponent`/`decodeURIComponent`**: function parameters. In the
  purge job, `decodeURIComponent` gives `None` where it throws a URIError (a
  malformed `%` escape).
- **Errors and statuses**: `Operations.HttpStatus` maps each route error to its
  status. An exception that leaves a job's handler is `Uncaught`, answered
  with 500.
- **Join order**: src/app/api/operations/join/route.ts:38 checks capacity
  before the membership check at lines 42-51. A member of a full operation
  therefore gets the capacity error, not the success an existing member
  otherwise gets (`Operations.JoinFullBeforeMember`).
- **Unique invite codes (an assumption)**: src/app/api/operations/route.ts:36-43
  replaces a colliding code at most ten times and then inserts the last code
  without checking it. The model assumes a unique constraint on `invite_code`.
  That constraint rejects a colliding insert with a store error, so the table
  never holds a duplicate code. The database schema is not part of this model.
- **Cascading deletes (an assumption)**: the purge deletes only the
  `operations` row
  (supabase/functions/cleanup-completed-operations/index.ts:51). The model
  assumes that the delete cascades to the operation's memberships and assigned
  missions.

## Model

| member | source | states |
|---|---|---|
| Utils.NormalizeRank | src/lib/utils.ts:52-60 | the result is always one of the six keys of RANK_ORDER; null, undefined or empty input gives RECRUTA |
| Utils.StripMarks | src/lib/utils.ts:53 | removing U+0300–U+036F leaves no combining mark and never lengthens the text |
| Utils.KeepAsciiUpper | src/lib/utils.ts:54 | the compact form holds only the letters A–Z |
| Utils.UpperStringIsFixed | src/lib/utils.ts:53 | an all-upper-case ASCII text is unchanged by mark stripping and upper-casing |
| Utils.KeysAreUpper | src/lib/utils.ts:17-24 | every key of RANK_ORDER is upper-case ASCII |
| Utils.NormalizeRankKey | src/lib/utils.ts:56 | each rank key normalises to itself |
| Utils.NormalizeRankIdempotent | src/lib/utils.ts:52-60 | normalising a normalised rank changes nothing |
| Utils.RankColor | src/lib/utils.ts:62-64 | the colour is RANK_COLORS of the normalised rank; the RECRUTA fallback is never needed |
| Utils.DidRankUpOnKeys | src/lib/utils.ts:66-68 | on rank keys, rank-up holds iff the next key's order exceeds the previous key's |
| Utils.DidRankUp | src/lib/utils.ts:66-68 | a rank-up changes the normalised rank, never starts at LENDA and never ends at RECRUTA |
| Utils.DidRankUpStrictOrder | src/lib/utils.ts:66-68 | rank-up is irreflexive, asymmetric and transitive |
| Utils.DifficultyDots | src/lib/utils.ts:70-81 | always three glyphs, with 1/2/3 filled for easy/medium/hard and none otherwise, filled ones first |
| Utils.DifficultyColor | src/lib/utils.ts:83-94 | grey exactly for an unknown difficulty; easy takes the SENIOR rank colour, medium the OPERADOR one (`#c9a227`) and hard the VETERANO one |
| Utils.GetCurrentDay | src/lib/utils.ts:96-102 | the day number is at least 1 |
| Utils.CurrentDayMonotone | src/lib/utils.ts:99-101 | the day number never decreases as `now` advances |
| Utils.CurrentDayInPeriod | src/lib/utils.ts:99-101 | during the k-th whole 24h period after the start date's reset hour, the day is k + 1 |
| Utils.CurrentDayFirst | src/lib/utils.ts:99-101 | at any time before one day past that boundary, the day is 1 |
| Utils.CurrentDayAdvances | src/lib/utils.ts:99-101 | from the boundary on, 24 hours later is exactly one day later |
| Utils.NextReset | src/lib/utils.ts:105-108 | the reset `getTimeUntilReset` counts down to: today's reset hour, or tomorrow's once it has passed. It has no contract of its own; `NextResetOnResetHour` and `NextResetInNextDay` state its properties |
| Utils.NextResetOnResetHour | src/lib/utils.ts:105-108 | the target lies a whole number of days after the reset hour of the epoch's day, so it falls on the reset hour |
| Utils.NextResetInNextDay | src/lib/utils.ts:105-108 | for an hour in 0..23 the next reset is strictly in the future and at most 24h ahead |
| Utils.Countdown | src/lib/utils.ts:109-112 | hours, minutes and seconds of the remaining time, with JavaScript's truncating `%`. It has no contract of its own; `CountdownBounds` states its properties |
| Utils.CountdownBounds | src/lib/utils.ts:109-112 | for a non-negative duration, minutes and seconds are below 60 and the fields give the duration down to the second |
| Utils.CountdownArith | src/lib/utils.ts:110-112 | the floor/remainder arithmetic behind the countdown fields |
| Utils.TimeUntilResetShape | src/lib/utils.ts:104-112 | for an hour in 0..23 the countdown has hours 0..24 and minutes and seconds below 60 |
| Utils.Pad2 | src/lib/utils.ts:113 | below 100 the padded text has two characters; below 10 it is `0` followed by the digit |
| Utils.FormatClock | src/lib/utils.ts:113 | the three padded fields joined by `:`. It has no contract of its own; `FormatClockShape` states its shape |
| Utils.FormatClockShape | src/lib/utils.ts:113 | for fields below 100: eight characters, `:` at positions 2 and 5, and the three padded fields at 0, 3 and 6 |
| Utils.ClockUntil | src/lib/utils.ts:109-113 | the `hh:mm:ss` text of the time from `now` to a target. It has no contract of its own; `ClockUntilShape` states its shape |
| Utils.ClockUntilShape | src/lib/utils.ts:109-113 | for a target at most 24h ahead the countdown text is eight characters with `:` at positions 2 and 5 |
| Utils.GetTimeUntilReset | src/lib/utils.ts:104-114 | the countdown to the next reset as text. It has no contract of its own; `TimeUntilResetFormat` and `TimeUntilResetShape` state its properties |
| Utils.TimeUntilResetFormat | src/lib/utils.ts:104-114 | for an hour in 0..23 the `getTimeUntilReset` text has the shape `hh:mm:ss` |
| Utils.FormatPoints | src/lib/utils.ts:116-118 | the label ends in `pt`, and what precedes it parses back to the points |
| Operations.CodeAlphabetShape | src/app/api/operations/route.ts:5 | the alphabet has 32 symbols, each an upper-case letter other than I and O or a digit 2–9 |
| Operations.CodeAlphabetDistinct | src/app/api/operations/route.ts:5 | no symbol is listed twice |
| Operations.HttpStatus | src/app/api/operations/join/route.ts:9-59 | 401 exactly for a missing user, 404 exactly for an unknown code, 500 exactly for a store error or an exception, 400 for every other error |
| Operations.CreateRejectionReads | src/app/api/operations/route.ts:15-34 | no user gives 401 first; a request passes iff it has a user, a name that is not blank and a duration of 7, 14 or 30, and either the live-membership read failed or it found no live membership |
| Operations.FailedActiveReadCreatesSecond | src/app/api/operations/route.ts:25-34 | a user in a live operation whose membership read fails passes the guards, and the creator row then gives the user two live operations |
| Operations.CreateRejection | src/app/api/operations/route.ts:15-34 | no user gives 401 first; a request passes iff it has a user, a name that is not blank, a duration of 7, 14 or 30 and no membership of a live operation |
| Operations.GenerateCode | src/app/api/operations/route.ts:4-7 | a code has length 6, symbol i is the alphabet entry of draw i, and no symbol is I, O, 0 or 1 |
| Operations.CodeAttempt | src/app/api/operations/route.ts:36-43 | the attempt the loop settles on is at most 10; every skipped code was in use and its lookup answered; an attempt below 10 is unused or its lookup failed |
| Operations.PickCode | src/app/api/operations/route.ts:36-43 | the loop returns the code of that attempt; if it is in use, either its lookup failed or all eleven codes were in use |
| Operations.CreateAccepts | src/app/api/operations/route.ts:15-34 | a request that passes the guards has a user, a name that is not blank, a duration of 7, 14 or 30, and no membership of a live operation |
| Operations.NewOperation | src/app/api/operations/route.ts:45-56 | the new row is inactive, with the caller as creator, the trimmed name and the reset hour defaulting to 0 |
| Operations.InsertKeepsInvariant | src/app/api/operations/route.ts:45-56 | inserting a row with an unused generated code keeps the store invariant and adds no members |
| Operations.AddKeepsOneRow | src/app/api/operations/join/route.ts:42-57 | adding a user who is not yet a member keeps one row per (operation, user) |
| Operations.AddKeepsOneLive | src/app/api/operations/join/route.ts:21-57 | adding a user with no live membership keeps at most one live operation per user |
| Operations.AddKeepsCapacity | src/app/api/operations/join/route.ts:33-57 | adding to an operation with room raises its count by one, changes no other operation and keeps every count within 5 |
| Operations.FirstNonEmpty | src/app/api/operations/join/route.ts:12 | the raw code is non-empty iff `code` or `invite_code` is |
| Operations.JoinCode | src/app/api/operations/join/route.ts:12 | `code` when non-empty, else `invite_code` when non-empty, else empty, normalised either way |
| Operations.NormaliseCode | src/app/api/operations/join/route.ts:12-14 | the normalised code is empty iff the raw code is blank, which is when the route answers that the code is required |
| Operations.NormaliseCodeIdempotent | src/app/api/operations/join/route.ts:12 | the normalised code has no surrounding white space and no lower-case ASCII letter, and normalising again changes nothing |
| Operations.InviteCodeIsNormal | src/app/api/operations/join/route.ts:12-16 | typing a generated code back yields that code unchanged |
| Operations.LookupCode | src/app/api/operations/join/route.ts:16-18 | the lookup finds an operation holding the code, and finds none iff no operation holds it |
| Operations.NormalCodeOfMember | src/app/api/operations/join/route.ts:16 | with unique codes, an operation's own code finds that operation |
| Operations.JoinDecisionReads | src/app/api/operations/join/route.ts:9-51 | 401 iff no user; code required iff a user and an empty code; not found iff a non-empty code whose lookup fails or that no operation holds; otherwise the lookup answered and the step is about the operation holding the code |
| Operations.JoinDecision | src/app/api/operations/join/route.ts:9-51 | the same with the lookup answering: not found iff a non-empty code that no operation holds |
| Operations.FailedLookupIsNotFound | src/app/api/operations/join/route.ts:16-18 | a code that names an operation is found when the lookup answers, and answered 404 when the lookup fails |
| Operations.JoinAtReads | src/app/api/operations/join/route.ts:19-51 | ended iff completed; blocked by another live operation iff that read answered and found one; full iff not blocked, the count read answered and the count is at least 5; success without a row only when the own-row read answered and found the row; otherwise an insert |
| Operations.FailedCountReadOverfills | src/app/api/operations/join/route.ts:33-40 | a full operation turns the caller away, but a failed count read lets the caller in, and the operation then has six members and is over capacity |
| Operations.FailedActiveReadJoinsSecond | src/app/api/operations/join/route.ts:21-31 | a caller in another live operation is turned away, but a failed read lets the caller in, giving two live operations |
| Operations.FailedExistingReadReinserts | src/app/api/operations/join/route.ts:42-51 | a member gets success without a row, but a failed own-row read leads to a second insert of the same (operation, user) |
| Operations.JoinAt | src/app/api/operations/join/route.ts:19-51 | ended iff the operation is completed; success without a row only for a member of an operation that is not full; an insert only for a non-member of a live operation with room and no other live membership |
| Operations.JoinInsertOnlyWithRoom | src/app/api/operations/join/route.ts:19-57 | an inserting join targets a live operation with fewer than 5 members, for a caller who is not a member and has no live membership |
| Operations.JoinFullBeforeMember | src/app/api/operations/join/route.ts:33-51 | a member of a full, not completed operation gets the capacity error |
| Operations.JoinExistingMember | src/app/api/operations/join/route.ts:42-51 | a member of a not-full, not completed operation gets success without a new row |
| Operations.JoinAgain | src/app/api/operations/join/route.ts:42-57 | repeating a join that inserted gives success without a row, or the capacity error if that insert filled the operation |
| Operations.JoinBlockedOnlyByOtherOperation | src/app/api/operations/join/route.ts:21-31 | the already-in-operation error means a live membership of a different operation exists |
| Operations.Store.constructor | src/lib/supabase/types.ts:20-40 | an empty store satisfies the invariant |
| Operations.Store.Create | src/app/api/operations/route.ts:9-70 | on each guard failure: that error and no change. Else a colliding final code (all eleven taken, or its lookup failed) gives a store error and no change. Else a failed operation insert gives a store error (500) and no change. Else the row is inserted, then on success the caller is the only member, as creator, with one stat increment; a failed member insert leaves the row and no membership. The invariant is kept |
| Operations.Store.CreateAccepted | src/app/api/operations/route.ts:36-68 | the create route past its guards: the code loop, the row insert, the creator membership and the stat increment, with the same outcomes |
| Operations.Store.InsertCreated | src/app/api/operations/route.ts:45-68 | a failed operation insert gives a store error and no change; otherwise the row goes in under a fresh id, and the creator membership and the stat follow unless the member insert fails |
| Operations.Store.InsertOperation | src/app/api/operations/route.ts:45-56 | the insert when it succeeds (its failure is handled by `InsertCreated`): the row is stored under a fresh id with no members, and no user's live membership changes |
| Operations.Store.AddMembership | src/app/api/operations/join/route.ts:53-57 | exactly one membership is added, the count rises by one and the invariant is kept |
| Operations.Store.Join | src/app/api/operations/join/route.ts:4-61 | the result follows the join decision, with the code lookup's outcome as a parameter (a failed lookup is a 404 with no change): reject with no change, success for an existing member with no change, or exactly one `member` row added (never past 5); the invariant is kept |
| Operations.Store.JoinOperation | src/app/api/operations/join/route.ts:19-61 | the checks on the operation the code names, in the route's order, and the insert |
| Operations.JoinTwice | src/app/api/operations/join/route.ts:42-57 | the same join sent twice: the second answer equals the first or is the capacity error, and at most one row is added |
| Maintenance.CompletionNotice | supabase/functions/complete-operations-cron/index.ts:17-36 | a push goes out iff the operation has members and a service key is set, to exactly those members |
| Maintenance.ExpiredIds | supabase/functions/complete-operations-cron/index.ts:39-43 | the rows the query returns are active operations with an end time; an active operation left out has not ended yet |
| Maintenance.CompleteSteps | supabase/functions/complete-operations-cron/index.ts:52-67 | `completed` is no longer than the scan and holds only scanned ids whose update succeeded; there is at least one effect per scanned row |
| Maintenance.CompletedInScanOrder | supabase/functions/complete-operations-cron/index.ts:52-64 | `completed` is the scan without the failed updates, in scan order |
| Maintenance.AwardForEveryRow | supabase/functions/complete-operations-cron/index.ts:54-56 | every scanned operation gets a badge award, whether or not its update succeeds |
| Maintenance.PushFollowsAward | supabase/functions/complete-operations-cron/index.ts:55-66 | every completion push comes right after the same operation's award, for an id in `completed`, with members and a service key |
| Maintenance.CompleteEach | supabase/functions/complete-operations-cron/index.ts:57-61 | the per-row guarded updates keep the table's ids |
| Maintenance.CompleteEachKeepsName | supabase/functions/complete-operations-cron/index.ts:57-65 | the updates change only the status, so the name the push uses is the one scanned |
| Maintenance.CompleteEachIsMark | supabase/functions/complete-operations-cron/index.ts:54-61 | the updates one by one equal the set-wide update guarded by `status = active` |
| Maintenance.MarkCompleted | supabase/functions/complete-operations-cron/index.ts:57-61 | the same rows; only the status changes, and only ids in the set change; a row ends completed iff it was completed or it was active and its id is in the set |
| Maintenance.MarkCompletedIdempotent | supabase/functions/complete-operations-cron/index.ts:57-61 | the guarded update applied twice is the update applied once |
| Maintenance.ExpiredAfterCompletion | supabase/functions/complete-operations-cron/index.ts:39-61 | after completing a set of ids, the expired operations are the previous ones minus that set |
| Maintenance.CompletionKeepsInvariant | supabase/functions/complete-operations-cron/index.ts:57-61 | completing operations keeps the store invariant |
| Maintenance.CompleteExpiredOperations | supabase/functions/complete-operations-cron/index.ts:38-72 | on query failure: an error and no change. Otherwise the response and effects are the run's, every returned id was active and expired and is now completed, and every other row is unchanged |
| Maintenance.CompleteRows | supabase/functions/complete-operations-cron/index.ts:54-67 | the loop yields the run's `completed` list and effects, and the table with those rows updated |
| Maintenance.CompleteStepsNext | supabase/functions/complete-operations-cron/index.ts:54-67 | one more row: the award, then, if its update succeeds, the id and its notice |
| Maintenance.CompleteRow | supabase/functions/complete-operations-cron/index.ts:57-61 | the row becomes completed if and only if it was active; nothing else changes |
| Maintenance.PurgeCutoff | supabase/functions/cleanup-completed-operations/index.ts:17 | the cutoff lies exactly seven days (604800000 ms) before now |
| Maintenance.PurgeCandidates | supabase/functions/cleanup-completed-operations/index.ts:17-23 | the rows the query returns are completed operations with an end time, none of them among the operations the completion job would select |
| Maintenance.ExtractStoragePath | supabase/functions/cleanup-completed-operations/index.ts:9-14 | the result is null iff the marker does not occur in the URL |
| Maintenance.ExtractAfterFirstMarker | supabase/functions/cleanup-completed-operations/index.ts:11-13 | otherwise the result is the decoded text after the first occurrence of the marker, or the URIError where decoding throws |
| Maintenance.StoragePaths | supabase/functions/cleanup-completed-operations/index.ts:42-44 | the `.map` throws iff some URL's extraction throws; otherwise no empty path survives and there are no more paths than URLs |
| Maintenance.StoragePathsMembership | supabase/functions/cleanup-completed-operations/index.ts:42-44 | when nothing throws, a path is kept iff it is non-empty and some URL yields it |
| Maintenance.OpPaths | supabase/functions/cleanup-completed-operations/index.ts:36-44 | a failed photo query, or an operation without photos, gives no paths; when nothing throws, no path is empty and there are no more paths than the operation's URLs |
| Maintenance.PurgeSteps | supabase/functions/cleanup-completed-operations/index.ts:35-55 | the purge loop's run: never more removed operations than scanned rows. `PurgeAbortsIff`, `PurgeRemovesScanned`, `PurgedInScanOrder`, `PurgeStopsAtThrow` and `PhotoCountMatchesRemovals` state the rest |
| Maintenance.PurgeAbortsIff | supabase/functions/cleanup-completed-operations/index.ts:35-55 | the loop ends early iff some scanned operation has a photo URL whose decoding throws |
| Maintenance.PurgeRemovesScanned | supabase/functions/cleanup-completed-operations/index.ts:52-54 | only scanned operations are reported as removed |
| Maintenance.PurgedInScanOrder | supabase/functions/cleanup-completed-operations/index.ts:35-55 | in a run that no exception ends, `removedOperations` is the scan without the failed deletes, in scan order; a failed delete does not stop the loop |
| Maintenance.PurgeStopsAtThrow | supabase/functions/cleanup-completed-operations/index.ts:35-55 | a row whose decoding throws ends the run as it stood after the rows before it: no later row is read, removed or deleted |
| Maintenance.ThrowingRowIsKept | supabase/functions/cleanup-completed-operations/index.ts:35-54 | the operation whose decoding throws is not deleted, and the run reports the exception |
| Maintenance.RemovedPathCountOfRow | supabase/functions/cleanup-completed-operations/index.ts:46-49 | one operation's effects add exactly its path count |
| Maintenance.PhotoCountMatchesRemovals | supabase/functions/cleanup-completed-operations/index.ts:46-49 | `removedPhotos` equals the number of paths handed to storage removal, whatever storage answers |
| Maintenance.PurgeRemovesBeforeDeleting | supabase/functions/cleanup-completed-operations/index.ts:46-51 | every storage removal has non-empty paths and is followed at once by the delete of the same operation |
| Maintenance.DeleteOneMore | supabase/functions/cleanup-completed-operations/index.ts:51 | deleting one more operation is deleting the larger set |
| Maintenance.DeletionKeepsInvariant | supabase/functions/cleanup-completed-operations/index.ts:51-54 | deleting operations with their memberships keeps the store invariant |
| Maintenance.PurgeCompletedOperations | supabase/functions/cleanup-completed-operations/index.ts:16-60 | on query failure: a store error and no change. Otherwise the effects are the run's; the answer is the report, or the exception (500) when a decoding throws, with the deletions before it kept; exactly the removed operations leave, with their memberships and photos (the cascade is an assumption of the model); every removed id was completed at least seven days ago |
| Maintenance.PurgeRows | supabase/functions/cleanup-completed-operations/index.ts:32-55 | the loop yields the run's report, effects and whether an exception ended it, and deletes exactly the removed operations |
| Maintenance.PurgeNext | supabase/functions/cleanup-completed-operations/index.ts:35-55 | one iteration extends the run and the deletions by row i of the scan, or reports the exception and changes nothing |
| Maintenance.PurgeRow | supabase/functions/cleanup-completed-operations/index.ts:36-54 | one row: its paths are read, and it is deleted iff the decoding does not throw and its delete does not fail |
| Maintenance.ReadPaths | supabase/functions/cleanup-completed-operations/index.ts:36-44 | the paths extracted from the operation's photo URLs, none when the query fails, or the exception |
| Maintenance.PathsOutsideGone | supabase/functions/cleanup-completed-operations/index.ts:36-40 | a row not yet deleted still has the photos it had at the start |
| Maintenance.PurgeStepsNext | supabase/functions/cleanup-completed-operations/index.ts:35-55 | one more row: nothing after an exception; the exception if the row throws; else its removal if it has paths, then its delete, its count and its id unless the delete fails |
| Maintenance.DeleteRow | supabase/functions/cleanup-completed-operations/index.ts:51 | the operation goes and, by the assumed cascade, the rows that reference it; nothing else changes |
| Maintenance.UtcHour | supabase/functions/notify-daily-missions/index.ts:13-14 | the hour is in 0..23 |
| Maintenance.UtcHourOfDay | supabase/functions/notify-daily-missions/index.ts:14 | the instant lies in that hour of its UTC day |
| Maintenance.DayNumber | supabase/functions/notify-daily-missions/index.ts:33-39 | the day is never 0, and it is 1 when the day calculation gives nothing |
| Maintenance.DailyEntry | supabase/functions/notify-daily-missions/index.ts:39-46 | the log entry names the operation, has the daily-reset kind and a day that is never 0, and day 1 when the day calculation gives nothing |
| Maintenance.DailyBody | supabase/functions/notify-daily-missions/index.ts:67 | the body starts with `Dia ` and ends with the operation's name |
| Maintenance.Pad2Digits | supabase/functions/notify-daily-missions/index.ts:67 | the padded day has at least two digits and reads back as the day; a single digit gets a leading 0 |
| Maintenance.DailyBodyShowsDay | supabase/functions/notify-daily-missions/index.ts:67 | the body starts `Dia ` followed by the padded day |
| Maintenance.DailySteps | supabase/functions/notify-daily-missions/index.ts:30-72 | the log only grows, and there is one push per notified operation, never more than the scanned rows |
| Maintenance.DailyStepsLog | supabase/functions/notify-daily-missions/index.ts:30-51 | the log only grows, by daily-reset entries of scanned operations due this hour; every due operation whose insert did not fail has its entry, with or without members |
| Maintenance.DailyStepsDue | supabase/functions/notify-daily-missions/index.ts:31-72 | a notified operation is due this hour, had no entry before, had no failing insert, has members and needs a service key |
| Maintenance.DailyStepsLogged | supabase/functions/notify-daily-missions/index.ts:42-72 | every notified operation has its log entry |
| Maintenance.DailyStepsDistinct | supabase/functions/notify-daily-missions/index.ts:42-72 | no operation is notified twice in one run |
| Maintenance.DailyStepsNotified | supabase/functions/notify-daily-missions/index.ts:42-72 | the two facts above together |
| Maintenance.DailyStepsEffects | supabase/functions/notify-daily-missions/index.ts:53-72 | one push per notified operation, in the same order, to its members, with the title and the day's body |
| Maintenance.DailyStepsOutcome | supabase/functions/notify-daily-missions/index.ts:30-72 | the log, notified and push facts of a run together |
| Maintenance.DailyRerunQuiet | supabase/functions/notify-daily-missions/index.ts:42-51 | when every due operation already has its entry, the run writes nothing and notifies nobody |
| Maintenance.DailyIdempotent | supabase/functions/notify-daily-missions/index.ts:42-51 | running the job twice at the same hour: the second run writes and sends nothing |
| Maintenance.CompleteNext | supabase/functions/complete-operations-cron/index.ts:54-67 | one iteration extends the run by row i of the scan; the table stays the starting table with exactly the rows completed so far marked completed |
| Maintenance.DailyNext | supabase/functions/notify-daily-missions/index.ts:30-72 | one iteration extends the run and the log by row i of the scan |
| Maintenance.ActiveIds | supabase/functions/notify-daily-missions/index.ts:16-19 | the rows the notification query returns: exactly the operations whose status is `active` |
| Maintenance.NotifyDailyReset | supabase/functions/notify-daily-missions/index.ts:12-78 | on query failure: an error and no change. Otherwise the response, pushes and new log are those of the run over the active operations, at the UTC hour of `now` |
| Push.HttpStatus | src/app/api/push/subscription/route.ts:18-72 | 401 exactly for a missing user, 400 exactly for an invalid payload, 405 exactly for a wrong method, 500 exactly for missing VAPID keys or a store error (the 405 and the missing-keys 500 are the sender's, supabase/functions/send-push-notification/index.ts:25-37) |
| Push.Upsert | src/app/api/push/subscription/route.ts:41-49 | one row per (user, endpoint), holding the latest keys; other rows are unchanged |
| Push.UpsertIdempotent | src/app/api/push/subscription/route.ts:41-49 | repeating the upsert changes nothing |
| Push.UpsertSubscribes | src/app/api/push/subscription/route.ts:41-49 | after an upsert the user is subscribed |
| Push.RemoveRows | src/app/api/push/subscription/route.ts:64-69 | exactly the caller's row for the endpoint goes, or all of the caller's rows when no endpoint is given; nothing else |
| Push.RemoveKeepsOthers | src/app/api/push/subscription/route.ts:66-69 | other users' subscriptions survive any delete |
| Push.RemoveAllUnsubscribes | src/app/api/push/subscription/route.ts:64-69 | a delete without an endpoint unsubscribes the caller |
| Push.RemoveOneKeepsOtherEndpoints | src/app/api/push/subscription/route.ts:66-69 | a delete with an endpoint keeps the caller's other endpoints |
| Push.WithoutEndpoints | supabase/functions/send-push-notification/index.ts:90-92 | exactly the rows whose endpoint is stale go, whoever owns them |
| Push.SubscriptionTable.constructor | src/app/api/push/subscription/route.ts:4-10 | the table starts empty |
| Push.SubscriptionTable.Get | src/app/api/push/subscription/route.ts:12-26 | 401 without a user; otherwise subscribed iff the count succeeds and the caller has a row |
| Push.SubscriptionTable.Post | src/app/api/push/subscription/route.ts:28-54 | 401 without a user, 400 without endpoint, p256dh or auth, 500 on store failure, all leaving the table; otherwise the upsert |
| Push.SubscriptionTable.Delete | src/app/api/push/subscription/route.ts:56-75 | 401 without a user and 500 on store failure, both leaving the table; otherwise the rows the delete removes are gone |
| Push.ValidRequest | supabase/functions/send-push-notification/index.ts:41 | a payload is valid iff it lists at least one user and has a title and a body |
| Push.IsStale | supabase/functions/send-push-notification/index.ts:82-86 | a failed send marks its endpoint stale iff its status code is 404 or 410 |
| Push.SendSteps | supabase/functions/send-push-notification/index.ts:66-88 | `sent` plus the stale count is at most the number of subscriptions |
| Push.StaleEndpoints | supabase/functions/send-push-notification/index.ts:82-86 | an endpoint is stale iff a scanned subscription with it was rejected with 404 or 410 |
| Push.SentCount | supabase/functions/send-push-notification/index.ts:69-81 | `sent` counts exactly the delivered subscriptions |
| Push.TallyComplete | supabase/functions/send-push-notification/index.ts:66-88 | when every send either delivers or finds its endpoint stale, the tallies add up to the number of subscriptions |
| Push.SendPushNotification | supabase/functions/send-push-notification/index.ts:25-97 | 405, 500 (no VAPID keys), 400 (bad payload) and the query error, in that order, all with no sends and no change. Otherwise the answer is always a report: every listed user's subscription is attempted in order, the report is the tallies, and the stale endpoints' rows are deleted unless that delete fails |
| Base64Url.UrlChar | src/lib/notifications.ts:5 | a symbol of the base64url alphabet is never `=` |
| Base64Url.SextetValue | src/lib/notifications.ts:6 | the value of a base64 symbol is below 64 and names that symbol |
| Base64Url.SextetOfStdChar | src/lib/notifications.ts:6 | each value's symbol decodes back to the value |
| Base64Url.PaddingLength | src/lib/notifications.ts:4 | the padding is 0..3 characters, brings the length to a multiple of 4, and is empty iff the length already is one |
| Base64Url.Repeat | src/lib/notifications.ts:4 | `'='.repeat(n)` is n copies of the character |
| Base64Url.ToStdAlphabet | src/lib/notifications.ts:5 | no `-` or `_` remains; they become `+` and `/`, and every other character is unchanged |
| Base64Url.Prepare | src/lib/notifications.ts:4-5 | the text for `atob` has the padded length, a multiple of 4 |
| Base64Url.DropPadding | src/lib/notifications.ts:6 | `atob` drops at most a trailing part of its input |
| Base64Url.Triple | src/lib/notifications.ts:6 | four symbols decode to three bytes |
| Base64Url.DecodeSymbols | src/lib/notifications.ts:6 | three bytes per group of four symbols, plus 2 for a final group of 3 and 1 for a final group of 2 |
| Base64Url.BinaryString | src/lib/notifications.ts:6 | the binary string has one character per byte, with that byte as its code |
| Base64Url.Atob | src/lib/notifications.ts:6 | every character of a decoded string is below 256 |
| Base64Url.DecodeKey | src/lib/notifications.ts:3-12 | none exactly where `atob` throws; otherwise one byte per character of the binary string, holding that character's code |
| Base64Url.UrlBase64ToBytes | src/lib/notifications.ts:3-12 | null exactly where `atob` throws; otherwise a fresh array of the decoded length whose byte i is the code of decoded character i |
| Base64Url.Quad | src/lib/notifications.ts:3-12 | three bytes encode to four symbols |
| Base64Url.Encode | src/lib/notifications.ts:3-12 | the unpadded encoding holds no `=` |
| Base64Url.EncodeLength | src/lib/notifications.ts:3-12 | the encoding has 4 symbols per 3 bytes plus 2 or 3 for a final 1 or 2, so its length is never 1 modulo 4 |
| Base64Url.ToStdOfUrlEncoding | src/lib/notifications.ts:5 | the alphabet conversion turns the base64url encoding into the base64 one |
| Base64Url.StdEncodingSymbols | src/lib/notifications.ts:5-6 | every symbol of the base64 encoding is one `atob` accepts |
| Base64Url.TripleOfQuad | src/lib/notifications.ts:6 | the bytes of three bytes' four symbols are those bytes |
| Base64Url.DecodeQuad | src/lib/notifications.ts:6 | decoding a leading group of four symbols yields its three bytes, then the rest |
| Base64Url.DecodePair | src/lib/notifications.ts:6 | the three symbols of two bytes decode to those bytes |
| Base64Url.DecodeSingle | src/lib/notifications.ts:6 | the two symbols of one byte decode to that byte |
| Base64Url.DecodeOfEncode | src/lib/notifications.ts:6 | decoding the base64 encoding of any bytes yields those bytes |
| Base64Url.DropAddedPadding | src/lib/notifications.ts:4-6 | `atob`'s padding removal undoes the padding added |
| Base64Url.PrepareOfEncoding | src/lib/notifications.ts:4-5 | the prepared base64url encoding is the padded base64 encoding |
| Base64Url.AtobOfPadded | src/lib/notifications.ts:6 | `atob` of a padded encoding is the binary string of its decoded symbols |
| Base64Url.DecodeKeyOfEncoding | src/lib/notifications.ts:3-12 | decoding the unpadded base64url encoding of any bytes yields those bytes |
| Onboarding.Utf16Length | src/app/onboarding/page.tsx:22-32 | the JavaScript length is between the character count and twice that, and equal to it iff every character is in the Basic Multilingual Plane |
| Onboarding.ValidateUsername | src/app/onboarding/page.tsx:22-38 | too short iff the length is below 3; else too long iff above 20; else bad characters iff a character is outside `[a-zA-Z0-9_]`; the first failure is reported |
| Onboarding.ErrorText | src/app/onboarding/page.tsx:22-38 | the message each failed check shows |
| Onboarding.AcceptedIff | src/app/onboarding/page.tsx:22-38 | a name is accepted iff its length is 3 to 20 and it holds only ASCII letters, digits and `_` |
| Onboarding.LowerKeepsValid | src/app/onboarding/page.tsx:55 | lower-casing an accepted name keeps it accepted, with no upper-case letter |
| Onboarding.UpdateErrorText | src/app/onboarding/page.tsx:58-63 | the name-taken message appears iff the error code is `23505` |
| Onboarding.Submit | src/app/onboarding/page.tsx:17-77 | rejected iff validation fails, with the first failure. Past validation: the generic `Erro inesperado` message iff a call in the `try` throws; otherwise session expired iff signed out; an update failure iff the update reports an error code, with that code's message; saved otherwise, holding the lower-cased input, which is valid |
| Onboarding.ProfileWrite | src/app/onboarding/page.tsx:22-56 | a write happens iff validation passes and a user is signed in, and it writes the lower-cased name |
| Onboarding.SavedIsWritten | src/app/onboarding/page.tsx:22-77 | a saved outcome wrote the stored name, and a rejected one wrote nothing |
| Auth.KeepSlashPath | src/app/auth/callback/route.ts:7-8 | the rule as written: the result starts with `/`; it is `next` when that starts with `/`, else `/` |
| Auth.KeepSlashPathLeaksHost | src/app/auth/callback/route.ts:7-8 | `//evil.example` passes the rule as written unchanged |
| Auth.SafePath | src/app/auth/callback/route.ts:7-8 | the corrected rule: the result starts with `/` and cannot leave the site; it is `next` whenever that is a same-site path, else `/` |
| Auth.SafePathRefinesKeepSlash | src/app/auth/callback/route.ts:7-8 | the corrected rule agrees with the one as written except on paths that leave the site |
| Auth.SafePathIdempotent | src/app/auth/callback/route.ts:7-8 | sanitising a sanitised path changes nothing |
| Auth.Gate | src/proxy.ts:30-62 | signed out: redirect to `/login` iff the path is neither public nor a join path. At `/login` signed in: redirect to `/`. Elsewhere signed in: redirect to `/onboarding` iff the path is not public, not `/onboarding`, and there is no name. At most one redirect |
| Auth.GateNeverRedirectsToItself | src/proxy.ts:34-59 | no request is redirected to its own path |
| Auth.OnboardingReachable | src/proxy.ts:46 | a signed-in user always reaches `/onboarding`, so there is no redirect loop |
| Auth.GateSettles | src/proxy.ts:34-62 | following the gate's redirects ends within two hops |
| Auth.ProfileTable.constructor | src/app/auth/callback/route.ts:29-34 | the table holds the given profiles |
| Auth.ProfileTable.Admit | src/app/auth/callback/route.ts:10-50 | no sign-in, with no change, iff the code is missing, the exchange fails or there is no user; a profile row is inserted only when none exists; then "named" iff the re-read of the profile answers and the user has a name |
| Auth.ProfileTable.Callback | src/app/auth/callback/route.ts:4-54 | as written: `/login` for a missing code, a failed exchange or no user, with no change. A profile row is inserted only when none exists. Then `/onboarding` without a name or when the re-read of the profile fails, else `next` whenever it starts with `/` |
| Auth.ProfileTable.CallbackIntended | src/app/auth/callback/route.ts:4-54 | the corrected callback: the same outcomes (including `/onboarding` when the re-read fails), but `next` only when it stays on the site, so the target never leaves the site |
| Auth.NewUserOnboards | src/app/auth/callback/route.ts:36-51 | a first-time user's new row has no name, so the user lands on onboarding whatever `next` says |
| Auth.RedirectTarget | src/app/login/page.tsx:8-12 | as written: the target starts with `/`; it is `redirect` whenever that starts with `/`, else `/`, and `/` on the server |
| Auth.RedirectTargetLeaksHost | src/app/login/page.tsx:8-12 | `?redirect=//evil.example` yields a target on another host |
| Auth.SafeRedirectTarget | src/app/login/page.tsx:8-12 | the corrected rule: the target never leaves the site, is `/` on the server, and equals the rule as written whenever that stays on the site |
| Auth.DropTrailingSlash | src/app/login/page.tsx:17 | exactly one trailing `/` is removed, if present |
| Auth.AuthOrigin | src/app/login/page.tsx:14-25 | a configured http(s) URL, trimmed and without its trailing `/`; otherwise the window origin, else empty |
| Auth.OAuthReturnUrl | src/app/login/page.tsx:64 | the return URL is the origin, then `/auth/callback?next=`, then the encoded target |
| Auth.ReturnPathSurvives | src/app/login/page.tsx:58-64 | when decoding undoes encoding, the callback's `next` path is the login page's target, under the rules as written and under the corrected ones alike |
| Auth.LoginRedirect | src/app/login/page.tsx:33-49 | no redirect when signed out; the target with a name; `/onboarding` without one |
| Nav.OperationIdFromPath | src/components/layout/BottomNav.tsx:33-36 | a result is 36 hex-or-dash characters right after a leading `/operations/`, followed by `/` or the end |
| Nav.OperationIdOfPath | src/components/layout/BottomNav.tsx:33-36 | every such path yields its id |
| Nav.LongerIdDoesNotMatch | src/components/layout/BottomNav.tsx:34 | an id followed by a character other than `/` yields nothing |
| Nav.IsMissionDetail | src/components/layout/BottomNav.tsx:47 | some `/operations/` followed by 36 hex-or-dash characters and `/missions/` occurs in the path |
| Nav.IsInsideOperation | src/components/layout/BottomNav.tsx:46-48 | the path yields an operation id and is not a lobby, a ceremony or a mission's detail |
| Nav.IsGlobal | src/components/layout/BottomNav.tsx:50-55 | a global result is never inside an operation, and every global page is global |
| Nav.GlobalPagesAreOutside | src/components/layout/BottomNav.tsx:48-55 | no global page carries an operation id |
| Nav.RendersNav | src/components/layout/BottomNav.tsx:97 | the nav renders iff the page is inside an operation or global, and never both |
| Nav.LobbyIsOutside | src/components/layout/BottomNav.tsx:46-48 | an operation's lobby carries its id but is not inside it |
| Nav.MissionDetailIsOutside | src/components/layout/BottomNav.tsx:47-48 | a mission's detail page is not inside the operation |
| Nav.TabPageIsInside | src/components/layout/BottomNav.tsx:46-48 | the operation's own page is inside it |
| Nav.TabActive | src/components/layout/BottomNav.tsx:99-102 | with no tab parameter only missions is active; otherwise exactly the tab equal to the parameter |
| Nav.OneTabActive | src/components/layout/BottomNav.tsx:99-102 | at most one tab is active, and exactly one when the parameter is absent or names a tab |
| Nav.GlobalActive | src/components/layout/BottomNav.tsx:104-114 | the operations item is active on the three operations pages, the profile item on every `/profile` path |
| Nav.OneGlobalActive | src/components/layout/BottomNav.tsx:104-114 | the two global items are never active together, and on a global page one is |
| Feed.Click | src/components/feed/VoteButtons.tsx:25-35 | a guarded click fires iff not blocked and not busy, and leaves the handler busy after firing |
| Feed.NoSecondFireInFlight | src/components/feed/VoteButtons.tsx:26-35 | two clicks with no settling in between fire at most once |
| Feed.FiresAfterSettle | src/components/feed/VoteButtons.tsx:33-35 | after the flag clears, an unblocked click fires |
| Feed.ApproveCount | src/components/feed/VoteButtons.tsx:22 | the approve count is at most the number of votes |
| Feed.RejectCount | src/components/feed/VoteButtons.tsx:23 | the reject count is at most the number of votes |
| Feed.TalliesCoverVotes | src/components/feed/VoteButtons.tsx:22-23 | approves plus rejects equals the number of votes |
| Feed.FirstVoteIndex | src/components/feed/VoteButtons.tsx:20 | the index of the user's first vote, or none iff the user has not voted |
| Feed.UserVote | src/components/feed/VoteButtons.tsx:20 | `userVote` is the first vote by the current user, and is absent iff there is none |
| Feed.VoteButtons | src/components/feed/VoteButtons.tsx:20-82 | the submitter sees no buttons; anyone else sees both, with the approve and reject counts of the votes (adding up to their number), disabled iff voting or already voted, marked with their own vote and unmarked when they have not voted |
| Feed.HandleVote | src/components/feed/VoteButtons.tsx:25-36 | the submitter's click, or one while a vote is in flight, never reaches `onVote` |
| Feed.ReactionCount | src/components/feed/ReactionBar.tsx:25 | a type's count is at most the number of reactions |
| Feed.ReactedImpliesCounted | src/components/feed/ReactionBar.tsx:25-28 | a type the user has reacted with has a count of at least 1 |
| Feed.ReactionCounts | src/components/feed/ReactionBar.tsx:44-45 | one count per type of `REACTION_EMOJIS`, in order |
| Feed.CountStep | src/components/feed/ReactionBar.tsx:25 | one more reaction adds one to its own type's count only |
| Feed.CountsCoverReactions | src/components/feed/ReactionBar.tsx:25-44 | when every reaction has one of the five types, the counts add up to the number of reactions |
| Feed.HandleReaction | src/components/feed/ReactionBar.tsx:30-39 | `onReact` fires iff no reaction is in flight |
| Missions.FilteredMissions | src/components/missions/MissionPool.tsx:56 | `all` keeps every mission; any other filter keeps only missions of that difficulty |
| Missions.ShownMissions | src/components/missions/MissionPool.tsx:56-58 | the shown cards are the missions passing both filters, an order-preserving sublist |
| Missions.TwoFiltersAreOne | src/components/missions/MissionPool.tsx:56-58 | the two filters in a row are one filter by both tests |
| Missions.ShownMembership | src/components/missions/MissionPool.tsx:56-58 | a mission is shown iff it is listed, of the chosen difficulty and without a status or `available` |
| Missions.Card | src/components/missions/MissionPool.tsx:114-116 | nothing selected: no card is selected or disabled; a selection: a card is selected iff not disabled |
| Missions.SelectionDisablesOthers | src/components/missions/MissionPool.tsx:110-116 | with a selection, only its card is selected and every other shown card is disabled |
| Missions.CountdownTarget | src/components/missions/MissionPool.tsx:31-38 | for an hour in 0..23 the target is strictly ahead and at most 24h away |
| Missions.TargetIsNextReset | src/components/missions/MissionPool.tsx:31-38 | today's reset before the hour, tomorrow's otherwise, which is the reset `getTimeUntilReset` targets |
| Missions.TimeLeft | src/components/missions/MissionPool.tsx:30-46 | for an hour in 0..23 the pool's countdown text is the `getTimeUntilReset` text |
| Insignia.RankLevelIsRankOrder | src/components/rank/RankInsignia.tsx:11-18 | the insignia's level table is RANK_ORDER |
| Insignia.FilledCount | src/components/rank/RankInsignia.tsx:23 | the filled count is `min(level, 4)` of the normalised rank |
| Insignia.Symbols | src/components/rank/RankInsignia.tsx:25-28 | four symbols: four stars for LENDA, otherwise the filled circles first, then hollow ones |
| Insignia.FilledMonotone | src/components/rank/RankInsignia.tsx:11-23 | a higher rank never shows fewer filled circles |
| Insignia.FilledTracksRankUp | src/components/rank/RankInsignia.tsx:11-23 | below VETERANO, a rank-up shows strictly more filled circles |
| Insignia.Color | src/components/rank/RankInsignia.tsx:21-22 | the colour is the normalised rank's colour, the same as `rankColor` |

## Left out
- Concurrency is not modelled. Each request and each job runs alone against the store, so the non-atomic check-then-insert of the create and join routes is outside the model.
- Database and network I/O (Supabase queries, web-push, `fetch`) is not modelled. Query results are parameters, and so are the failures the store methods take (the code lookups, the operation and member inserts, the callback's profile re-read); ignored calls are effect-trace entries. The reads of the create and join routes that the store takes as always answering are listed below.
- The bodies of `calculate_operation_day`, `award_operation_badges` and `increment_profile_stat` are not part of this model. They appear as a supplied map and as effects.
- Local time zones and daylight saving time are not modelled. `new Date(...)` with local fields is read as UTC with 24-hour days.
- `Utils.NormalizeRank`: Unicode NFD decomposition is not modelled. Only marks already present as U+0300–U+036F are stripped, and upper-casing covers ASCII only.
- `Utils.DidRankUp` and the other rank functions take `null`, `undefined` and a missing value as the same `None`.
- `encodeURIComponent` and `decodeURIComponent` are opaque function parameters. `Auth.ReturnPathSurvives` assumes they invert each other on the target. Where the purge's `decodeURIComponent` throws it gives `None`; the URIError's message is not modelled.
- `Base64Url.Atob` covers the decoding algorithm only. The exception `atob` throws is `None`, and its message is not modelled.
- Operations.LookupCode: the lookup assumes that codes are unique in the table, that is, that the database has a unique constraint on `invite_code`. The schema is not part of this model, and a store holding duplicate codes is outside it.
- Operations.NormaliseCodeIdempotent: "no lower-case letter" covers ASCII letters only. JavaScript's `toUpperCase` also maps other lower-case letters, and the model's upper-casing does not.
- Operations.NormaliseCode: upper-casing covers ASCII only. JavaScript turns `ſ23456` into `S23456`, while the model leaves `ſ` as it is.
- Operations.Store.Join: because of that, a typed `ſ23456` finds no operation in the model, where the route looks up `S23456` and can find one.
- Operations.JoinCode: the payload's `code` and `invite_code` are text or absent. A numeric payload, which `String(234567)` would turn into `234567`, cannot be passed.
- Maintenance.PurgeCompletedOperations: that a delete also removes the operation's memberships and assigned missions is an assumption (cascading foreign keys), since the database schema is not part of this model.
- Operations.Store.Create: the live-membership read (src/app/api/operations/route.ts:25-34) is taken as answering. A failed read leaves `activeMembership` null, the guard passes, and the user can hold two live operations (`Operations.FailedActiveReadCreatesSecond`). So the store's one-live-operation invariant holds only for runs where this read answers. A failed code lookup (route.ts:39-40) is modelled: the loop stops with the unchecked code.
- Operations.Store.Join: the live-membership, count and own-row reads (src/app/api/operations/join/route.ts:21-51) are taken as answering. `Operations.JoinAtReads` models their failures as `[]`, `0` and `null`. The lemmas show the results: a sixth member (`FailedCountReadOverfills`), a second live operation (`FailedActiveReadJoinsSecond`) and a repeated insert (`FailedExistingReadReinserts`). So the store's capacity and one-live-operation invariants, and Join's "never past 5", hold only for runs where these reads answer.
- Operations.Store.Create: a body that is not JSON makes `request.json()` (src/app/api/operations/route.ts:17) throw after the session check. The exception leaves the handler and the server answers 500. The model takes the parsed fields as inputs, so this path is not modelled.
- Operations.Store.Join: the same holds for `request.json()` at src/app/api/operations/join/route.ts:11.
- Push.SubscriptionTable.Post: the same holds for `request.json()` at src/app/api/push/subscription/route.ts:36.
- Operations.Store.Create: the model returns the new id. The route returns the whole inserted row, and the other columns (duration, timestamps) are not modelled beyond `NewOperation`.
- The stored reset hour is not range-checked by the create route, and the model does not check it either. The countdown properties are stated for hours 0..23 only.
- The membership-loading effect of the bottom navigation (src/components/layout/BottomNav.tsx:57-95) is a query plus React state, so it is not modelled.
- The float font sizes and the labels of the insignia (src/components/rank/RankInsignia.tsx:30-41) are not modelled.
- Client timers, realtime refresh, sounds and navigation calls (`router.push`, `setInterval`, `playSfx`) are left out. Only the decisions they act on are modelled.
- `Feed.VoteButtons` and `Feed.HandleVote`: the `isVoting` and `isReacting` flags are inputs, and their settling is `Feed.FiresAfterSettle`.
- `Push.SendPushNotification`: the payload's `data` field and the JSON body are not modelled.

## Findings

| source | as written | input that shows it | evidently intended | confidence | as-written member | corrected member |
|---|---|---|---|---|---|---|
| src/app/auth/callback/route.ts:7-8 | `next` is kept whenever it starts with `/` | `next=//evil.example`: the redirect target `//evil.example` resolves to another host | keep only same-site paths, so reject a leading `//` or `/\` | not executed | Auth.KeepSlashPathLeaksHost | Auth.ProfileTable.CallbackIntended |
| src/app/login/page.tsx:8-12 | `redirect` is kept whenever it starts with `/` | `?redirect=//evil.example`, followed by `router.push` after sign-in | the same rule as the callback: same-site paths only | not executed | Auth.RedirectTargetLeaksHost | Auth.SafeRedirectTarget |

`Auth.ProfileTable.Callback` and `Auth.RedirectTarget` model the code as
written, with the rule `Auth.KeepSlashPath`. The corrected members
`Auth.ProfileTable.CallbackIntended` and `Auth.SafeRedirectTarget` use the
rule `Auth.SafePath`. `Auth.SafePathRefinesKeepSlash` and
`Auth.SafeRedirectTarget` show that the two rules differ only on paths that
leave the site.

=== FILE: auth.dfy ===
/**
 * Authentication routing: the request gate, the OAuth callback with its
 * create-profile-if-absent step, and the login page's redirect target, auth
 * origin and post-login redirect.
 */
module Auth {
  import opened Wrappers
  import opened Strings

  type UserId = string

  /** A query parameter or field counts when present and non-empty (JavaScript truthiness). */
  predicate Given(s: Option<string>) {
    s.Some? && s.value != ""
  }

  // ---------------------------------------------------------------------------
  // Redirect paths

  /** `(value || '/')`, then kept only when it starts with `/`: the rule as written. */
  function KeepSlashPath(raw: Option<string>): (r: string)
    ensures StartsWith(r, "/")
    ensures Given(raw) && StartsWith(raw.value, "/") ==> r == raw.value
    ensures !(Given(raw) && StartsWith(raw.value, "/")) ==> r == "/"
  {
    var value := if Given(raw) then raw.value else "/";
    if StartsWith(value, "/") then value else "/"
  }

  /**
   * A reference that a URL parser resolves against another host: `//host`
   * (a network-path reference, section 4.2 of RFC 3986) and `/\host`, which
   * the WHATWG URL parser reads the same way for http and https.
   */
  predicate LeavesOrigin(path: string) {
    |path| >= 2 && path[0] == '/' && (path[1] == '/' || path[1] == '\\')
  }

  /** The rule as written lets a path through that leaves the site. */
  lemma KeepSlashPathLeaksHost()
    ensures KeepSlashPath(Some("//evil.example")) == "//evil.example"
    ensures LeavesOrigin(KeepSlashPath(Some("//evil.example")))
  {
    assert StartsWith("//evil.example", "/");
  }

  /** The redirect path as intended: a path on this site, `/` otherwise. */
  function SafePath(raw: Option<string>): (r: string)
    ensures StartsWith(r, "/") && !LeavesOrigin(r)
    ensures Given(raw) && StartsWith(raw.value, "/") && !LeavesOrigin(raw.value) ==> r == raw.value
    ensures r != "/" ==> raw == Some(r)
  {
    var value := KeepSlashPath(raw);
    if LeavesOrigin(value) then "/" else value
  }

  /** The corrected rule only narrows the one as written: it agrees wherever that one stays on the site. */
  lemma SafePathRefinesKeepSlash(raw: Option<string>)
    ensures !LeavesOrigin(KeepSlashPath(raw)) ==> SafePath(raw) == KeepSlashPath(raw)
    ensures LeavesOrigin(KeepSlashPath(raw)) ==> SafePath(raw) == "/"
  { }

  /** Sanitising a sanitised path changes nothing. */
  lemma SafePathIdempotent(raw: Option<string>)
    ensures SafePath(Some(SafePath(raw))) == SafePath(raw)
  {
    assert StartsWith(SafePath(raw), "/");
  }

  // ---------------------------------------------------------------------------
  // The request gate

  datatype Decision = PassThrough | RedirectTo(path: string)

  predicate IsPublicRoute(pathname: string) {
    StartsWith(pathname, "/login") || StartsWith(pathname, "/auth/callback")
  }

  predicate IsJoinRoute(pathname: string) {
    StartsWith(pathname, "/join/")
  }

  /**
   * `proxy`: the decision for a request to `pathname`. `username` is the
   * signed-in user's profile name as the profile query returns it (`None`
   * when there is no row).
   */
  function Gate(signedIn: bool, pathname: string, username: Option<string>): (d: Decision)
    ensures !signedIn ==> (d == RedirectTo("/login") <==> !IsPublicRoute(pathname) && !IsJoinRoute(pathname))
    ensures !signedIn ==> d == PassThrough || d == RedirectTo("/login")
    ensures signedIn && pathname == "/login" ==> d == RedirectTo("/")
    ensures signedIn && pathname != "/login" ==>
      (d == RedirectTo("/onboarding") <==> !IsPublicRoute(pathname) && pathname != "/onboarding" && !Given(username))
    ensures signedIn && pathname != "/login" ==> d == PassThrough || d == RedirectTo("/onboarding")
  {
    if !signedIn && !IsPublicRoute(pathname) && !IsJoinRoute(pathname) then RedirectTo("/login")
    else if signedIn && pathname == "/login" then RedirectTo("/")
    else if signedIn && !IsPublicRoute(pathname) && pathname != "/onboarding" && !Given(username) then
      RedirectTo("/onboarding")
    else PassThrough
  }

  /** No request is redirected to the path it asked for. */
  lemma GateNeverRedirectsToItself(signedIn: bool, pathname: string, username: Option<string>)
    ensures Gate(signedIn, pathname, username).RedirectTo? ==> Gate(signedIn, pathname, username).path != pathname
  {
    if !signedIn && pathname == "/login" {
      assert IsPublicRoute(pathname);
    }
  }

  /** The onboarding page is always reachable by a signed-in user, so its redirect cannot loop. */
  lemma OnboardingReachable(username: Option<string>)
    ensures Gate(true, "/onboarding", username) == PassThrough
  {
    assert "/onboarding"[1] != "/login"[1];
    assert !StartsWith("/onboarding", "/login");
  }

  /** Following the gate's redirects settles within two hops, for the same session. */
  lemma GateSettles(signedIn: bool, pathname: string, username: Option<string>)
    ensures match Gate(signedIn, pathname, username)
      case PassThrough => true
      case RedirectTo(p1) =>
        match Gate(signedIn, p1, username)
        case PassThrough => true
        case RedirectTo(p2) => Gate(signedIn, p2, username) == PassThrough
  {
    assert StartsWith("/login", "/login");
    assert !StartsWith("/", "/login") && !StartsWith("/", "/auth/callback");
    OnboardingReachable(username);
  }

  // ---------------------------------------------------------------------------
  // The OAuth callback

  datatype Profile = Profile(username: Option<string>, avatarUrl: Option<string>)

  /** The profiles table, keyed by user id. */
  class ProfileTable {
    var profiles: map<UserId, Profile>

    constructor(initial: map<UserId, Profile>)
      ensures profiles == initial
    {
      profiles := initial;
    }

    /**
     * The callback's sign-in steps: the code, the session exchange, the user,
     * and a profile row for a first-time user. None sends the visitor back to
     * `/login`; otherwise whether the user has a name. `exchangeFails` is the
     * session exchange's outcome, `user` the user it yields, `insertFails`
     * the insert's outcome, and `afterReadFails` says the re-read of the row
     * returned an error: `profileAfter` is then null and the user counts as
     * having no name. A failed first read leads to an insert attempt; for an
     * existing row the primary key on `id` rejects it, which is the outcome
     * `insertFails` already covers, so it needs no flag of its own.
     */
    method Admit(code: Option<string>, exchangeFails: bool, user: Option<UserId>,
                 avatar: Option<string>, insertFails: bool, afterReadFails: bool) returns (named: Option<bool>)
      modifies this
      ensures named.None? <==> !Given(code) || exchangeFails || user.None?
      ensures named.None? ==> profiles == old(profiles)
      ensures named.Some? ==>
        var u := user.value;
        && (u in old(profiles) || insertFails ==> profiles == old(profiles))
        && (u !in old(profiles) && !insertFails ==>
              profiles == old(profiles)[u := Profile(None, if Given(avatar) then avatar else None)])
        && (named.value <==> !afterReadFails && u in profiles && Given(profiles[u].username))
    {
      if !Given(code) || exchangeFails || user.None? {
        return None;
      }
      var u := user.value;
      if u !in profiles && !insertFails {
        profiles := profiles[u := Profile(None, if Given(avatar) then avatar else None)];
      }
      named := Some(!afterReadFails && u in profiles && Given(profiles[u].username));
    }

    /**
     * The callback as written: after sign-in, onboarding for a user without a
     * name and otherwise the `next` parameter whenever it starts with `/`.
     */
    method Callback(code: Option<string>, next: Option<string>, exchangeFails: bool, user: Option<UserId>,
                    avatar: Option<string>, insertFails: bool, afterReadFails: bool) returns (target: string)
      modifies this
      ensures StartsWith(target, "/")
      ensures !Given(code) || exchangeFails || user.None? ==> target == "/login" && profiles == old(profiles)
      ensures Given(code) && !exchangeFails && user.Some? ==>
        var u := user.value;
        && (u in old(profiles) || insertFails ==> profiles == old(profiles))
        && (u !in old(profiles) && !insertFails ==>
              profiles == old(profiles)[u := Profile(None, if Given(avatar) then avatar else None)])
        && (if !afterReadFails && u in profiles && Given(profiles[u].username) then target == KeepSlashPath(next)
            else target == "/onboarding")
    {
      var named := Admit(code, exchangeFails, user, avatar, insertFails, afterReadFails);
      target := if named.None? then "/login" else if named.value then KeepSlashPath(next) else "/onboarding";
    }

    /** The callback as intended: the same steps, but `next` only when it stays on the site. */
    method CallbackIntended(code: Option<string>, next: Option<string>, exchangeFails: bool, user: Option<UserId>,
                            avatar: Option<string>, insertFails: bool, afterReadFails: bool) returns (target: string)
      modifies this
      ensures StartsWith(target, "/") && !LeavesOrigin(target)
      ensures !Given(code) || exchangeFails || user.None? ==> target == "/login" && profiles == old(profiles)
      ensures Given(code) && !exchangeFails && user.Some? ==>
        var u := user.value;
        && (u in old(profiles) || insertFails ==> profiles == old(profiles))
        && (u !in old(profiles) && !insertFails ==>
              profiles == old(profiles)[u := Profile(None, if Given(avatar) then avatar else None)])
        && (if !afterReadFails && u in profiles && Given(profiles[u].username) then target == SafePath(next)
            else target == "/onboarding")
    {
      var named := Admit(code, exchangeFails, user, avatar, insertFails, afterReadFails);
      target := if named.None? then "/login" else if named.value then SafePath(next) else "/onboarding";
    }
  }

  /** A first-time user always lands on onboarding, whatever `next` says. */
  lemma NewUserOnboards(profiles: map<UserId, Profile>, u: UserId, avatar: Option<string>)
    requires u !in profiles
    ensures var p := profiles[u := Profile(None, if Given(avatar) then avatar else None)];
      u in p && !Given(p[u].username)
  { }

  // ---------------------------------------------------------------------------
  // The login page

  /** `getRedirectTarget` as written: the `redirect` parameter when it starts with `/`, `/` otherwise or on the server. */
  function RedirectTarget(hasWindow: bool, redirect: Option<string>): (r: string)
    ensures StartsWith(r, "/")
    ensures hasWindow && Given(redirect) && StartsWith(redirect.value, "/") ==> r == redirect.value
    ensures !(hasWindow && Given(redirect) && StartsWith(redirect.value, "/")) ==> r == "/"
  {
    if !hasWindow then "/" else KeepSlashPath(redirect)
  }

  /** The login page's rule as written sends a signed-in visitor to another site. */
  lemma RedirectTargetLeaksHost()
    ensures RedirectTarget(true, Some("//evil.example")) == "//evil.example"
    ensures LeavesOrigin(RedirectTarget(true, Some("//evil.example")))
  {
    assert StartsWith("//evil.example", "/");
  }

  /** `getRedirectTarget` as intended: the `redirect` parameter only when it is a path on this site. */
  function SafeRedirectTarget(hasWindow: bool, redirect: Option<string>): (r: string)
    ensures StartsWith(r, "/") && !LeavesOrigin(r)
    ensures !hasWindow ==> r == "/"
    ensures !LeavesOrigin(RedirectTarget(hasWindow, redirect)) ==> r == RedirectTarget(hasWindow, redirect)
  {
    if !hasWindow then "/" else SafePath(redirect)
  }

  /** `configured.replace(/\/$/, '')`: one trailing `/` removed. */
  function DropTrailingSlash(s: string): (r: string)
    ensures EndsWith(s, "/") ==> r + "/" == s
    ensures !EndsWith(s, "/") ==> r == s
  {
    if EndsWith(s, "/") then s[..|s| - 1] else s
  }

  predicate IsHttpUrl(s: string) {
    StartsWith(s, "http://") || StartsWith(s, "https://")
  }

  /**
   * `getAuthOrigin`: the configured site URL, trimmed, when it is an http(s)
   * URL; otherwise the window's origin (`None` on the server); otherwise empty.
   */
  function AuthOrigin(configured: Option<string>, windowOrigin: Option<string>): (r: string)
    ensures configured.Some? && IsHttpUrl(Trim(configured.value)) ==>
      r == DropTrailingSlash(Trim(configured.value))
    ensures !(configured.Some? && IsHttpUrl(Trim(configured.value))) ==>
      r == windowOrigin.GetOr("")
  {
    if configured.Some? && IsHttpUrl(Trim(configured.value)) then
      DropTrailingSlash(Trim(configured.value))
    else windowOrigin.GetOr("")
  }

  /** The `redirectTo` of the OAuth request; `encode` is `encodeURIComponent`. */
  function OAuthReturnUrl(origin: string, target: string, encode: string -> string): (r: string)
    ensures StartsWith(r, origin) && r[|origin|..] == "/auth/callback?next=" + encode(target)
  {
    origin + "/auth/callback?next=" + encode(target)
  }

  /**
   * The round trip through sign-in: when the callback's query decoding undoes
   * `encode`, the callback's `next` path is the login page's target, under
   * the rules as written and under the intended ones alike.
   */
  lemma ReturnPathSurvives(hasWindow: bool, redirect: Option<string>, encode: string -> string, decode: string -> string)
    requires decode(encode(RedirectTarget(hasWindow, redirect))) == RedirectTarget(hasWindow, redirect)
    requires decode(encode(SafeRedirectTarget(hasWindow, redirect))) == SafeRedirectTarget(hasWindow, redirect)
    ensures KeepSlashPath(Some(decode(encode(RedirectTarget(hasWindow, redirect))))) == RedirectTarget(hasWindow, redirect)
    ensures SafePath(Some(decode(encode(SafeRedirectTarget(hasWindow, redirect))))) == SafeRedirectTarget(hasWindow, redirect)
  {
    assert StartsWith(RedirectTarget(hasWindow, redirect), "/");
    assert StartsWith(SafeRedirectTarget(hasWindow, redirect), "/");
  }

  /** `checkUser`: where a signed-in visitor of the login page is sent; nowhere when signed out. */
  function LoginRedirect(signedIn: bool, username: Option<string>, target: string): (r: Option<string>)
    ensures r.Some? <==> signedIn
    ensures signedIn && Given(username) ==> r == Some(target)
    ensures signedIn && !Given(username) ==> r == Some("/onboarding")
  {
    if !signedIn then None else if Given(username) then Some(target) else Some("/onboarding")
  }
}

=== FILE: base64url.dfy ===
/**
 * Decoding of the VAPID public key: base64url text (the alphabet of RFC 4648 §5,
 * usually unpadded) is padded, mapped back to the base64 alphabet of
 * RFC 4648 §4, handed to `atob`, and its binary string copied into a byte array.
 * `atob` follows the forgiving-base64 decode of the WHATWG HTML standard.
 */
module Base64Url {
  import opened Wrappers
  import opened Strings
  import opened Seqs

  type byte = x: int | 0 <= x < 256

  // ---------------------------------------------------------------------------
  // The two alphabets

  /** Symbol `v` of the base64 alphabet. */
  function StdChar(v: int): (c: char)
    requires 0 <= v < 64
  {
    if v < 26 then ('A' as int + v) as char
    else if v < 52 then ('a' as int + v - 26) as char
    else if v < 62 then ('0' as int + v - 52) as char
    else if v == 62 then '+'
    else '/'
  }

  /** Symbol `v` of the URL- and filename-safe (base64url) alphabet. */
  function UrlChar(v: int): (c: char)
    requires 0 <= v < 64
    ensures c != '='
  {
    if v == 62 then '-' else if v == 63 then '_' else StdChar(v)
  }

  predicate IsStdChar(c: char) {
    IsAsciiUpper(c) || IsAsciiLower(c) || IsAsciiDigit(c) || c == '+' || c == '/'
  }

  /**
   * The 6-bit value of a base64 symbol, the inverse of `StdChar` on the
   * alphabet (`atob` rejects text with any other character before decoding).
   */
  function SextetValue(c: char): (v: int)
    ensures 0 <= v < 64
    ensures IsStdChar(c) ==> StdChar(v) == c
  {
    if IsAsciiUpper(c) then c as int - 'A' as int
    else if IsAsciiLower(c) then c as int - 'a' as int + 26
    else if IsAsciiDigit(c) then c as int - '0' as int + 52
    else if c == '+' then 62
    else 63
  }

  lemma SextetOfStdChar(v: int)
    requires 0 <= v < 64
    ensures IsStdChar(StdChar(v)) && SextetValue(StdChar(v)) == v
  { }

  // ---------------------------------------------------------------------------
  // Preparing the text

  /** `(4 - length % 4) % 4`: the number of `=` appended. */
  function PaddingLength(n: nat): (p: nat)
    ensures p <= 3 && (n + p) % 4 == 0
    ensures n % 4 == 0 <==> p == 0
  {
    (4 - n % 4) % 4
  }

  function Repeat(c: char, n: nat): (r: string)
    ensures |r| == n && forall i :: 0 <= i < n ==> r[i] == c
  {
    if n == 0 then [] else [c] + Repeat(c, n - 1)
  }

  /** `-` becomes `+`, `_` becomes `/`, every other character stays. */
  function ToStdChar(c: char): char {
    if c == '-' then '+' else if c == '_' then '/' else c
  }

  /** The two global `replace` calls. */
  function ToStdAlphabet(s: string): (r: string)
    ensures |r| == |s|
    ensures forall i :: 0 <= i < |s| ==> r[i] == ToStdChar(s[i])
    ensures forall i :: 0 <= i < |s| ==> r[i] != '-' && r[i] != '_'
    ensures forall i :: 0 <= i < |s| && s[i] != '-' && s[i] != '_' ==> r[i] == s[i]
  {
    seq(|s|, i requires 0 <= i < |s| => ToStdChar(s[i]))
  }

  /** The text handed to `atob`. */
  function Prepare(s: string): (r: string)
    ensures |r| == |s| + PaddingLength(|s|) && |r| % 4 == 0
  {
    ToStdAlphabet(s + Repeat('=', PaddingLength(|s|)))
  }

  // ---------------------------------------------------------------------------
  // atob

  /** ASCII whitespace: tab, line feed, form feed, carriage return and space. */
  predicate IsAsciiWhitespace(c: char) {
    c == '\t' || c == '\n' || c == '\U{000C}' || c == '\r' || c == ' '
  }

  /** Step 2 of forgiving-base64 decode: at a length divisible by 4, one or two trailing `=` go. */
  function DropPadding(s: string): (r: string)
    ensures |r| <= |s| && r == s[..|r|]
  {
    if |s| % 4 == 0 && EndsWith(s, "==") then s[..|s| - 2]
    else if |s| % 4 == 0 && EndsWith(s, "=") then s[..|s| - 1]
    else s
  }

  /** The bytes of a complete group of four symbols: the three octets of their 24 bits. */
  function Triple(s0: int, s1: int, s2: int, s3: int): (r: seq<byte>)
    requires 0 <= s0 < 64 && 0 <= s1 < 64 && 0 <= s2 < 64 && 0 <= s3 < 64
    ensures |r| == 3
  {
    var n := s0 * 262144 + s1 * 4096 + s2 * 64 + s3;
    [n / 65536, (n / 256) % 256, n % 256]
  }

  /**
   * Decodes symbols in groups of four; a final group of 2 or 3 symbols gives 1
   * or 2 bytes, its spare bits dropped (`atob` rejects a final group of one).
   */
  function DecodeSymbols(d: string): (r: seq<byte>)
    ensures |r| == |d| / 4 * 3 + (if |d| % 4 == 3 then 2 else if |d| % 4 == 2 then 1 else 0)
    decreases |d|
  {
    if |d| >= 4 then
      Triple(SextetValue(d[0]), SextetValue(d[1]), SextetValue(d[2]), SextetValue(d[3])) + DecodeSymbols(d[4..])
    else if |d| == 3 then
      var n := (SextetValue(d[0]) * 4096 + SextetValue(d[1]) * 64 + SextetValue(d[2])) / 4;
      [n / 256, n % 256]
    else if |d| == 2 then
      [(SextetValue(d[0]) * 64 + SextetValue(d[1])) / 16]
    else []
  }

  /** The binary string whose character codes are the bytes. */
  function BinaryString(b: seq<byte>): (r: string)
    ensures |r| == |b| && forall i :: 0 <= i < |b| ==> r[i] as int == b[i]
  {
    seq(|b|, i requires 0 <= i < |b| => b[i] as char)
  }

  /** `atob`: the binary string, or `None` where it throws (a stray length or a symbol outside the alphabet). */
  function Atob(data: string): (r: Option<string>)
    ensures r.Some? ==> forall i :: 0 <= i < |r.value| ==> r.value[i] as int < 256
  {
    var d := DropPadding(Filter(data, c => !IsAsciiWhitespace(c)));
    if |d| % 4 == 1 || exists i :: 0 <= i < |d| && !IsStdChar(d[i]) then None
    else Some(BinaryString(DecodeSymbols(d)))
  }

  /** The bytes `urlBase64ToUint8Array` yields, or `None` where `atob` throws. */
  function DecodeKey(s: string): (r: Option<seq<byte>>)
    ensures r.None? <==> Atob(Prepare(s)).None?
    ensures r.Some? ==> |r.value| == |Atob(Prepare(s)).value|
    ensures r.Some? ==> forall i :: 0 <= i < |r.value| ==> r.value[i] == Atob(Prepare(s)).value[i] as int
  {
    match Atob(Prepare(s))
    case None => None
    case Some(raw) => Some(seq(|raw|, i requires 0 <= i < |raw| => raw[i] as int))
  }

  /**
   * `urlBase64ToUint8Array`: a fresh array holding, at each index, the code of
   * the binary string's character there.
   */
  method UrlBase64ToBytes(s: string) returns (r: Option<array<byte>>)
    ensures r.None? <==> DecodeKey(s).None?
    ensures r.Some? ==> fresh(r.value) && r.value[..] == DecodeKey(s).value
  {
    var raw := Atob(Prepare(s));
    if raw.None? {
      return None;
    }
    var rawData := raw.value;
    var output := new byte[|rawData|];
    for i := 0 to |rawData|
      invariant forall j :: 0 <= j < i ==> output[j] == rawData[j] as int
    {
      output[i] := rawData[i] as int;
    }
    r := Some(output);
  }

  // ---------------------------------------------------------------------------
  // The encoder the key comes from, and the round trip

  /** Symbol `v` of the chosen alphabet. */
  function Symbol(v: int, url: bool): char
    requires 0 <= v < 64
  {
    if url then UrlChar(v) else StdChar(v)
  }

  /** The symbols of three bytes. */
  function Quad(b0: byte, b1: byte, b2: byte, url: bool): (r: string)
    ensures |r| == 4
  {
    [Symbol(b0 / 4, url), Symbol((b0 % 4) * 16 + b1 / 16, url), Symbol((b1 % 16) * 4 + b2 / 64, url), Symbol(b2 % 64, url)]
  }

  /**
   * Unpadded base64 encoding in the base64url alphabet (`url`) or the base64
   * one: a final one or two bytes give two or three symbols.
   */
  function Encode(b: seq<byte>, url: bool): (r: string)
    ensures forall i :: 0 <= i < |r| ==> r[i] != '='
    decreases |b|
  {
    if |b| >= 3 then Quad(b[0], b[1], b[2], url) + Encode(b[3..], url)
    else if |b| == 2 then [Symbol(b[0] / 4, url), Symbol((b[0] % 4) * 16 + b[1] / 16, url), Symbol((b[1] % 16) * 4, url)]
    else if |b| == 1 then [Symbol(b[0] / 4, url), Symbol((b[0] % 4) * 16, url)]
    else []
  }

  /** Every three bytes take four symbols; a final one or two bytes take two or three. */
  lemma {:induction false} EncodeLength(b: seq<byte>, url: bool)
    ensures |Encode(b, url)| == (|b| / 3) * 4 + (if |b| % 3 == 0 then 0 else |b| % 3 + 1)
    ensures |Encode(b, url)| % 4 != 1
    decreases |b|
  {
    if |b| >= 3 {
      EncodeLength(b[3..], url);
      assert |Encode(b, url)| == 4 + |Encode(b[3..], url)|;
      var m := |b| - 3;
      DivMod3(|b|, m / 3 + 1, m % 3);
    }
    var t := if |b| % 3 == 0 then 0 else |b| % 3 + 1;
    DivMod4(|Encode(b, url)|, |b| / 3, t);
  }

  lemma DivMod3(x: int, q: int, r: int)
    requires 0 <= r < 3 && x == q * 3 + r
    ensures x / 3 == q && x % 3 == r
  { }

  /** Mapping a base64url symbol to the base64 alphabet gives the base64 symbol of the same value. */
  lemma ToStdOfSymbol(v: int)
    requires 0 <= v < 64
    ensures ToStdChar(Symbol(v, true)) == Symbol(v, false)
  { }

  /** The base64url encoding mapped to the base64 alphabet is the base64 encoding. */
  lemma {:induction false} ToStdOfUrlEncoding(b: seq<byte>)
    ensures ToStdAlphabet(Encode(b, true)) == Encode(b, false)
    decreases |b|
  {
    if |b| >= 3 {
      ToStdOfUrlEncoding(b[3..]);
      var q, rest := Quad(b[0], b[1], b[2], true), Encode(b[3..], true);
      assert ToStdAlphabet(q + rest) == ToStdAlphabet(q) + ToStdAlphabet(rest);
      assert ToStdAlphabet(q) == Quad(b[0], b[1], b[2], false) by {
        ToStdOfSymbol(b[0] / 4);
        ToStdOfSymbol((b[0] % 4) * 16 + b[1] / 16);
        ToStdOfSymbol((b[1] % 16) * 4 + b[2] / 64);
        ToStdOfSymbol(b[2] % 64);
      }
    } else if |b| == 2 {
      ToStdOfSymbol(b[0] / 4);
      ToStdOfSymbol((b[0] % 4) * 16 + b[1] / 16);
      ToStdOfSymbol((b[1] % 16) * 4);
    } else if |b| == 1 {
      ToStdOfSymbol(b[0] / 4);
      ToStdOfSymbol((b[0] % 4) * 16);
    }
  }

  /** The base64 encoding uses only the alphabet. */
  lemma {:induction false} StdEncodingSymbols(b: seq<byte>)
    ensures forall i :: 0 <= i < |Encode(b, false)| ==> IsStdChar(Encode(b, false)[i])
    decreases |b|
  {
    if |b| >= 3 {
      StdEncodingSymbols(b[3..]);
      var q, rest := Quad(b[0], b[1], b[2], false), Encode(b[3..], false);
      forall i | 0 <= i < 4
        ensures IsStdChar(q[i])
      {
        SextetOfStdChar(b[0] / 4);
        SextetOfStdChar((b[0] % 4) * 16 + b[1] / 16);
        SextetOfStdChar((b[1] % 16) * 4 + b[2] / 64);
        SextetOfStdChar(b[2] % 64);
      }
    } else if |b| == 2 {
      SextetOfStdChar(b[0] / 4);
      SextetOfStdChar((b[0] % 4) * 16 + b[1] / 16);
      SextetOfStdChar((b[1] % 16) * 4);
    } else if |b| == 1 {
      SextetOfStdChar(b[0] / 4);
      SextetOfStdChar((b[0] % 4) * 16);
    }
  }

  lemma DivMod4(x: int, q: int, r: int)
    requires 0 <= r < 4 && x == q * 4 + r
    ensures x / 4 == q && x % 4 == r
  { }

  lemma DivMod256(x: int, q: int, r: int)
    requires 0 <= r < 256 && x == q * 256 + r
    ensures x / 256 == q && x % 256 == r
  { }

  lemma DivMod65536(x: int, q: int, r: int)
    requires 0 <= r < 65536 && x == q * 65536 + r
    ensures x / 65536 == q && x % 65536 == r
  { }

  /** Three bytes survive their four symbols. */
  lemma TripleOfQuad(b0: byte, b1: byte, b2: byte)
    ensures Triple(b0 / 4, (b0 % 4) * 16 + b1 / 16, (b1 % 16) * 4 + b2 / 64, b2 % 64) == [b0, b1, b2]
  {
    var h0, l0: int := b0 / 4, b0 % 4;
    var h1, l1: int := b1 / 16, b1 % 16;
    var h2, l2: int := b2 / 64, b2 % 64;
    assert b0 == 4 * h0 + l0 && b1 == 16 * h1 + l1 && b2 == 64 * h2 + l2;
    var n: int := h0 * 262144 + (l0 * 16 + h1) * 4096 + (l1 * 4 + h2) * 64 + l2;
    assert n == b0 * 65536 + b1 * 256 + b2;
    DivMod65536(n, b0, b1 * 256 + b2);
    DivMod256(n, b0 * 256 + b1, b2);
    DivMod256(b0 * 256 + b1, b0, b1);
  }

  /** A group of four symbols decodes to its three bytes, ahead of whatever follows. */
  lemma DecodeQuad(b0: byte, b1: byte, b2: byte, rest: string)
    ensures DecodeSymbols(Quad(b0, b1, b2, false) + rest) == [b0, b1, b2] + DecodeSymbols(rest)
  {
    var q := Quad(b0, b1, b2, false);
    var e := q + rest;
    SextetOfStdChar(b0 / 4);
    SextetOfStdChar((b0 % 4) * 16 + b1 / 16);
    SextetOfStdChar((b1 % 16) * 4 + b2 / 64);
    SextetOfStdChar(b2 % 64);
    assert e[..4] == q && e[4..] == rest;
    TripleOfQuad(b0, b1, b2);
  }

  /** The arithmetic of a final pair: its 16 bits, shifted left by two, and back. */
  lemma PairArith(b0: byte, b1: byte)
    ensures var n := ((b0 / 4) * 4096 + ((b0 % 4) * 16 + b1 / 16) * 64 + (b1 % 16) * 4) / 4;
      n / 256 == b0 && n % 256 == b1
  {
    var h0, l0: int := b0 / 4, b0 % 4;
    var h1, l1: int := b1 / 16, b1 % 16;
    var v: int := b0 as int * 256 + b1 as int;
    var m: int := h0 * 4096 + (l0 * 16 + h1) * 64 + l1 * 4;
    assert m == v * 4;
    DivMod4(m, v, 0);
    DivMod256(v, b0, b1);
  }

  /** A final pair of bytes survives its three symbols. */
  lemma DecodePair(b0: byte, b1: byte)
    ensures DecodeSymbols(Encode([b0, b1], false)) == [b0, b1]
  {
    var x0, x1, x2 := b0 / 4, (b0 % 4) * 16 + b1 / 16, (b1 % 16) * 4;
    var e := Encode([b0, b1], false);
    assert e == [StdChar(x0), StdChar(x1), StdChar(x2)];
    SextetOfStdChar(x0);
    SextetOfStdChar(x1);
    SextetOfStdChar(x2);
    assert DecodeSymbols(e) == [(x0 * 4096 + x1 * 64 + x2) / 4 / 256, (x0 * 4096 + x1 * 64 + x2) / 4 % 256];
    PairArith(b0, b1);
  }

  /** A final single byte survives its two symbols. */
  lemma DecodeSingle(b0: byte)
    ensures DecodeSymbols(Encode([b0], false)) == [b0]
  {
    SextetOfStdChar(b0 / 4);
    SextetOfStdChar((b0 % 4) * 16);
  }

  /** Decoding the base64 encoding gives the bytes back. */
  lemma {:induction false} DecodeOfEncode(b: seq<byte>)
    ensures DecodeSymbols(Encode(b, false)) == b
    decreases |b|
  {
    if |b| >= 3 {
      DecodeOfEncode(b[3..]);
      DecodeQuad(b[0], b[1], b[2], Encode(b[3..], false));
      assert b == [b[0], b[1], b[2]] + b[3..];
    } else if |b| == 2 {
      DecodePair(b[0], b[1]);
      assert b == [b[0], b[1]];
    } else if |b| == 1 {
      DecodeSingle(b[0]);
      assert b == [b[0]];
    }
  }

  /** Padding an unpadded encoding and dropping it again restores it. */
  lemma DropAddedPadding(e: string)
    requires forall i :: 0 <= i < |e| ==> IsStdChar(e[i])
    requires |e| % 4 != 1
    ensures DropPadding(e + Repeat('=', PaddingLength(|e|))) == e
  {
    var p := e + Repeat('=', PaddingLength(|e|));
    if |e| % 4 == 0 && |e| > 0 {
      assert p == e;
      assert p[|p| - 1] != '=';
      assert !EndsWith(p, "=") && !EndsWith(p, "==");
    } else if |e| % 4 == 2 {
      assert p[|p| - 2..] == "==";
      assert p[..|p| - 2] == e;
    } else if |e| % 4 == 3 {
      assert p[|p| - 1..] == "=";
      assert p[|p| - 2] != '=';
      assert !EndsWith(p, "==");
      assert p[..|p| - 1] == e;
    }
  }

  /** The text handed to `atob` for a base64url encoding is the base64 encoding with its padding. */
  lemma PrepareOfEncoding(b: seq<byte>)
    ensures Prepare(Encode(b, true)) == Encode(b, false) + Repeat('=', PaddingLength(|Encode(b, false)|))
  {
    var u := Encode(b, true);
    var pad := Repeat('=', PaddingLength(|u|));
    ToStdOfUrlEncoding(b);
    assert ToStdAlphabet(pad) == pad;
    assert ToStdAlphabet(u + pad) == ToStdAlphabet(u) + ToStdAlphabet(pad);
  }

  /** `atob` of a padded base64 encoding decodes its symbols. */
  lemma AtobOfPadded(e: string)
    requires forall i :: 0 <= i < |e| ==> IsStdChar(e[i])
    requires |e| % 4 != 1
    ensures Atob(e + Repeat('=', PaddingLength(|e|))) == Some(BinaryString(DecodeSymbols(e)))
  {
    var p := e + Repeat('=', PaddingLength(|e|));
    FilterAll(p, c => !IsAsciiWhitespace(c));
    DropAddedPadding(e);
  }

  /**
   * The round trip: decoding the unpadded base64url encoding of any bytes, as
   * `urlBase64ToUint8Array` does, yields those bytes.
   */
  lemma DecodeKeyOfEncoding(b: seq<byte>)
    ensures DecodeKey(Encode(b, true)) == Some(b)
  {
    var e := Encode(b, false);
    PrepareOfEncoding(b);
    StdEncodingSymbols(b);
    EncodeLength(b, false);
    DecodeOfEncode(b);
    AtobOfPadded(e);
    var raw := BinaryString(DecodeSymbols(e));
    assert seq(|raw|, i requires 0 <= i < |raw| => raw[i] as int) == b;
  }
}

=== FILE: feed.dfy ===
/**
 * The feed card's vote buttons and reaction bar: tallies over the rows shown,
 * the current user's own vote or reactions, and the guards on the handlers.
 */
module Feed {
  import opened Wrappers
  import opened Seqs

  type UserId = string

  // ---------------------------------------------------------------------------
  // The in-flight guard both handlers share

  /**
   * A click on a handler guarded by a `busy` flag (`isVoting`, `isReacting`):
   * it fires only when not `blocked` and not busy, and then sets busy until
   * its promise settles.
   */
  datatype Press = Press(fires: bool, busy: bool)

  function Click(blocked: bool, busy: bool): (p: Press)
    ensures p.fires <==> !blocked && !busy
    ensures p.busy <==> busy || p.fires
  {
    if blocked || busy then Press(false, busy) else Press(true, true)
  }

  /** Two clicks with no settling in between fire at most once. */
  lemma NoSecondFireInFlight(blocked: bool, busy: bool, blocked2: bool)
    ensures !(Click(blocked, busy).fires && Click(blocked2, Click(blocked, busy).busy).fires)
  { }

  /** After settling (`finally` clears the flag), an unblocked click fires again. */
  lemma FiresAfterSettle(blocked: bool)
    ensures !blocked ==> Click(blocked, false).fires
  { }

  // ---------------------------------------------------------------------------
  // Votes

  datatype VoteKind = Approve | Reject
  datatype Vote = Vote(user: UserId, vote: VoteKind)

  function ApproveCount(votes: seq<Vote>): (n: nat)
    ensures n <= |votes|
  {
    Count(votes, (v: Vote) => v.vote == Approve)
  }

  function RejectCount(votes: seq<Vote>): (n: nat)
    ensures n <= |votes|
  {
    Count(votes, (v: Vote) => v.vote == Reject)
  }

  /** Every vote is counted once: the two tallies add up to the number of votes. */
  lemma {:induction false} TalliesCoverVotes(votes: seq<Vote>)
    ensures ApproveCount(votes) + RejectCount(votes) == |votes|
  {
    if votes != [] {
      TalliesCoverVotes(votes[..|votes| - 1]);
    }
  }

  /** The index of the first of the user's votes. */
  function FirstVoteIndex(votes: seq<Vote>, user: UserId): (r: Option<nat>)
    ensures r.None? <==> forall i :: 0 <= i < |votes| ==> votes[i].user != user
    ensures r.Some? ==> r.value < |votes| && votes[r.value].user == user &&
                        forall j :: 0 <= j < r.value ==> votes[j].user != user
  {
    if votes == [] then None
    else if votes[0].user == user then Some(0)
    else
      match FirstVoteIndex(votes[1..], user)
      case None => None
      case Some(i) => Some(i + 1)
  }

  /** `votes.find(v => v.user_id === currentUserId)`: the first of the user's votes. */
  function UserVote(votes: seq<Vote>, user: UserId): (r: Option<Vote>)
    ensures r.None? <==> forall i :: 0 <= i < |votes| ==> votes[i].user != user
    ensures r.Some? ==> exists i :: 0 <= i < |votes| && votes[i] == r.value && r.value.user == user &&
                                    forall j :: 0 <= j < i ==> votes[j].user != user
  {
    match FirstVoteIndex(votes, user)
    case None => None
    case Some(i) => Some(votes[i])
  }

  /** The submitter sees no buttons; anyone else sees both, disabled while voting or once they have voted. */
  datatype VoteView = OwnSubmission | Buttons(disabled: bool, mine: Option<VoteKind>, approves: nat, rejects: nat)

  function VoteButtons(votes: seq<Vote>, currentUser: UserId, submitter: UserId, isVoting: bool): (v: VoteView)
    ensures v.OwnSubmission? <==> currentUser == submitter
    ensures v.Buttons? ==> (v.disabled <==> isVoting || UserVote(votes, currentUser).Some?)
    ensures v.Buttons? && UserVote(votes, currentUser).Some? ==>
      v.disabled && v.mine == Some(UserVote(votes, currentUser).value.vote)
    ensures v.Buttons? && UserVote(votes, currentUser).None? ==> v.mine.None?
    ensures v.Buttons? ==> v.approves == ApproveCount(votes) && v.rejects == RejectCount(votes)
    ensures v.Buttons? ==> v.approves + v.rejects == |votes|
  {
    if currentUser == submitter then OwnSubmission
    else
      TalliesCoverVotes(votes);
      var mine := UserVote(votes, currentUser);
      Buttons(isVoting || mine.Some?, if mine.Some? then Some(mine.value.vote) else None,
              ApproveCount(votes), RejectCount(votes))
  }

  /** `handleVote`: the submitter's own click, or one during a vote in flight, never reaches `onVote`. */
  function HandleVote(currentUser: UserId, submitter: UserId, isVoting: bool): (p: Press)
    ensures currentUser == submitter ==> !p.fires
    ensures isVoting ==> !p.fires
  {
    Click(currentUser == submitter, isVoting)
  }

  // ---------------------------------------------------------------------------
  // Reactions

  /** The keys of `REACTION_EMOJIS`, in order. */
  const ReactionTypes: seq<string> := ["funny", "creative", "precise", "bold", "gross"]

  datatype Reaction = Reaction(user: UserId, kind: string)

  /** `getReactionCount`. */
  function ReactionCount(reactions: seq<Reaction>, kind: string): (n: nat)
    ensures n <= |reactions|
  {
    Count(reactions, (r: Reaction) => r.kind == kind)
  }

  /** `hasUserReacted`. */
  predicate HasUserReacted(reactions: seq<Reaction>, user: UserId, kind: string) {
    exists i :: 0 <= i < |reactions| && reactions[i].user == user && reactions[i].kind == kind
  }

  /** A reaction the user has made is counted, so its button never shows 0 while active. */
  lemma ReactedImpliesCounted(reactions: seq<Reaction>, user: UserId, kind: string)
    requires HasUserReacted(reactions, user, kind)
    ensures ReactionCount(reactions, kind) >= 1
  {
    var i :| 0 <= i < |reactions| && reactions[i].user == user && reactions[i].kind == kind;
    FilterMembership(reactions, (r: Reaction) => r.kind == kind, reactions[i]);
  }

  /** The five counts over the bar's buttons. */
  function ReactionCounts(reactions: seq<Reaction>): (counts: seq<nat>)
    ensures |counts| == |ReactionTypes|
    ensures forall i :: 0 <= i < |counts| ==> counts[i] == ReactionCount(reactions, ReactionTypes[i])
  {
    seq(|ReactionTypes|, i requires 0 <= i < |ReactionTypes| => ReactionCount(reactions, ReactionTypes[i]))
  }

  function Sum(xs: seq<nat>): nat {
    if xs == [] then 0 else Sum(xs[..|xs| - 1]) + xs[|xs| - 1]
  }

  lemma SumOfFive(xs: seq<nat>)
    requires |xs| == 5
    ensures Sum(xs) == xs[0] + xs[1] + xs[2] + xs[3] + xs[4]
  {
    assert xs[..4][..3] == xs[..3] && xs[..3][..2] == xs[..2] && xs[..2][..1] == xs[..1];
    assert Sum(xs[..1]) == xs[0];
    assert Sum(xs[..2]) == xs[0] + xs[1];
    assert Sum(xs[..3]) == xs[0] + xs[1] + xs[2];
    assert Sum(xs[..4]) == xs[0] + xs[1] + xs[2] + xs[3];
  }

  /** Appending a reaction raises the count of its own type by one and leaves the others. */
  lemma CountStep(init: seq<Reaction>, x: Reaction, t: string)
    ensures ReactionCount(init + [x], t) == ReactionCount(init, t) + (if x.kind == t then 1 else 0)
  {
    assert (init + [x])[..|init|] == init;
  }

  /** Raising one of five numbers by one raises their sum by one. */
  lemma SumStep(c0: seq<nat>, c1: seq<nat>, j: int)
    requires |c0| == 5 && |c1| == 5 && 0 <= j < 5
    requires forall i :: 0 <= i < 5 ==> c1[i] == c0[i] + (if i == j then 1 else 0)
    ensures Sum(c1) == Sum(c0) + 1
  {
    SumOfFive(c0);
    SumOfFive(c1);
  }

  /** When every reaction has one of the five types, the counts add up to the number of reactions. */
  lemma {:induction false} CountsCoverReactions(reactions: seq<Reaction>)
    requires forall i :: 0 <= i < |reactions| ==> reactions[i].kind in ReactionTypes
    ensures Sum(ReactionCounts(reactions)) == |reactions|
  {
    if reactions != [] {
      var init, x := reactions[..|reactions| - 1], reactions[|reactions| - 1];
      assert reactions == init + [x];
      CountsCoverReactions(init);
      var c0, c1 := ReactionCounts(init), ReactionCounts(reactions);
      var j :| 0 <= j < 5 && ReactionTypes[j] == x.kind;
      forall i | 0 <= i < 5
        ensures c1[i] == c0[i] + (if i == j then 1 else 0)
      {
        CountStep(init, x, ReactionTypes[i]);
        // the five types are distinct
        assert x.kind == ReactionTypes[i] <==> i == j;
      }
      SumStep(c0, c1, j);
    } else {
      SumOfFive(ReactionCounts(reactions));
    }
  }

  /** `handleReaction`: no second `onReact` while one is in flight. */
  function HandleReaction(isReacting: bool): (p: Press)
    ensures p.fires <==> !isReacting
  {
    Click(false, isReacting)
  }
}

=== FILE: insignia.dfy ===
/**
 * The rank insignia: four symbols showing the normalised rank's level, in
 * the rank's colour.
 */
module Insignia {
  import opened Wrappers
  import opened Utils

  /** RANK_LEVEL of the insignia. */
  const RankLevel: map<string, nat> := map[
    "RECRUTA" := 0, "AGENTE" := 1, "SENIOR" := 2,
    "OPERADOR" := 3, "VETERANO" := 4, "LENDA" := 5]

  const Star: char := '\U{2605}'

  /** The insignia's level table is the rank order. */
  lemma RankLevelIsRankOrder()
    ensures RankLevel == RankOrder
  { }

  /** `Math.min(RANK_LEVEL[normalized], 4)`. */
  function FilledCount(rank: Option<string>): (n: nat)
    ensures n <= 4
    ensures n == if RankOrder[NormalizeRank(rank)] < 4 then RankOrder[NormalizeRank(rank)] else 4
  {
    RankLevelIsRankOrder();
    var level := RankLevel[NormalizeRank(rank)];
    if level < 4 then level else 4
  }

  /** The four symbols: four stars for LENDA, otherwise the filled circles first, then hollow ones. */
  function Symbols(rank: Option<string>): (r: seq<char>)
    ensures |r| == 4
    ensures NormalizeRank(rank) == "LENDA" ==> forall i :: 0 <= i < 4 ==> r[i] == Star
    ensures NormalizeRank(rank) != "LENDA" ==>
      forall i :: 0 <= i < 4 ==> r[i] == if i < FilledCount(rank) then FilledDot else HollowDot
  {
    if NormalizeRank(rank) == "LENDA" then [Star, Star, Star, Star]
    else seq(4, i => if i < FilledCount(rank) then FilledDot else HollowDot)
  }

  /** A higher rank never shows fewer filled symbols. */
  lemma FilledMonotone(lower: Option<string>, higher: Option<string>)
    requires RankOrder[NormalizeRank(lower)] <= RankOrder[NormalizeRank(higher)]
    ensures FilledCount(lower) <= FilledCount(higher)
  { }

  /** Below LENDA, a rank above another in the order shows strictly more circles filled, up to the four slots. */
  lemma FilledTracksRankUp(previous: Option<string>, next: Option<string>)
    requires DidRankUp(previous, next) && RankOrder[NormalizeRank(previous)] < 4
    ensures FilledCount(previous) < FilledCount(next)
  { }

  /** The insignia's colour: `RANK_COLORS[normalized]`, falling back to grey. */
  function Color(rank: Option<string>): (c: string)
    ensures c == RankColor(rank)
    ensures c == RankColors[NormalizeRank(rank)]
  {
    var key := NormalizeRank(rank);
    if key in RankColors && RankColors[key] != "" then RankColors[key] else "#6b6660"
  }
}

=== FILE: maintenance.dfy ===
/**
 * The three scheduled jobs that run over the operations store:
 * completing expired operations (supabase/functions/complete-operations-cron),
 * purging completed operations a week after their end
 * (supabase/functions/cleanup-completed-operations) and the once-a-day reset
 * notification (supabase/functions/notify-daily-missions).
 *
 * Each job first queries a list of rows; `scan` is that list in the order the
 * database returns it. Every later call that may fail is an oracle parameter,
 * and the calls whose result the job ignores are recorded as effects.
 */
module Maintenance {
  import opened Wrappers
  import opened Strings
  import opened Seqs
  import opened Utils
  import opened Operations

  // ---------------------------------------------------------------------------
  // Completing expired operations

  /** The rows the completion query returns: active operations whose end time has passed. */
  function ExpiredIds(ops: map<OpId, Operation>, now: int): (r: set<OpId>)
    ensures r <= ops.Keys
    ensures forall id :: id in r ==> ops[id].status == Active && ops[id].endsAt.Some?
    ensures forall id :: id in ops && id !in r && ops[id].status == Active && ops[id].endsAt.Some? ==>
      now < ops[id].endsAt.value
  {
    set id | id in ops && ops[id].status == Active && ops[id].endsAt.Some? && ops[id].endsAt.value <= now
  }

  /** `update({status: 'completed'}).eq('id', id).eq('status', 'active')` for every id of `ids`. */
  function MarkCompleted(ops: map<OpId, Operation>, ids: set<OpId>): (r: map<OpId, Operation>)
    ensures r.Keys == ops.Keys
    ensures forall id :: id in r ==> r[id].(status := ops[id].status) == ops[id]
    ensures forall id :: id in r ==>
      (r[id].status == Completed <==> ops[id].status == Completed || (id in ids && ops[id].status == Active))
    ensures forall id :: id in r && id !in ids ==> r[id] == ops[id]
  {
    map id | id in ops :: if id in ids && ops[id].status == Active then ops[id].(status := Completed) else ops[id]
  }

  const CompletedTitle: string := "Operacao encerrada"

  /** The user ids the members query yields: none when it fails. */
  function MemberReads(ms: set<Membership>, id: OpId, readFails: set<OpId>): set<UserId> {
    if id in readFails then {} else MemberIds(ms, id)
  }

  /** notifyOperationCompleted: a push to the members, only when there are some and a service key is configured. */
  function CompletionNotice(id: OpId, name: string, users: set<UserId>, serviceKey: bool): (r: seq<Effect>)
    ensures |r| <= 1
    ensures r != [] <==> users != {} && serviceKey
    ensures r != [] ==> r[0].Push? && r[0].op == id && r[0].users == users && r[0].title == CompletedTitle
  {
    if users != {} && serviceKey then [Push(id, users, CompletedTitle, "Cerimonia disponivel: " + name)] else []
  }

  datatype CompleteRun = CompleteRun(completed: seq<OpId>, effects: seq<Effect>)

  /** The completion loop over the first rows of the scan. */
  function CompleteSteps(ops: map<OpId, Operation>, ms: set<Membership>, scan: seq<OpId>,
                         updateFails: set<OpId>, readFails: set<OpId>, serviceKey: bool): (r: CompleteRun)
    requires forall id :: id in scan ==> id in ops
    ensures |r.completed| <= |scan| <= |r.effects|
    ensures forall id :: id in r.completed ==> id in scan && id !in updateFails
  {
    if scan == [] then CompleteRun([], [])
    else
      var prev := CompleteSteps(ops, ms, scan[..|scan| - 1], updateFails, readFails, serviceKey);
      var id := scan[|scan| - 1];
      if id in updateFails then CompleteRun(prev.completed, prev.effects + [AwardBadges(id)])
      else CompleteRun(prev.completed + [id],
                       prev.effects + [AwardBadges(id)] + CompletionNotice(id, ops[id].name, MemberReads(ms, id, readFails), serviceKey))
  }

  /** The `completed` list is the scan with the failed updates left out, in scan order. */
  lemma {:induction false} CompletedInScanOrder(ops: map<OpId, Operation>, ms: set<Membership>, scan: seq<OpId>,
                                                updateFails: set<OpId>, readFails: set<OpId>, serviceKey: bool)
    requires forall id :: id in scan ==> id in ops
    ensures CompleteSteps(ops, ms, scan, updateFails, readFails, serviceKey).completed == Filter(scan, id => id !in updateFails)
  {
    if scan != [] {
      CompletedInScanOrder(ops, ms, scan[..|scan| - 1], updateFails, readFails, serviceKey);
    }
  }

  /** Every scanned row gets a badge award, whether or not its update succeeds. */
  lemma {:induction false} AwardForEveryRow(ops: map<OpId, Operation>, ms: set<Membership>, scan: seq<OpId>,
                                            updateFails: set<OpId>, readFails: set<OpId>, serviceKey: bool)
    requires forall id :: id in scan ==> id in ops
    ensures var run := CompleteSteps(ops, ms, scan, updateFails, readFails, serviceKey);
      forall id :: id in scan ==> AwardBadges(id) in run.effects
  {
    if scan != [] {
      var init := scan[..|scan| - 1];
      AwardForEveryRow(ops, ms, init, updateFails, readFails, serviceKey);
      var prev := CompleteSteps(ops, ms, init, updateFails, readFails, serviceKey);
      var run := CompleteSteps(ops, ms, scan, updateFails, readFails, serviceKey);
      assert forall e :: e in prev.effects ==> e in run.effects;
      assert AwardBadges(scan[|scan| - 1]) in run.effects;
      assert forall id :: id in scan ==> id in init || id == scan[|scan| - 1];
    }
  }

  /**
   * Every completion push comes right after the badge award of the same row,
   * is for a row whose update succeeded, goes to a non-empty set of members
   * and needs the service key.
   */
  ghost predicate PushesFollowAwards(effects: seq<Effect>, completed: seq<OpId>, serviceKey: bool) {
    forall i :: 0 <= i < |effects| && effects[i].Push? ==>
      && i > 0 && effects[i - 1] == AwardBadges(effects[i].op)
      && effects[i].op in completed
      && effects[i].users != {} && serviceKey
  }

  lemma {:induction false} PushFollowsAward(ops: map<OpId, Operation>, ms: set<Membership>, scan: seq<OpId>,
                                            updateFails: set<OpId>, readFails: set<OpId>, serviceKey: bool)
    requires forall id :: id in scan ==> id in ops
    ensures var run := CompleteSteps(ops, ms, scan, updateFails, readFails, serviceKey);
      PushesFollowAwards(run.effects, run.completed, serviceKey)
  {
    if scan != [] {
      var init := scan[..|scan| - 1];
      PushFollowsAward(ops, ms, init, updateFails, readFails, serviceKey);
      var prev := CompleteSteps(ops, ms, init, updateFails, readFails, serviceKey);
      var run := CompleteSteps(ops, ms, scan, updateFails, readFails, serviceKey);
      var id := scan[|scan| - 1];
      var n := |prev.effects|;
      var notice := if id in updateFails then [] else CompletionNotice(id, ops[id].name, MemberReads(ms, id, readFails), serviceKey);
      assert run.effects == prev.effects + [AwardBadges(id)] + notice;
      assert forall i :: 0 <= i < n ==> run.effects[i] == prev.effects[i];
      assert forall i :: n < i < |run.effects| ==> run.effects[i] == notice[i - n - 1];
      assert forall x :: x in prev.completed ==> x in run.completed;
      assert id !in updateFails ==> id in run.completed;
    }
  }

  /** The guarded update of one row. */
  function CompleteOne(ops: map<OpId, Operation>, id: OpId): map<OpId, Operation>
    requires id in ops
  {
    if ops[id].status == Active then ops[id := ops[id].(status := Completed)] else ops
  }

  /** The guarded updates of the loop, one row after the other. */
  function CompleteEach(ops: map<OpId, Operation>, ids: seq<OpId>): (r: map<OpId, Operation>)
    requires forall id :: id in ids ==> id in ops
    ensures r.Keys == ops.Keys
  {
    if ids == [] then ops else CompleteOne(CompleteEach(ops, ids[..|ids| - 1]), ids[|ids| - 1])
  }

  /** The loop's updates touch the status only: a row's name is the one the scan read. */
  lemma {:induction false} CompleteEachKeepsName(ops: map<OpId, Operation>, ids: seq<OpId>, id: OpId)
    requires forall x :: x in ids ==> x in ops
    requires id in ops
    ensures CompleteEach(ops, ids)[id].name == ops[id].name
  {
    if ids != [] {
      CompleteEachKeepsName(ops, ids[..|ids| - 1], id);
    }
  }

  /** Updating the rows one by one is the same as the set-wide guarded update. */
  lemma {:induction false} CompleteEachIsMark(ops: map<OpId, Operation>, ids: seq<OpId>)
    requires forall id :: id in ids ==> id in ops
    ensures CompleteEach(ops, ids) == MarkCompleted(ops, set id | id in ids)
  {
    if ids != [] {
      var init := ids[..|ids| - 1];
      CompleteEachIsMark(ops, init);
      assert (set id | id in ids) == (set id | id in init) + {ids[|ids| - 1]};
    }
  }

  /** Completing is guarded by `status = active`, so doing it again changes nothing. */
  lemma MarkCompletedIdempotent(ops: map<OpId, Operation>, ids: set<OpId>)
    ensures MarkCompleted(MarkCompleted(ops, ids), ids) == MarkCompleted(ops, ids)
  {
  }

  /** After completing a set of ids, exactly the other expired operations remain expired. */
  lemma ExpiredAfterCompletion(ops: map<OpId, Operation>, ids: set<OpId>, now: int)
    ensures ExpiredIds(MarkCompleted(ops, ids), now) == ExpiredIds(ops, now) - ids
  {
  }

  /** Completing operations keeps the store's invariant: fewer operations are live, nothing else moves. */
  lemma CompletionKeepsInvariant(ops: map<OpId, Operation>, ms: set<Membership>, ids: set<OpId>)
    requires Invariant(ops, ms)
    ensures Invariant(MarkCompleted(ops, ids), ms)
  {
    var ops' := MarkCompleted(ops, ids);
    assert forall id :: id in ops ==> ops'[id].inviteCode == ops[id].inviteCode;
    forall id | id in ops' ensures Members(ms, id) == Members(ms, id) {}
  }

  /**
   * The completion job. `queryFails` is the outcome of the query, `updateFails`
   * the rows whose update reports an error, `readFails` the rows whose members
   * query fails, `serviceKey` whether the service key is configured.
   */
  method CompleteExpiredOperations(store: Store, now: int, scan: seq<OpId>, queryFails: bool,
                                   updateFails: set<OpId>, readFails: set<OpId>, serviceKey: bool)
    returns (response: Result<seq<OpId>, ApiError>, effects: seq<Effect>)
    requires store.Valid()
    requires Distinct(scan) && forall id :: id in scan <==> id in ExpiredIds(store.operations, now)
    modifies store`operations
    ensures store.Valid()
    ensures queryFails ==> response == Err(StoreError) && effects == [] && store.operations == old(store.operations)
    ensures !queryFails ==>
      var run := CompleteSteps(old(store.operations), store.memberships, scan, updateFails, readFails, serviceKey);
      && response == Ok(run.completed)
      && effects == run.effects
      && store.operations == MarkCompleted(old(store.operations), set id | id in run.completed)
    ensures response.Ok? ==> forall id :: id in response.value ==> id in ExpiredIds(old(store.operations), now)
    ensures response.Ok? ==> store.operations.Keys == old(store.operations).Keys
    ensures response.Ok? ==> forall id :: id in old(store.operations) ==>
      store.operations[id] == if id in response.value then old(store.operations)[id].(status := Completed)
                              else old(store.operations)[id]
  {
    if queryFails {
      return Err(StoreError), [];
    }
    var completed;
    completed, effects := CompleteRows(store, scan, updateFails, readFails, serviceKey);
    CompleteEachIsMark(old(store.operations), completed);
    CompletionKeepsInvariant(old(store.operations), store.memberships, set id | id in completed);
    response := Ok(completed);
  }

  /** The loop of the completion job over the scanned rows. */
  method CompleteRows(store: Store, scan: seq<OpId>, updateFails: set<OpId>, readFails: set<OpId>, serviceKey: bool)
    returns (completed: seq<OpId>, effects: seq<Effect>)
    requires forall id :: id in scan ==> id in store.operations
    modifies store`operations
    ensures CompleteSteps(old(store.operations), store.memberships, scan, updateFails, readFails, serviceKey) == CompleteRun(completed, effects)
    ensures forall id :: id in completed ==> id in scan
    ensures store.operations == CompleteEach(old(store.operations), completed)
  {
    ghost var ops0 := store.operations;
    var ms := store.memberships;
    completed := [];
    effects := [];
    var i := 0;
    assert scan[..0] == [];
    while i < |scan|
      invariant 0 <= i <= |scan|
      invariant CompleteSteps(ops0, ms, scan[..i], updateFails, readFails, serviceKey) == CompleteRun(completed, effects)
      invariant forall id :: id in completed ==> id in scan[..i]
      invariant store.operations == CompleteEach(ops0, completed)
    {
      completed, effects := CompleteNext(store, scan, i, updateFails, readFails, serviceKey, ops0, ms, completed, effects);
      i := i + 1;
    }
    assert scan[..i] == scan;
  }

  /** The completion loop's body: row `i` of the scan, on top of the run over the rows before it. */
  method CompleteNext(store: Store, scan: seq<OpId>, i: nat, updateFails: set<OpId>, readFails: set<OpId>,
                      serviceKey: bool, ghost ops0: map<OpId, Operation>, ms: set<Membership>,
                      completed: seq<OpId>, effects: seq<Effect>)
    returns (completed': seq<OpId>, effects': seq<Effect>)
    requires i < |scan| && forall id :: id in scan ==> id in ops0
    requires CompleteSteps(ops0, ms, scan[..i], updateFails, readFails, serviceKey) == CompleteRun(completed, effects)
    requires forall id :: id in completed ==> id in scan[..i]
    requires store.operations == CompleteEach(ops0, completed)
    modifies store`operations
    ensures CompleteSteps(ops0, ms, scan[..i + 1], updateFails, readFails, serviceKey) == CompleteRun(completed', effects')
    ensures forall id :: id in completed' ==> id in scan[..i + 1]
    ensures store.operations == CompleteEach(ops0, completed')
  {
    var id := scan[i];
    assert scan[..i + 1][..i] == scan[..i];
    CompleteEachKeepsName(ops0, completed, id);
    var name := store.operations[id].name;
    completed', effects' := completed, effects + [AwardBadges(id)];
    if id !in updateFails {
      CompleteRow(store, id);
      completed' := completed + [id];
      assert completed'[..|completed'| - 1] == completed;
      var users := if id in readFails then {} else MemberIds(ms, id);
      effects' := effects' + CompletionNotice(id, name, users, serviceKey);
    }
    CompleteStepsNext(ops0, ms, scan, i, updateFails, readFails, serviceKey);
  }

  /** One more row of the scan: the completion loop's body. */
  lemma CompleteStepsNext(ops: map<OpId, Operation>, ms: set<Membership>, scan: seq<OpId>, i: nat,
                          updateFails: set<OpId>, readFails: set<OpId>, serviceKey: bool)
    requires i < |scan| && forall id :: id in scan ==> id in ops
    ensures var prev := CompleteSteps(ops, ms, scan[..i], updateFails, readFails, serviceKey);
      var id := scan[i];
      CompleteSteps(ops, ms, scan[..i + 1], updateFails, readFails, serviceKey)
        == if id in updateFails then CompleteRun(prev.completed, prev.effects + [AwardBadges(id)])
           else CompleteRun(prev.completed + [id],
                            prev.effects + [AwardBadges(id)] + CompletionNotice(id, ops[id].name, MemberReads(ms, id, readFails), serviceKey))
  {
    assert scan[..i + 1][..i] == scan[..i];
  }

  /** The guarded update of one row: `status = completed` only where the status is still active. */
  method CompleteRow(store: Store, id: OpId)
    requires id in store.operations
    modifies store`operations
    ensures var row := old(store.operations)[id];
      store.operations == if row.status == Active then old(store.operations)[id := row.(status := Completed)] else old(store.operations)
  {
    if store.operations[id].status == Active {
      store.operations := store.operations[id := store.operations[id].(status := Completed)];
    }
  }

  // ---------------------------------------------------------------------------
  // Purging completed operations

  /** The purge query's cutoff: seven days before now. */
  function PurgeCutoff(now: int): (cutoff: int)
    ensures now - cutoff == 604_800_000
  {
    now - 7 * DayMs
  }

  /** The rows the purge query returns: completed operations that ended at least seven days ago. */
  function PurgeCandidates(ops: map<OpId, Operation>, now: int): (r: set<OpId>)
    ensures r <= ops.Keys
    ensures forall id :: id in r ==> ops[id].status == Completed && ops[id].endsAt.Some?
    ensures forall id :: id in r ==> id !in ExpiredIds(ops, now)
  {
    set id | id in ops && ops[id].status == Completed && ops[id].endsAt.Some? && ops[id].endsAt.value <= PurgeCutoff(now)
  }

  const PhotoMarker: string := "/storage/v1/object/public/mission-photos/"

  /** What extractStoragePath gives for one URL: null, a path, or the URIError it throws. */
  datatype Extracted = NoMarker | Path(path: string) | Throws

  /**
   * extractStoragePath: the decoded text after the first occurrence of the
   * public-bucket marker. `decode` stands for `decodeURIComponent`; it gives
   * None where that throws (a malformed `%` escape).
   */
  function ExtractStoragePath(url: string, decode: string -> Option<string>): (r: Extracted)
    ensures r.NoMarker? <==> !Contains(url, PhotoMarker)
  {
    match IndexOf(url, PhotoMarker)
    case None => NoMarker
    case Some(i) =>
      var d := decode(url[i + |PhotoMarker|..]);
      if d.Some? then Path(d.value) else Throws
  }

  /** Where the marker first occurs at `i`, the result is the decoded rest of the URL after it, or the throw. */
  lemma ExtractAfterFirstMarker(url: string, decode: string -> Option<string>, i: nat)
    requires OccursAt(url, PhotoMarker, i)
    requires forall j: nat :: j < i ==> !OccursAt(url, PhotoMarker, j)
    ensures var d := decode(url[i + |PhotoMarker|..]);
      ExtractStoragePath(url, decode) == if d.Some? then Path(d.value) else Throws
  {
    assert Contains(url, PhotoMarker);
  }

  /** Some URL of the list makes the extraction throw. */
  predicate AnyThrows(urls: seq<string>, decode: string -> Option<string>) {
    exists u :: u in urls && ExtractStoragePath(u, decode).Throws?
  }

  /**
   * The storage paths of a list of photo URLs: extracted, with null and empty
   * results dropped. None when an extraction throws, which ends the `.map`.
   */
  function StoragePaths(urls: seq<string>, decode: string -> Option<string>): (r: Option<seq<string>>)
    ensures r.None? <==> AnyThrows(urls, decode)
    ensures r.Some? ==> |r.value| <= |urls| && forall i :: 0 <= i < |r.value| ==> r.value[i] != ""
  {
    if urls == [] then Some([])
    else
      var init := urls[..|urls| - 1];
      var p := ExtractStoragePath(urls[|urls| - 1], decode);
      assert forall u :: u in urls <==> u in init || u == urls[|urls| - 1];
      var prev := StoragePaths(init, decode);
      if prev.None? || p.Throws? then None
      else Some(prev.value + (if p.Path? && p.path != "" then [p.path] else []))
  }

  /** When nothing throws, a path is kept exactly when some URL yields it and it is not empty. */
  lemma {:induction false} StoragePathsMembership(urls: seq<string>, decode: string -> Option<string>, p: string)
    ensures StoragePaths(urls, decode).Some? ==>
      (p in StoragePaths(urls, decode).value <==> p != "" && exists u :: u in urls && ExtractStoragePath(u, decode) == Path(p))
  {
    if urls != [] {
      var init := urls[..|urls| - 1];
      var last := urls[|urls| - 1];
      StoragePathsMembership(init, decode, p);
      assert forall u :: u in urls <==> u in init || u == last;
    }
  }

  /** The photo paths the purge reads for one operation: none when the query fails (`missions || []`). */
  function OpPaths(photos: map<OpId, seq<string>>, id: OpId, readFails: set<OpId>, decode: string -> Option<string>): (r: Option<seq<string>>)
    ensures id in readFails || id !in photos ==> r == Some([])
    ensures r.Some? ==> forall p :: p in r.value ==> p != ""
    ensures r.Some? && id in photos ==> |r.value| <= |photos[id]|
  {
    if id in readFails || id !in photos then Some([]) else StoragePaths(photos[id], decode)
  }

  datatype PurgeReport = PurgeReport(removedOperations: seq<OpId>, removedPhotos: nat)

  /** The purge loop's accumulators, and whether an exception ended it. */
  datatype PurgeRun = PurgeRun(removed: seq<OpId>, photoCount: nat, effects: seq<Effect>, aborted: bool)

  /**
   * The purge loop over the first rows of the scan. A row whose paths throw
   * ends the run: the exception leaves the loop before that row's removal or
   * delete, and no later row is visited.
   */
  function PurgeSteps(photos: map<OpId, seq<string>>, scan: seq<OpId>, readFails: set<OpId>,
                      deleteFails: set<OpId>, decode: string -> Option<string>): (run: PurgeRun)
    ensures |run.removed| <= |scan|
  {
    if scan == [] then PurgeRun([], 0, [], false)
    else
      var prev := PurgeSteps(photos, scan[..|scan| - 1], readFails, deleteFails, decode);
      var id := scan[|scan| - 1];
      var paths := OpPaths(photos, id, readFails, decode);
      if prev.aborted then prev
      else if paths.None? then prev.(aborted := true)
      else
        var removal := if paths.value != [] then [RemovePhotos(id, paths.value)] else [];
        PurgeRun(prev.removed + (if id in deleteFails then [] else [id]),
                 prev.photoCount + |paths.value|,
                 prev.effects + removal + [DeleteOperation(id)], false)
  }

  /** Some row of the scan has photo URLs whose extraction throws. */
  predicate ScanThrows(photos: map<OpId, seq<string>>, scan: seq<OpId>, readFails: set<OpId>, decode: string -> Option<string>) {
    exists id :: id in scan && OpPaths(photos, id, readFails, decode).None?
  }

  /** One more row: the run is aborted after it iff it was before or the row throws. */
  lemma PurgeAbortedStep(photos: map<OpId, seq<string>>, scan: seq<OpId>, readFails: set<OpId>,
                         deleteFails: set<OpId>, decode: string -> Option<string>)
    requires scan != []
    ensures PurgeSteps(photos, scan, readFails, deleteFails, decode).aborted
        <==> PurgeSteps(photos, scan[..|scan| - 1], readFails, deleteFails, decode).aborted
             || OpPaths(photos, scan[|scan| - 1], readFails, decode).None?
  {
  }

  lemma ScanThrowsSnoc(photos: map<OpId, seq<string>>, scan: seq<OpId>, readFails: set<OpId>, decode: string -> Option<string>)
    requires scan != []
    ensures ScanThrows(photos, scan, readFails, decode)
        <==> ScanThrows(photos, scan[..|scan| - 1], readFails, decode)
             || OpPaths(photos, scan[|scan| - 1], readFails, decode).None?
  {
    assert forall id :: id in scan <==> id in scan[..|scan| - 1] || id == scan[|scan| - 1];
  }

  /** A run ends early exactly when some row of the scan throws. */
  lemma {:induction false} PurgeAbortsIff(photos: map<OpId, seq<string>>, scan: seq<OpId>, readFails: set<OpId>,
                                          deleteFails: set<OpId>, decode: string -> Option<string>)
    ensures PurgeSteps(photos, scan, readFails, deleteFails, decode).aborted <==> ScanThrows(photos, scan, readFails, decode)
  {
    if scan != [] {
      PurgeAbortsIff(photos, scan[..|scan| - 1], readFails, deleteFails, decode);
      PurgeAbortedStep(photos, scan, readFails, deleteFails, decode);
      ScanThrowsSnoc(photos, scan, readFails, decode);
    }
  }

  /** Only scanned operations are removed. */
  lemma {:induction false} PurgeRemovesScanned(photos: map<OpId, seq<string>>, scan: seq<OpId>, readFails: set<OpId>,
                                               deleteFails: set<OpId>, decode: string -> Option<string>)
    ensures forall x :: x in PurgeSteps(photos, scan, readFails, deleteFails, decode).removed ==> x in scan
  {
    if scan != [] {
      PurgeRemovesScanned(photos, scan[..|scan| - 1], readFails, deleteFails, decode);
    }
  }

  /**
   * A run that no exception ends removes the scan with the failed deletes
   * left out, in scan order: a failed delete does not stop the loop.
   */
  lemma {:induction false} PurgedInScanOrder(photos: map<OpId, seq<string>>, scan: seq<OpId>, readFails: set<OpId>,
                                             deleteFails: set<OpId>, decode: string -> Option<string>)
    ensures var run := PurgeSteps(photos, scan, readFails, deleteFails, decode);
      !run.aborted ==> run.removed == Filter(scan, id => id !in deleteFails)
  {
    if scan != [] {
      PurgedInScanOrder(photos, scan[..|scan| - 1], readFails, deleteFails, decode);
    }
  }

  /**
   * A row whose extraction throws ends the run where it stands: the run is the
   * one over the rows before it, marked as aborted, whatever follows.
   */
  lemma {:induction false} PurgeStopsAtThrow(photos: map<OpId, seq<string>>, scan: seq<OpId>, readFails: set<OpId>,
                                             deleteFails: set<OpId>, decode: string -> Option<string>, i: nat)
    requires i < |scan| && OpPaths(photos, scan[i], readFails, decode).None?
    ensures PurgeSteps(photos, scan, readFails, deleteFails, decode)
         == PurgeSteps(photos, scan[..i], readFails, deleteFails, decode).(aborted := true)
    decreases |scan|
  {
    var init := scan[..|scan| - 1];
    if i == |scan| - 1 {
      assert init == scan[..i];
    } else {
      assert init[i] == scan[i] && init[..i] == scan[..i];
      PurgeStopsAtThrow(photos, init, readFails, deleteFails, decode, i);
    }
  }

  /**
   * The operation whose photos throw is not deleted, so it is still completed
   * and past the cutoff on the next run, which stops at it again.
   */
  lemma ThrowingRowIsKept(photos: map<OpId, seq<string>>, scan: seq<OpId>, readFails: set<OpId>,
                          deleteFails: set<OpId>, decode: string -> Option<string>, i: nat)
    requires Distinct(scan) && i < |scan| && OpPaths(photos, scan[i], readFails, decode).None?
    ensures PurgeSteps(photos, scan, readFails, deleteFails, decode).aborted
    ensures scan[i] !in PurgeSteps(photos, scan, readFails, deleteFails, decode).removed
  {
    PurgeStopsAtThrow(photos, scan, readFails, deleteFails, decode, i);
    PurgeRemovesScanned(photos, scan[..i], readFails, deleteFails, decode);
    assert forall j :: 0 <= j < i ==> scan[..i][j] != scan[i];
  }

  /** The number of paths handed to storage removal. */
  function RemovedPathCount(effects: seq<Effect>): nat {
    if effects == [] then 0
    else
      var last := effects[|effects| - 1];
      RemovedPathCount(effects[..|effects| - 1]) + (if last.RemovePhotos? then |last.paths| else 0)
  }

  /** The count of one more effect. */
  lemma RemovedPathCountSnoc(a: seq<Effect>, e: Effect)
    ensures RemovedPathCount(a + [e]) == RemovedPathCount(a) + (if e.RemovePhotos? then |e.paths| else 0)
  {
    assert (a + [e])[..|a|] == a;
  }

  /** `removedPhotos` counts exactly the paths sent for removal, whatever storage answers. */
  lemma {:induction false} PhotoCountMatchesRemovals(photos: map<OpId, seq<string>>, scan: seq<OpId>, readFails: set<OpId>,
                                                     deleteFails: set<OpId>, decode: string -> Option<string>)
    ensures var run := PurgeSteps(photos, scan, readFails, deleteFails, decode);
      run.photoCount == RemovedPathCount(run.effects)
  {
    if scan != [] {
      var init := scan[..|scan| - 1];
      var prev := PurgeSteps(photos, init, readFails, deleteFails, decode);
      var id := scan[|scan| - 1];
      var paths := OpPaths(photos, id, readFails, decode);
      PhotoCountMatchesRemovals(photos, init, readFails, deleteFails, decode);
      if !prev.aborted && paths.Some? {
        RemovedPathCountOfRow(prev.effects, id, paths.value);
      }
    }
  }

  /** One row's effects add the number of its paths to the count. */
  lemma RemovedPathCountOfRow(prev: seq<Effect>, id: OpId, paths: seq<string>)
    ensures var removal := if paths != [] then [RemovePhotos(id, paths)] else [];
      RemovedPathCount(prev + removal + [DeleteOperation(id)]) == RemovedPathCount(prev) + |paths|
  {
    if paths == [] {
      assert prev + [] + [DeleteOperation(id)] == prev + [DeleteOperation(id)];
      RemovedPathCountSnoc(prev, DeleteOperation(id));
    } else {
      RemovedPathCountSnoc(prev, RemovePhotos(id, paths));
      RemovedPathCountSnoc(prev + [RemovePhotos(id, paths)], DeleteOperation(id));
    }
  }

  /** Every storage removal carries non-empty paths and is followed at once by the delete of the same operation. */
  ghost predicate RemovalsPrecedeDeletes(effects: seq<Effect>) {
    forall i :: 0 <= i < |effects| && effects[i].RemovePhotos? ==>
      && i + 1 < |effects| && effects[i + 1] == DeleteOperation(effects[i].op)
      && effects[i].paths != []
      && forall j :: 0 <= j < |effects[i].paths| ==> effects[i].paths[j] != ""
  }

  lemma {:induction false} PurgeRemovesBeforeDeleting(photos: map<OpId, seq<string>>, scan: seq<OpId>, readFails: set<OpId>,
                                                      deleteFails: set<OpId>, decode: string -> Option<string>)
    ensures RemovalsPrecedeDeletes(PurgeSteps(photos, scan, readFails, deleteFails, decode).effects)
  {
    if scan != [] {
      var prev := PurgeSteps(photos, scan[..|scan| - 1], readFails, deleteFails, decode);
      var run := PurgeSteps(photos, scan, readFails, deleteFails, decode);
      var id := scan[|scan| - 1];
      var paths := OpPaths(photos, id, readFails, decode);
      PurgeRemovesBeforeDeleting(photos, scan[..|scan| - 1], readFails, deleteFails, decode);
      if !prev.aborted && paths.Some? {
        var removal := if paths.value != [] then [RemovePhotos(id, paths.value)] else [];
        var n := |prev.effects|;
        assert run.effects == prev.effects + removal + [DeleteOperation(id)];
        assert forall i :: 0 <= i < n ==> run.effects[i] == prev.effects[i];
        assert forall i :: n <= i < |run.effects| ==> run.effects[i] == (removal + [DeleteOperation(id)])[i - n];
      }
    }
  }

  /** The rows left once the ids in `gone` are deleted, with the rows that reference them. */
  function WithoutOps(ops: map<OpId, Operation>, gone: set<OpId>): map<OpId, Operation> {
    ops - gone
  }

  function MembershipsWithout(ms: set<Membership>, gone: set<OpId>): set<Membership> {
    set m | m in ms && m.op !in gone
  }

  /** Deleting one more row is deleting the larger set of rows. */
  lemma DeleteOneMore(ops: map<OpId, Operation>, ms: set<Membership>, photos: map<OpId, seq<string>>, gone: set<OpId>, id: OpId)
    ensures WithoutOps(WithoutOps(ops, gone), {id}) == WithoutOps(ops, gone + {id})
    ensures MembershipsWithout(MembershipsWithout(ms, gone), {id}) == MembershipsWithout(ms, gone + {id})
    ensures (photos - gone) - {id} == photos - (gone + {id})
  {
  }

  /** Deleting operations, with their memberships, keeps the store's invariant. */
  lemma DeletionKeepsInvariant(ops: map<OpId, Operation>, ms: set<Membership>, gone: set<OpId>)
    requires Invariant(ops, ms)
    ensures Invariant(WithoutOps(ops, gone), MembershipsWithout(ms, gone))
  {
    var ops' := WithoutOps(ops, gone);
    var ms' := MembershipsWithout(ms, gone);
    forall id | id in ops'
      ensures MemberCount(ms', id) <= MaxMembers
    {
      assert Members(ms', id) == Members(ms, id);
    }
  }

  /**
   * The purge job. `readFails` are the operations whose photo query fails,
   * `deleteFails` those whose delete reports an error; `decode` stands for
   * `decodeURIComponent`. An exception from it leaves the handler, which
   * answers 500; the rows deleted before it stay deleted. The model assumes
   * that a delete also removes the operation's memberships and assigned
   * missions (cascading foreign keys; the database schema is not part of
   * this model).
   */
  method PurgeCompletedOperations(store: Store, now: int, scan: seq<OpId>, queryFails: bool,
                                  readFails: set<OpId>, deleteFails: set<OpId>, decode: string -> Option<string>)
    returns (response: Result<PurgeReport, ApiError>, effects: seq<Effect>)
    requires store.Valid()
    requires Distinct(scan) && forall id :: id in scan <==> id in PurgeCandidates(store.operations, now)
    modifies store`operations, store`memberships, store`photos
    ensures store.Valid()
    ensures queryFails ==> response == Err(StoreError) && effects == [] && unchanged(store)
    ensures !queryFails ==>
      var run := PurgeSteps(old(store.photos), scan, readFails, deleteFails, decode);
      var gone := set id | id in run.removed;
      && response == (if run.aborted then Err(Uncaught) else Ok(PurgeReport(run.removed, run.photoCount)))
      && effects == run.effects
      && store.operations == WithoutOps(old(store.operations), gone)
      && store.memberships == MembershipsWithout(old(store.memberships), gone)
      && store.photos == old(store.photos) - gone
    ensures !queryFails ==> forall id :: id in old(store.operations) && id !in store.operations ==>
      id in PurgeCandidates(old(store.operations), now)
  {
    if queryFails {
      return Err(StoreError), [];
    }
    var removed, removedPhotos, aborted;
    removed, removedPhotos, effects, aborted := PurgeRows(store, scan, readFails, deleteFails, decode);
    DeletionKeepsInvariant(old(store.operations), old(store.memberships), set id | id in removed);
    PurgeRemovesScanned(old(store.photos), scan, readFails, deleteFails, decode);
    response := if aborted then Err(Uncaught) else Ok(PurgeReport(removed, removedPhotos));
  }

  /** The loop of the purge job over the scanned rows; `aborted` when an extraction threw. */
  method PurgeRows(store: Store, scan: seq<OpId>, readFails: set<OpId>, deleteFails: set<OpId>, decode: string -> Option<string>)
    returns (removed: seq<OpId>, removedPhotos: nat, effects: seq<Effect>, aborted: bool)
    requires Distinct(scan)
    modifies store`operations, store`memberships, store`photos
    ensures PurgeRun(removed, removedPhotos, effects, aborted) == PurgeSteps(old(store.photos), scan, readFails, deleteFails, decode)
    ensures var gone := set id | id in removed;
      && store.operations == WithoutOps(old(store.operations), gone)
      && store.memberships == MembershipsWithout(old(store.memberships), gone)
      && store.photos == old(store.photos) - gone
  {
    ghost var ops0, ms0, photos0 := store.operations, store.memberships, store.photos;
    ghost var gone: set<OpId> := {};
    removed := [];
    removedPhotos := 0;
    effects := [];
    aborted := false;
    var i := 0;
    assert scan[..0] == [];
    while i < |scan|
      invariant 0 <= i <= |scan|
      invariant PurgeSteps(photos0, scan[..i], readFails, deleteFails, decode) == PurgeRun(removed, removedPhotos, effects, false)
      invariant forall x :: x in gone <==> x in removed
      invariant forall x :: x in removed ==> x in scan[..i]
      invariant store.operations == WithoutOps(ops0, gone)
      invariant store.memberships == MembershipsWithout(ms0, gone)
      invariant store.photos == photos0 - gone
    {
      var thrown;
      removed, removedPhotos, effects, gone, thrown :=
        PurgeNext(store, scan, i, readFails, deleteFails, decode, ops0, ms0, photos0, gone, removed, removedPhotos, effects);
      if thrown {
        PurgeStopsAtThrow(photos0, scan, readFails, deleteFails, decode, i);
        aborted := true;
        assert gone == set id | id in removed;
        return;
      }
      i := i + 1;
    }
    assert scan[..i] == scan;
    assert gone == set id | id in removed;
  }

  /**
   * The purge loop's body: row `i` of the scan, on top of the run over the
   * rows before it; `thrown` when its extraction throws, leaving everything as it was.
   */
  method PurgeNext(store: Store, scan: seq<OpId>, i: nat, readFails: set<OpId>, deleteFails: set<OpId>,
                   decode: string -> Option<string>, ghost ops0: map<OpId, Operation>, ghost ms0: set<Membership>,
                   ghost photos0: map<OpId, seq<string>>, ghost gone: set<OpId>,
                   removed: seq<OpId>, removedPhotos: nat, effects: seq<Effect>)
    returns (removed': seq<OpId>, removedPhotos': nat, effects': seq<Effect>, ghost gone': set<OpId>, thrown: bool)
    requires Distinct(scan) && i < |scan|
    requires PurgeSteps(photos0, scan[..i], readFails, deleteFails, decode) == PurgeRun(removed, removedPhotos, effects, false)
    requires forall x :: x in gone <==> x in removed
    requires forall x :: x in removed ==> x in scan[..i]
    requires store.operations == WithoutOps(ops0, gone)
    requires store.memberships == MembershipsWithout(ms0, gone)
    requires store.photos == photos0 - gone
    modifies store`operations, store`memberships, store`photos
    ensures thrown <==> OpPaths(photos0, scan[i], readFails, decode).None?
    ensures thrown ==> removed' == removed && removedPhotos' == removedPhotos && effects' == effects && gone' == gone
    ensures !thrown ==> PurgeSteps(photos0, scan[..i + 1], readFails, deleteFails, decode) == PurgeRun(removed', removedPhotos', effects', false)
    ensures forall x :: x in gone' <==> x in removed'
    ensures forall x :: x in removed' ==> x in scan[..i + 1]
    ensures store.operations == WithoutOps(ops0, gone')
    ensures store.memberships == MembershipsWithout(ms0, gone')
    ensures store.photos == photos0 - gone'
  {
    var id := scan[i];
    assert id !in gone by {
      assert forall j :: 0 <= j < i ==> scan[j] != id;
    }
    var paths, deleted := PurgeRow(store, id, readFails, deleteFails, decode, ops0, ms0, photos0, gone);
    removed', removedPhotos', effects', gone' := removed, removedPhotos, effects, gone;
    thrown := paths.None?;
    if !thrown {
      if |paths.value| > 0 {
        effects' := effects' + [RemovePhotos(id, paths.value)];
        removedPhotos' := removedPhotos' + |paths.value|;
      }
      effects' := effects' + [DeleteOperation(id)];
      if deleted {
        gone' := gone' + {id};
        removed' := removed' + [id];
      }
      PurgeStepsNext(photos0, scan, i, readFails, deleteFails, decode);
    }
  }

  /**
   * One row of the purge: its photo paths, then the delete unless it fails;
   * nothing more when the extraction throws. `gone` are the rows already
   * deleted from the tables as they were at the start.
   */
  method PurgeRow(store: Store, id: OpId, readFails: set<OpId>, deleteFails: set<OpId>, decode: string -> Option<string>,
                  ghost ops0: map<OpId, Operation>, ghost ms0: set<Membership>, ghost photos0: map<OpId, seq<string>>,
                  ghost gone: set<OpId>)
    returns (paths: Option<seq<string>>, deleted: bool)
    requires id !in gone
    requires store.operations == WithoutOps(ops0, gone)
    requires store.memberships == MembershipsWithout(ms0, gone)
    requires store.photos == photos0 - gone
    modifies store`operations, store`memberships, store`photos
    ensures paths == OpPaths(photos0, id, readFails, decode)
    ensures deleted <==> paths.Some? && id !in deleteFails
    ensures var now := if deleted then gone + {id} else gone;
      && store.operations == WithoutOps(ops0, now)
      && store.memberships == MembershipsWithout(ms0, now)
      && store.photos == photos0 - now
  {
    paths := ReadPaths(store, id, readFails, decode);
    PathsOutsideGone(photos0, gone, id, readFails, decode);
    deleted := paths.Some? && id !in deleteFails;
    if deleted {
      DeleteRow(store, id);
      DeleteOneMore(ops0, ms0, photos0, gone, id);
    }
  }

  /** The photo query of one operation, with its storage paths extracted. */
  method ReadPaths(store: Store, id: OpId, readFails: set<OpId>, decode: string -> Option<string>) returns (paths: Option<seq<string>>)
    ensures paths == OpPaths(store.photos, id, readFails, decode)
  {
    var urls := if id in readFails || id !in store.photos then [] else store.photos[id];
    paths := StoragePaths(urls, decode);
  }

  /** A row not yet deleted still has the photos it had at the start. */
  lemma PathsOutsideGone(photos: map<OpId, seq<string>>, gone: set<OpId>, id: OpId, readFails: set<OpId>, decode: string -> Option<string>)
    requires id !in gone
    ensures OpPaths(photos - gone, id, readFails, decode) == OpPaths(photos, id, readFails, decode)
  {
    assert id in photos - gone <==> id in photos;
  }

  /** One more row of the scan: the purge loop's body. */
  lemma PurgeStepsNext(photos: map<OpId, seq<string>>, scan: seq<OpId>, i: nat, readFails: set<OpId>,
                       deleteFails: set<OpId>, decode: string -> Option<string>)
    requires i < |scan|
    ensures var prev := PurgeSteps(photos, scan[..i], readFails, deleteFails, decode);
      var next := PurgeSteps(photos, scan[..i + 1], readFails, deleteFails, decode);
      var id := scan[i];
      var paths := OpPaths(photos, id, readFails, decode);
      && (prev.aborted ==> next == prev)
      && (!prev.aborted && paths.None? ==> next == prev.(aborted := true))
      && (!prev.aborted && paths.Some? ==>
          && !next.aborted
          && next.removed == (if id in deleteFails then prev.removed else prev.removed + [id])
          && next.photoCount == prev.photoCount + |paths.value|
          && next.effects == (if paths.value == [] then prev.effects + [DeleteOperation(id)]
                              else prev.effects + [RemovePhotos(id, paths.value)] + [DeleteOperation(id)]))
  {
    assert scan[..i + 1][..i] == scan[..i];
  }

  /** `delete().eq('id', id)`: the row goes, and, by the cascade the model assumes, its memberships and assigned missions. */
  method DeleteRow(store: Store, id: OpId)
    modifies store`operations, store`memberships, store`photos
    ensures store.operations == WithoutOps(old(store.operations), {id})
    ensures store.memberships == MembershipsWithout(old(store.memberships), {id})
    ensures store.photos == old(store.photos) - {id}
  {
    store.operations := store.operations - {id};
    store.memberships := set m | m in store.memberships && m.op != id;
    store.photos := store.photos - {id};
  }

  // ---------------------------------------------------------------------------
  // The daily-reset notification

  const DailyResetKind: string := "daily_reset"
  const DailyTitle: string := "Novas missoes disponiveis"

  /** `getUTCHours()` of an instant. */
  function UtcHour(now: int): (h: int)
    ensures 0 <= h < 24
  {
    (now / HourMs) % 24
  }

  /** The UTC hour is the hour slot of the calendar day that holds `now`. */
  lemma UtcHourOfDay(now: int)
    ensures DayStart(now) + UtcHour(now) * HourMs <= now < DayStart(now) + (UtcHour(now) + 1) * HourMs
  {
    var q, r := now / DayMs, now % DayMs;
    var h, s := r / HourMs, r % HourMs;
    assert now == q * DayMs + h * HourMs + s;
    assert now == (q * 24 + h) * HourMs + s;
    assert now / HourMs == q * 24 + h;
    assert UtcHour(now) == h;
  }

  /** The active operations the notification query returns. */
  function ActiveIds(ops: map<OpId, Operation>): (r: set<OpId>)
    ensures r <= ops.Keys
    ensures forall id :: id in ops ==> (id in r <==> ops[id].status == Active)
  {
    set id | id in ops && ops[id].status == Active
  }

  /** `Number(dayResult || 1)`: the day from `calculate_operation_day`, 1 when it gives nothing or 0. */
  function DayNumber(dayOf: map<OpId, int>, id: OpId): (day: int)
    ensures day != 0
    ensures id !in dayOf ==> day == 1
  {
    if id in dayOf && dayOf[id] != 0 then dayOf[id] else 1
  }

  /** The message body: `Dia ` and the day padded to two digits, then the operation's name. */
  function DailyBody(day: int, name: string): (r: string)
    ensures |r| >= 4 + |name| && r[..4] == "Dia " && r[|r| - |name|..] == name
  {
    "Dia " + Pad2(day) + " da operacao " + name
  }

  /** For a day from 0 on, the padded day is at least two digits and reads back as the day. */
  lemma Pad2Digits(day: nat)
    ensures |Pad2(day)| >= 2 && AllDigits(Pad2(day)) && DigitsValue(Pad2(day)) == day
    ensures day < 10 ==> Pad2(day) == ['0', DigitChar(day)]
  {
    NatToStringRoundTrip(day);
    if day < 10 {
      assert NatToString(day) == [DigitChar(day)];
      assert Pad2(day) == ['0', DigitChar(day)];
      var p := Pad2(day);
      assert p[..1] == "0";
    }
  }

  /** The body embeds the padded day right after `Dia `. */
  lemma DailyBodyShowsDay(day: nat, name: string)
    ensures var b := DailyBody(day, name); var d := Pad2(day);
      b[..4] == "Dia " && b[4..4 + |d|] == d && DigitsValue(d) == day && |d| >= 2
  {
    Pad2Digits(day);
  }

  datatype DailyRun = DailyRun(log: set<LogEntry>, notified: seq<OpId>, effects: seq<Effect>)

  /** The notification loop over the first rows of the scan, starting from the log `log0`. */
  function DailySteps(ops: map<OpId, Operation>, ms: set<Membership>, scan: seq<OpId>, hour: int,
                      dayOf: map<OpId, int>, logFails: set<OpId>, readFails: set<OpId>, serviceKey: bool,
                      log0: set<LogEntry>): (r: DailyRun)
    requires forall id :: id in scan ==> id in ops
    ensures log0 <= r.log
    ensures |r.notified| == |r.effects| <= |scan|
  {
    if scan == [] then DailyRun(log0, [], [])
    else
      var prev := DailySteps(ops, ms, scan[..|scan| - 1], hour, dayOf, logFails, readFails, serviceKey, log0);
      var id := scan[|scan| - 1];
      var day := DayNumber(dayOf, id);
      var entry := LogEntry(id, day, DailyResetKind);
      if ops[id].resetHour != hour || entry in prev.log || id in logFails then prev
      else
        var users := MemberReads(ms, id, readFails);
        if users == {} || !serviceKey then DailyRun(prev.log + {entry}, prev.notified, prev.effects)
        else DailyRun(prev.log + {entry}, prev.notified + [id],
                      prev.effects + [Push(id, users, DailyTitle, DailyBody(day, ops[id].name))])
  }

  /** The log entry a run writes for an operation. */
  function DailyEntry(dayOf: map<OpId, int>, id: OpId): (r: LogEntry)
    ensures r.op == id && r.kind == DailyResetKind && r.day != 0
    ensures id !in dayOf ==> r.day == 1
  {
    LogEntry(id, DayNumber(dayOf, id), DailyResetKind)
  }

  /**
   * What a run promises of the log: it only grows, by daily-reset entries of
   * scanned operations due at this hour, and every due operation whose insert
   * did not fail has its entry, whether or not it has members.
   */
  ghost predicate DailyLogOutcome(ops: map<OpId, Operation>, scan: seq<OpId>, hour: int, dayOf: map<OpId, int>,
                                  logFails: set<OpId>, log0: set<LogEntry>, run: DailyRun)
    requires forall id :: id in scan ==> id in ops
  {
    && log0 <= run.log
    && (forall e :: e in run.log && e !in log0 ==>
          e.op in scan && ops[e.op].resetHour == hour && e == DailyEntry(dayOf, e.op) && e.op !in logFails)
    && (forall id :: id in scan && ops[id].resetHour == hour && id !in logFails ==> DailyEntry(dayOf, id) in run.log)
  }

  /**
   * What a run promises of `notified`: each id had a fresh entry, is due at
   * this hour, has members and a service key, and is listed once.
   */
  ghost predicate DailyNotifiedOutcome(ops: map<OpId, Operation>, ms: set<Membership>, scan: seq<OpId>, hour: int,
                                       dayOf: map<OpId, int>, logFails: set<OpId>, readFails: set<OpId>, serviceKey: bool,
                                       log0: set<LogEntry>, run: DailyRun)
    requires forall id :: id in scan ==> id in ops
  {
    DailyNotifiedDue(ops, ms, scan, hour, dayOf, logFails, readFails, serviceKey, log0, run) && Distinct(run.notified)
  }

  ghost predicate DailyNotifiedDue(ops: map<OpId, Operation>, ms: set<Membership>, scan: seq<OpId>, hour: int,
                                   dayOf: map<OpId, int>, logFails: set<OpId>, readFails: set<OpId>, serviceKey: bool,
                                   log0: set<LogEntry>, run: DailyRun)
    requires forall id :: id in scan ==> id in ops
  {
    forall id :: id in run.notified ==>
      && id in scan && ops[id].resetHour == hour && id !in logFails && DailyEntry(dayOf, id) !in log0
      && MemberReads(ms, id, readFails) != {} && serviceKey
  }

  /** What a run promises of its pushes: one per notified id, in the same order, to its members. */
  ghost predicate DailyEffectsOutcome(ops: map<OpId, Operation>, ms: set<Membership>, dayOf: map<OpId, int>,
                                      readFails: set<OpId>, run: DailyRun)
  {
    && |run.effects| == |run.notified|
    && (forall i :: 0 <= i < |run.effects| ==>
          && run.notified[i] in ops
          && run.effects[i] == Push(run.notified[i], MemberReads(ms, run.notified[i], readFails), DailyTitle,
                                    DailyBody(DayNumber(dayOf, run.notified[i]), ops[run.notified[i]].name)))
  }

  ghost predicate DailyOutcome(ops: map<OpId, Operation>, ms: set<Membership>, scan: seq<OpId>, hour: int,
                               dayOf: map<OpId, int>, logFails: set<OpId>, readFails: set<OpId>, serviceKey: bool,
                               log0: set<LogEntry>, run: DailyRun)
    requires forall id :: id in scan ==> id in ops
  {
    && DailyLogOutcome(ops, scan, hour, dayOf, logFails, log0, run)
    && DailyNotifiedOutcome(ops, ms, scan, hour, dayOf, logFails, readFails, serviceKey, log0, run)
    && DailyEffectsOutcome(ops, ms, dayOf, readFails, run)
  }

  lemma {:induction false} DailyStepsLog(ops: map<OpId, Operation>, ms: set<Membership>, scan: seq<OpId>, hour: int,
                                         dayOf: map<OpId, int>, logFails: set<OpId>, readFails: set<OpId>, serviceKey: bool,
                                         log0: set<LogEntry>)
    requires forall id :: id in scan ==> id in ops
    ensures DailyLogOutcome(ops, scan, hour, dayOf, logFails, log0,
                            DailySteps(ops, ms, scan, hour, dayOf, logFails, readFails, serviceKey, log0))
  {
    if scan != [] {
      var init := scan[..|scan| - 1];
      DailyStepsLog(ops, ms, init, hour, dayOf, logFails, readFails, serviceKey, log0);
      assert forall x :: x in scan <==> x in init || x == scan[|scan| - 1];
    }
  }

  /** A notified operation had a fresh entry, is due at this hour, and has members and a service key. */
  lemma {:induction false} DailyStepsDue(ops: map<OpId, Operation>, ms: set<Membership>, scan: seq<OpId>, hour: int,
                                         dayOf: map<OpId, int>, logFails: set<OpId>, readFails: set<OpId>, serviceKey: bool,
                                         log0: set<LogEntry>)
    requires forall id :: id in scan ==> id in ops
    ensures DailyNotifiedDue(ops, ms, scan, hour, dayOf, logFails, readFails, serviceKey, log0,
                             DailySteps(ops, ms, scan, hour, dayOf, logFails, readFails, serviceKey, log0))
  {
    if scan != [] {
      var init := scan[..|scan| - 1];
      DailyStepsDue(ops, ms, init, hour, dayOf, logFails, readFails, serviceKey, log0);
      DailyStepsLog(ops, ms, init, hour, dayOf, logFails, readFails, serviceKey, log0);
      assert forall x :: x in scan <==> x in init || x == scan[|scan| - 1];
    }
  }

  /** Every notified operation has its entry in the log the run leaves. */
  lemma {:induction false} DailyStepsLogged(ops: map<OpId, Operation>, ms: set<Membership>, scan: seq<OpId>, hour: int,
                                            dayOf: map<OpId, int>, logFails: set<OpId>, readFails: set<OpId>, serviceKey: bool,
                                            log0: set<LogEntry>)
    requires forall id :: id in scan ==> id in ops
    ensures var run := DailySteps(ops, ms, scan, hour, dayOf, logFails, readFails, serviceKey, log0);
      forall id :: id in run.notified ==> DailyEntry(dayOf, id) in run.log
  {
    if scan != [] {
      DailyStepsLogged(ops, ms, scan[..|scan| - 1], hour, dayOf, logFails, readFails, serviceKey, log0);
    }
  }

  /** No operation is notified twice in one run. */
  lemma {:induction false} DailyStepsDistinct(ops: map<OpId, Operation>, ms: set<Membership>, scan: seq<OpId>, hour: int,
                                              dayOf: map<OpId, int>, logFails: set<OpId>, readFails: set<OpId>, serviceKey: bool,
                                              log0: set<LogEntry>)
    requires forall id :: id in scan ==> id in ops
    ensures Distinct(DailySteps(ops, ms, scan, hour, dayOf, logFails, readFails, serviceKey, log0).notified)
  {
    if scan != [] {
      var init := scan[..|scan| - 1];
      DailyStepsDistinct(ops, ms, init, hour, dayOf, logFails, readFails, serviceKey, log0);
      DailyStepsLogged(ops, ms, init, hour, dayOf, logFails, readFails, serviceKey, log0);
      var prev := DailySteps(ops, ms, init, hour, dayOf, logFails, readFails, serviceKey, log0);
      var run := DailySteps(ops, ms, scan, hour, dayOf, logFails, readFails, serviceKey, log0);
      var id := scan[|scan| - 1];
      if run.notified != prev.notified {
        assert run.notified == prev.notified + [id] && DailyEntry(dayOf, id) !in prev.log;
        assert forall i :: 0 <= i < |prev.notified| ==> prev.notified[i] != id;
      }
    }
  }

  lemma DailyStepsNotified(ops: map<OpId, Operation>, ms: set<Membership>, scan: seq<OpId>, hour: int,
                           dayOf: map<OpId, int>, logFails: set<OpId>, readFails: set<OpId>, serviceKey: bool,
                           log0: set<LogEntry>)
    requires forall id :: id in scan ==> id in ops
    ensures DailyNotifiedOutcome(ops, ms, scan, hour, dayOf, logFails, readFails, serviceKey, log0,
                                 DailySteps(ops, ms, scan, hour, dayOf, logFails, readFails, serviceKey, log0))
  {
    DailyStepsDue(ops, ms, scan, hour, dayOf, logFails, readFails, serviceKey, log0);
    DailyStepsDistinct(ops, ms, scan, hour, dayOf, logFails, readFails, serviceKey, log0);
  }

  lemma {:induction false} DailyStepsEffects(ops: map<OpId, Operation>, ms: set<Membership>, scan: seq<OpId>, hour: int,
                                             dayOf: map<OpId, int>, logFails: set<OpId>, readFails: set<OpId>, serviceKey: bool,
                                             log0: set<LogEntry>)
    requires forall id :: id in scan ==> id in ops
    ensures DailyEffectsOutcome(ops, ms, dayOf, readFails,
                                DailySteps(ops, ms, scan, hour, dayOf, logFails, readFails, serviceKey, log0))
  {
    if scan != [] {
      var init := scan[..|scan| - 1];
      DailyStepsEffects(ops, ms, init, hour, dayOf, logFails, readFails, serviceKey, log0);
      var prev := DailySteps(ops, ms, init, hour, dayOf, logFails, readFails, serviceKey, log0);
      var run := DailySteps(ops, ms, scan, hour, dayOf, logFails, readFails, serviceKey, log0);
      assert forall i :: 0 <= i < |prev.effects| ==> run.effects[i] == prev.effects[i] && run.notified[i] == prev.notified[i];
    }
  }

  /**
   * What a run promises: the log only grows, by daily-reset entries of scanned
   * operations due at this hour; every due operation whose insert did not fail
   * has its entry, whether or not it has members; and a notified operation had
   * a fresh entry, is due at this hour, has members and a service key, and is
   * notified once, with one push.
   */
  lemma DailyStepsOutcome(ops: map<OpId, Operation>, ms: set<Membership>, scan: seq<OpId>, hour: int,
                          dayOf: map<OpId, int>, logFails: set<OpId>, readFails: set<OpId>, serviceKey: bool,
                          log0: set<LogEntry>)
    requires forall id :: id in scan ==> id in ops
    ensures DailyOutcome(ops, ms, scan, hour, dayOf, logFails, readFails, serviceKey, log0,
                         DailySteps(ops, ms, scan, hour, dayOf, logFails, readFails, serviceKey, log0))
  {
    DailyStepsLog(ops, ms, scan, hour, dayOf, logFails, readFails, serviceKey, log0);
    DailyStepsNotified(ops, ms, scan, hour, dayOf, logFails, readFails, serviceKey, log0);
    DailyStepsEffects(ops, ms, scan, hour, dayOf, logFails, readFails, serviceKey, log0);
  }

  /** Running the job again at the same hour, on the log the first run left, notifies nobody and writes nothing. */
  lemma {:induction false} DailyRerunQuiet(ops: map<OpId, Operation>, ms: set<Membership>, scan: seq<OpId>, hour: int,
                                           dayOf: map<OpId, int>, logFails: set<OpId>, readFails: set<OpId>, serviceKey: bool,
                                           log: set<LogEntry>)
    requires forall id :: id in scan ==> id in ops
    requires forall id :: id in scan && ops[id].resetHour == hour && id !in logFails ==> DailyEntry(dayOf, id) in log
    ensures DailySteps(ops, ms, scan, hour, dayOf, logFails, readFails, serviceKey, log) == DailyRun(log, [], [])
  {
    if scan != [] {
      DailyRerunQuiet(ops, ms, scan[..|scan| - 1], hour, dayOf, logFails, readFails, serviceKey, log);
    }
  }

  /** Hence the job run twice in a row sends each (operation, day) at most once. */
  lemma DailyIdempotent(ops: map<OpId, Operation>, ms: set<Membership>, scan: seq<OpId>, hour: int,
                        dayOf: map<OpId, int>, logFails: set<OpId>, readFails: set<OpId>, serviceKey: bool,
                        log0: set<LogEntry>)
    requires forall id :: id in scan ==> id in ops
    ensures var first := DailySteps(ops, ms, scan, hour, dayOf, logFails, readFails, serviceKey, log0);
      DailySteps(ops, ms, scan, hour, dayOf, logFails, readFails, serviceKey, first.log) == DailyRun(first.log, [], [])
  {
    var first := DailySteps(ops, ms, scan, hour, dayOf, logFails, readFails, serviceKey, log0);
    DailyStepsOutcome(ops, ms, scan, hour, dayOf, logFails, readFails, serviceKey, log0);
    DailyRerunQuiet(ops, ms, scan, hour, dayOf, logFails, readFails, serviceKey, first.log);
  }

  /** One pass of the notification loop: the row `scan[i]`, on the state the first `i` rows left. */
  method DailyNext(store: Store, scan: seq<OpId>, i: nat, hour: int, dayOf: map<OpId, int>, logFails: set<OpId>,
                   readFails: set<OpId>, serviceKey: bool, ghost log0: set<LogEntry>,
                   notified: seq<OpId>, effects: seq<Effect>)
    returns (notified': seq<OpId>, effects': seq<Effect>)
    requires i < |scan| && forall id :: id in scan ==> id in store.operations
    requires DailySteps(store.operations, store.memberships, scan[..i], hour, dayOf, logFails, readFails, serviceKey, log0)
          == DailyRun(store.notificationLog, notified, effects)
    modifies store`notificationLog
    ensures DailySteps(store.operations, store.memberships, scan[..i + 1], hour, dayOf, logFails, readFails, serviceKey, log0)
         == DailyRun(store.notificationLog, notified', effects')
  {
    var id := scan[i];
    var op := store.operations[id];
    assert scan[..i + 1][..i] == scan[..i];
    assert scan[..i + 1][i] == id;
    notified', effects' := notified, effects;
    if op.resetHour == hour {
      var day := DayNumber(dayOf, id);
      var entry := LogEntry(id, day, DailyResetKind);
      // the log's unique key turns a second insert into an error
      if entry !in store.notificationLog && id !in logFails {
        store.notificationLog := store.notificationLog + {entry};
        var users := if id in readFails then {} else MemberIds(store.memberships, id);
        if users != {} && serviceKey {
          effects' := effects + [Push(id, users, DailyTitle, DailyBody(day, op.name))];
          notified' := notified + [id];
        }
      }
    }
  }

  /**
   * The daily notification job. `dayOf` holds what `calculate_operation_day`
   * returns per operation (absent for null), `logFails` the operations whose
   * log insert fails for a reason other than a duplicate, `readFails` those
   * whose members query fails, `serviceKey` whether the service key is set.
   */
  method NotifyDailyReset(store: Store, now: int, scan: seq<OpId>, queryFails: bool, dayOf: map<OpId, int>,
                          logFails: set<OpId>, readFails: set<OpId>, serviceKey: bool)
    returns (response: Result<seq<OpId>, ApiError>, effects: seq<Effect>)
    requires store.Valid()
    requires Distinct(scan) && forall id :: id in scan <==> id in ActiveIds(store.operations)
    modifies store`notificationLog
    ensures store.Valid()
    ensures queryFails ==> response.Err? && effects == [] && store.notificationLog == old(store.notificationLog)
    ensures !queryFails ==>
      var run := DailySteps(store.operations, store.memberships, scan, UtcHour(now), dayOf, logFails, readFails,
                            serviceKey, old(store.notificationLog));
      response == Ok(run.notified) && effects == run.effects && store.notificationLog == run.log
  {
    if queryFails {
      return Err(StoreError), [];
    }
    var hour := UtcHour(now);
    ghost var log0 := store.notificationLog;
    assert forall id :: id in scan ==> id in store.operations;
    var notified: seq<OpId> := [];
    effects := [];
    var i := 0;
    assert scan[..0] == [];
    while i < |scan|
      invariant 0 <= i <= |scan|
      invariant forall id :: id in scan[..i] ==> id in store.operations
      invariant DailySteps(store.operations, store.memberships, scan[..i], hour, dayOf, logFails, readFails, serviceKey, log0)
             == DailyRun(store.notificationLog, notified, effects)
    {
      notified, effects := DailyNext(store, scan, i, hour, dayOf, logFails, readFails, serviceKey, log0, notified, effects);
      i := i + 1;
    }
    assert scan[..i] == scan;
    response := Ok(notified);
  }
}

=== FILE: missions.dfy ===
/**
 * The mission pool: the difficulty and availability filters over the day's
 * missions, which card is selected or disabled, and the countdown to the
 * next reset shown above the list.
 */
module Missions {
  import opened Wrappers
  import opened Seqs
  import opened Utils

  /** The fields of a mission the pool decides on. */
  datatype Mission = Mission(id: string, difficulty: string, status: Option<string>)

  datatype DifficultyFilter = AllDifficulties | Easy | Medium | Hard

  function FilterName(f: DifficultyFilter): string {
    match f
    case AllDifficulties => "all"
    case Easy => "easy"
    case Medium => "medium"
    case Hard => "hard"
  }

  /** The difficulty test, which `all` passes for every mission. */
  predicate MatchesFilter(f: DifficultyFilter, m: Mission) {
    f == AllDifficulties || m.difficulty == FilterName(f)
  }

  /** `!mission.status || mission.status === 'available'`. */
  predicate IsAvailable(m: Mission) {
    m.status.None? || m.status.value == "" || m.status.value == "available"
  }

  /** `filteredMissions`: all of them for `all`, otherwise those of the chosen difficulty. */
  function FilteredMissions(missions: seq<Mission>, f: DifficultyFilter): (r: seq<Mission>)
    ensures f == AllDifficulties ==> r == missions
    ensures forall i :: 0 <= i < |r| ==> MatchesFilter(f, r[i])
  {
    if f == AllDifficulties then missions
    else Filter(missions, (m: Mission) => m.difficulty == FilterName(f))
  }

  /** Both tests of the pool at once: the chosen difficulty, and available. */
  predicate IsShown(f: DifficultyFilter, m: Mission) {
    MatchesFilter(f, m) && IsAvailable(m)
  }

  /**
   * `availableMissions`: the cards shown, which are the missions passing both
   * tests, in their original order.
   */
  function ShownMissions(missions: seq<Mission>, f: DifficultyFilter): (r: seq<Mission>)
    ensures r == Filter(missions, (m: Mission) => IsShown(f, m))
    ensures IsSubsequence(r, missions)
  {
    TwoFiltersAreOne(missions, f);
    FilterIsSubsequence(missions, (m: Mission) => IsShown(f, m));
    Filter(FilteredMissions(missions, f), IsAvailable)
  }

  /** The difficulty filter followed by the availability filter is one filter by both. */
  lemma TwoFiltersAreOne(missions: seq<Mission>, f: DifficultyFilter)
    ensures Filter(FilteredMissions(missions, f), IsAvailable) == Filter(missions, (m: Mission) => IsShown(f, m))
  {
    var shown := (m: Mission) => IsShown(f, m);
    if f == AllDifficulties {
      FilterAgree(missions, shown, IsAvailable);
    } else {
      var ofLevel := (m: Mission) => m.difficulty == FilterName(f);
      assert FilteredMissions(missions, f) == Filter(missions, ofLevel);
      FilterTwice(missions, ofLevel, IsAvailable, shown);
    }
  }

  /** A mission is shown exactly when it is in the list, passes the difficulty filter and is available. */
  lemma ShownMembership(missions: seq<Mission>, f: DifficultyFilter, m: Mission)
    ensures m in ShownMissions(missions, f) <==> m in missions && IsShown(f, m)
  {
    FilterMembership(missions, (m: Mission) => IsShown(f, m), m);
  }

  /** The flags one card gets. */
  datatype CardFlags = CardFlags(isSelected: bool, disabled: bool)

  function Card(selectedId: Option<string>, m: Mission): (c: CardFlags)
    ensures selectedId.None? ==> !c.isSelected && !c.disabled
    ensures selectedId.Some? && selectedId.value != "" ==> (c.isSelected <==> !c.disabled)
  {
    CardFlags(selectedId == Some(m.id), selectedId.Some? && selectedId.value != "" && selectedId.value != m.id)
  }

  /** Once a mission is chosen, its card alone is selected and every other shown card is disabled. */
  lemma SelectionDisablesOthers(missions: seq<Mission>, f: DifficultyFilter, selectedId: string)
    requires selectedId != ""
    ensures forall m :: m in ShownMissions(missions, f) ==>
      (Card(Some(selectedId), m).isSelected <==> m.id == selectedId) &&
      (Card(Some(selectedId), m).disabled <==> m.id != selectedId)
  { }

  // ---------------------------------------------------------------------------
  // The countdown

  /** The reset `calculateTimeLeft` counts down to: today's when the hour has not reached it, tomorrow's otherwise. */
  function CountdownTarget(resetHour: int, now: int): (t: int)
    ensures 0 <= resetHour < 24 ==> now < t <= now + DayMs
  {
    DivUnique(now, now / DayMs, now % DayMs);
    var today := DayStart(now) + resetHour * HourMs;
    if (now % DayMs) / HourMs < resetHour then today else today + DayMs
  }

  /** The pool's countdown and `getTimeUntilReset` agree on the target, for any hour of the day. */
  lemma TargetIsNextReset(resetHour: int, now: int)
    requires 0 <= resetHour < 24
    ensures CountdownTarget(resetHour, now) == NextReset(resetHour, now)
  {
    DivUnique(now, now / DayMs, now % DayMs);
  }

  /** `calculateTimeLeft`: the countdown to the target as `hh:mm:ss`. */
  function TimeLeft(resetHour: int, now: int): (r: string)
    ensures 0 <= resetHour < 24 ==> r == GetTimeUntilReset(resetHour, now)
  {
    if 0 <= resetHour < 24 then
      TargetIsNextReset(resetHour, now);
      ClockUntil(CountdownTarget(resetHour, now), now)
    else ClockUntil(CountdownTarget(resetHour, now), now)
  }
}

=== FILE: nav.dfy ===
/**
 * The bottom navigation bar: the operation id read from the path, whether the
 * page sits inside an operation or on a global page, and which item is active.
 */
module Nav {
  import opened Wrappers
  import opened Strings

  const OperationsPrefix: string := "/operations/"
  const IdLength: nat := 36

  /** One character of `[0-9a-fA-F-]`. */
  predicate IsIdChar(c: char) {
    IsAsciiDigit(c) || 'a' <= c <= 'f' || 'A' <= c <= 'F' || c == '-'
  }

  predicate IsIdText(s: string) {
    |s| == IdLength && forall i :: 0 <= i < |s| ==> IsIdChar(s[i])
  }

  /**
   * `getOperationIdFromPath`: the 36 id characters right after a leading
   * `/operations/`, when a `/` or the end of the path follows them.
   */
  function OperationIdFromPath(path: string): (r: Option<string>)
    ensures r.Some? ==> IsIdText(r.value) && StartsWith(path, OperationsPrefix + r.value)
    ensures r.Some? ==> var rest := path[|OperationsPrefix| + IdLength..]; rest == "" || rest[0] == '/'
  {
    var start := |OperationsPrefix|;
    if StartsWith(path, OperationsPrefix) && |path| >= start + IdLength
       && IsIdText(path[start..start + IdLength])
       && (|path| == start + IdLength || path[start + IdLength] == '/')
    then
      assert path[..start + IdLength] == OperationsPrefix + path[start..start + IdLength];
      Some(path[start..start + IdLength])
    else None
  }

  /** Every path made of the prefix, an id and an empty or `/`-led rest yields that id. */
  lemma OperationIdOfPath(id: string, rest: string)
    requires IsIdText(id) && (rest == "" || rest[0] == '/')
    ensures OperationIdFromPath(OperationsPrefix + id + rest) == Some(id)
  {
    var path := OperationsPrefix + id + rest;
    var start := |OperationsPrefix|;
    assert path[..start] == OperationsPrefix;
    assert path[start..start + IdLength] == id;
  }

  /** An id is followed by something other than `/`: no match, since the id is exactly 36 characters. */
  lemma LongerIdDoesNotMatch(id: string, c: char, rest: string)
    requires IsIdText(id) && c != '/'
    ensures OperationIdFromPath(OperationsPrefix + id + [c] + rest).None?
  {
    var path := OperationsPrefix + id + [c] + rest;
    assert path[|OperationsPrefix| + IdLength] == c;
  }

  /** `/operations/<id>/missions/` occurs at index `i` (the mission-detail test is not anchored). */
  predicate MissionDetailAt(path: string, i: nat) {
    var idStart := i + |OperationsPrefix|;
    && OccursAt(path, OperationsPrefix, i)
    && idStart + IdLength + 10 <= |path|
    && IsIdText(path[idStart..idStart + IdLength])
    && path[idStart + IdLength..idStart + IdLength + 10] == "/missions/"
  }

  predicate IsMissionDetail(path: string) {
    exists i: nat :: i <= |path| && MissionDetailAt(path, i)
  }

  predicate IsLobbyOrCeremony(path: string) {
    Contains(path, "/lobby") || Contains(path, "/ceremony")
  }

  /** `isInsideOperation`: an operation path that is not its lobby, ceremony or a mission's detail. */
  predicate IsInsideOperation(path: string) {
    OperationIdFromPath(path).Some? && !IsLobbyOrCeremony(path) && !IsMissionDetail(path)
  }

  predicate IsGlobalPage(path: string) {
    path == "/operations" || path == "/operations/create" || path == "/operations/join" || StartsWith(path, "/profile")
  }

  /** `isGlobal`: a global page that is not inside an operation. */
  function IsGlobal(path: string): (r: bool)
    ensures r ==> !IsInsideOperation(path)
    ensures IsGlobalPage(path) ==> r
  {
    GlobalPagesAreOutside(path);
    !IsInsideOperation(path) && IsGlobalPage(path)
  }

  /** No global page yields an operation id, so the `!isInsideOperation` guard never hides one. */
  lemma GlobalPagesAreOutside(path: string)
    ensures IsGlobalPage(path) ==> OperationIdFromPath(path).None?
  {
    if IsGlobalPage(path) && StartsWith(path, "/profile") {
      assert path[1] == 'p';
      assert OperationsPrefix[1] == 'o';
    }
  }

  /** The nav renders only inside an operation or on a global page, and never as both. */
  function RendersNav(path: string): (r: bool)
    ensures r <==> IsInsideOperation(path) || IsGlobalPage(path)
    ensures !(IsInsideOperation(path) && IsGlobal(path))
  {
    IsInsideOperation(path) || IsGlobal(path)
  }

  /** An operation's lobby is not inside the operation, though the path carries its id. */
  lemma LobbyIsOutside(id: string, rest: string)
    requires IsIdText(id)
    ensures OperationIdFromPath(OperationsPrefix + id + "/lobby" + rest) == Some(id)
    ensures !IsInsideOperation(OperationsPrefix + id + "/lobby" + rest)
  {
    var path := OperationsPrefix + id + "/lobby" + rest;
    assert path == OperationsPrefix + id + ("/lobby" + rest);
    OperationIdOfPath(id, "/lobby" + rest);
    assert OccursAt(path, "/lobby", |OperationsPrefix| + IdLength);
  }

  /** A mission's detail page is not inside the operation either. */
  lemma MissionDetailIsOutside(id: string, rest: string)
    requires IsIdText(id)
    ensures !IsInsideOperation(OperationsPrefix + id + "/missions/" + rest)
  {
    var path := OperationsPrefix + id + "/missions/" + rest;
    assert path[..|OperationsPrefix|] == OperationsPrefix;
    assert path[|OperationsPrefix|..|OperationsPrefix| + IdLength] == id;
    assert path[|OperationsPrefix| + IdLength..|OperationsPrefix| + IdLength + 10] == "/missions/";
    assert MissionDetailAt(path, 0);
  }

  /** The operation's own tabs are inside it. */
  lemma TabPageIsInside(id: string)
    requires IsIdText(id)
    ensures IsInsideOperation(OperationsPrefix + id)
  {
    var path := OperationsPrefix + id;
    assert path == OperationsPrefix + id + "";
    OperationIdOfPath(id, "");
    assert |path| == 48;
    forall i: nat | i <= |path|
      ensures !MissionDetailAt(path, i)
    { }
    // neither the prefix nor an id has a `y`, which both `/lobby` and `/ceremony` need
    assert forall j :: 0 <= j < |path| ==> path[j] != 'y';
    forall i: nat | i <= |path|
      ensures !OccursAt(path, "/lobby", i) && !OccursAt(path, "/ceremony", i)
    {
      if i + 6 <= |path| {
        assert path[i..i + 6][5] == path[i + 5];
      }
      if i + 9 <= |path| {
        assert path[i..i + 9][8] == path[i + 8];
      }
    }
  }

  // ---------------------------------------------------------------------------
  // Active items

  datatype NavKey = Feed | Missions | Ranking

  function KeyName(k: NavKey): string {
    match k
    case Feed => "feed"
    case Missions => "missions"
    case Ranking => "ranking"
  }

  /** `resolveTabActive`: with no `tab` parameter the missions tab, otherwise the tab it names. */
  function TabActive(tab: Option<string>, key: NavKey): (r: bool)
    ensures (tab.None? || tab == Some("")) ==> (r <==> key == Missions)
    ensures tab.Some? && tab.value != "" ==> (r <==> tab.value == KeyName(key))
  {
    if tab.None? || tab.value == "" then key == Missions else tab.value == KeyName(key)
  }

  /** At most one operation tab is active, and exactly one when the parameter is absent or names a tab. */
  lemma OneTabActive(tab: Option<string>, k1: NavKey, k2: NavKey)
    ensures TabActive(tab, k1) && TabActive(tab, k2) ==> k1 == k2
    ensures tab.None? ==> TabActive(tab, Missions)
    ensures tab.Some? && tab.value in {"feed", "missions", "ranking"} ==>
      exists k :: TabActive(tab, k)
  {
    if TabActive(tab, k1) && TabActive(tab, k2) && tab.Some? && tab.value != "" {
      assert KeyName(k1) == KeyName(k2);
      assert KeyName(k1)[0] == KeyName(k2)[0];
      if KeyName(k1)[0] == 'r' || KeyName(k1)[0] == 'f' {
      } else {
        assert k1 == Missions && k2 == Missions;
      }
    }
    if tab.Some? && tab.value in {"feed", "missions", "ranking"} {
      if tab.value == "feed" { assert TabActive(tab, Feed); }
      else if tab.value == "missions" { assert TabActive(tab, Missions); }
      else { assert TabActive(tab, Ranking); }
    }
  }

  datatype GlobalKey = OperationsItem | ProfileItem

  /** `resolveGlobalActive`. */
  function GlobalActive(path: string, key: GlobalKey): bool {
    match key
    case OperationsItem => path == "/operations" || path == "/operations/create" || path == "/operations/join"
    case ProfileItem => StartsWith(path, "/profile")
  }

  /** The two global items are never active together, and on a global page exactly one is. */
  lemma OneGlobalActive(path: string)
    ensures !(GlobalActive(path, OperationsItem) && GlobalActive(path, ProfileItem))
    ensures IsGlobalPage(path) ==> GlobalActive(path, OperationsItem) || GlobalActive(path, ProfileItem)
  {
    if GlobalActive(path, OperationsItem) {
      assert path[1] == 'o';
      assert !StartsWith(path, "/profile") by { assert "/profile"[1] == 'p'; }
    }
  }
}

=== FILE: onboarding.dfy ===
/**
 * The code-name form of the onboarding page: the validation chain, the
 * lower-cased name that is written, and the messages a failed write shows.
 */
module Onboarding {
  import opened Wrappers
  import opened Strings

  const MinLength: nat := 3
  const MaxLength: nat := 20

  /** The length JavaScript reports: characters outside the Basic Multilingual Plane count as two UTF-16 units. */
  function Utf16Length(s: string): (n: nat)
    ensures |s| <= n <= 2 * |s|
    ensures n == |s| <==> forall i :: 0 <= i < |s| ==> s[i] as int <= 0xFFFF
  {
    if s == [] then 0
    else Utf16Length(s[..|s| - 1]) + (if s[|s| - 1] as int > 0xFFFF then 2 else 1)
  }

  /** One character of `[a-zA-Z0-9_]`. */
  predicate IsNameChar(c: char) {
    IsAsciiUpper(c) || IsAsciiLower(c) || IsAsciiDigit(c) || c == '_'
  }

  datatype UsernameError = TooShort | TooLong | BadCharacters

  /** The message shown for each failed check. */
  function ErrorText(e: UsernameError): string {
    match e
    case TooShort => "Codinome deve ter pelo menos 3 caracteres"
    case TooLong => "Codinome deve ter no máximo 20 caracteres"
    case BadCharacters => "Use apenas letras, números e underscores"
  }

  /** The checks in order: too short, too long, then the character class; the first failure is reported. */
  function ValidateUsername(name: string): (r: Option<UsernameError>)
    ensures r == Some(TooShort) <==> Utf16Length(name) < MinLength
    ensures r == Some(TooLong) <==> MinLength <= Utf16Length(name) && Utf16Length(name) > MaxLength
    ensures r == Some(BadCharacters) <==>
      MinLength <= Utf16Length(name) <= MaxLength && exists i :: 0 <= i < |name| && !IsNameChar(name[i])
    ensures r.None? ==> MinLength <= |name| <= MaxLength && forall i :: 0 <= i < |name| ==> IsNameChar(name[i])
  {
    if Utf16Length(name) < MinLength then Some(TooShort)
    else if Utf16Length(name) > MaxLength then Some(TooLong)
    else if exists i :: 0 <= i < |name| && !IsNameChar(name[i]) then Some(BadCharacters)
    else None
  }

  /** A name the checks accept has its length in 3..20 and only letters, digits and `_`, and conversely. */
  lemma AcceptedIff(name: string)
    ensures ValidateUsername(name).None? <==>
      MinLength <= |name| <= MaxLength && forall i :: 0 <= i < |name| ==> IsNameChar(name[i])
  { }

  /** Lower-casing an accepted name keeps it accepted and leaves no upper-case letter. */
  lemma LowerKeepsValid(name: string)
    requires ValidateUsername(name).None?
    ensures ValidateUsername(ToLower(name)).None?
    ensures forall i :: 0 <= i < |name| ==> !IsAsciiUpper(ToLower(name)[i])
  {
    var low := ToLower(name);
    assert forall i :: 0 <= i < |low| ==> IsNameChar(low[i]) && low[i] as int <= 0xFFFF;
  }

  /** The message for a failed profile update: the unique-violation code `23505` means the name is taken. */
  function UpdateErrorText(code: string): (m: string)
    ensures m == "Este codinome já está em uso" <==> code == "23505"
  {
    if code == "23505" then "Este codinome já está em uso" else "Erro ao criar codinome. Tente novamente."
  }

  /** What the `catch` of `handleSubmit` shows when a call inside its `try` throws. */
  const UnexpectedErrorText: string := "Erro inesperado. Tente novamente."

  datatype SubmitOutcome =
    | Rejected(error: UsernameError)
    | SessionExpired
    | UpdateFailed(message: string)
    | Unexpected(message: string)
    | Saved(stored: string)

  /**
   * `handleSubmit`: validation, then the session check, then the update whose
   * error code (if any) is `updateError`. `thrown` says the session read or
   * the update threw instead of answering, which the `catch` turns into a
   * generic message.
   */
  function Submit(name: string, signedIn: bool, updateError: Option<string>, thrown: bool): (r: SubmitOutcome)
    ensures ValidateUsername(name).Some? <==> r.Rejected?
    ensures r.Rejected? ==> r.error == ValidateUsername(name).value
    ensures r.Saved? ==> r.stored == ToLower(name) && ValidateUsername(r.stored).None?
    ensures r.Unexpected? <==> ValidateUsername(name).None? && thrown
    ensures r.Unexpected? ==> r.message == UnexpectedErrorText
    ensures r == SessionExpired <==> ValidateUsername(name).None? && !thrown && !signedIn
    ensures r.UpdateFailed? <==> ValidateUsername(name).None? && !thrown && signedIn && updateError.Some?
    ensures r.UpdateFailed? ==> r.message == UpdateErrorText(updateError.value)
    ensures r.Saved? <==> ValidateUsername(name).None? && !thrown && signedIn && updateError.None?
  {
    match ValidateUsername(name)
    case Some(e) => Rejected(e)
    case None =>
      if thrown then Unexpected(UnexpectedErrorText)
      else if !signedIn then SessionExpired
      else if updateError.Some? then UpdateFailed(UpdateErrorText(updateError.value))
      else (LowerKeepsValid(name); Saved(ToLower(name)))
  }

  /** The profile write `handleSubmit` issues: the lower-cased name, and only past validation with a session. */
  function ProfileWrite(name: string, signedIn: bool): (w: Option<string>)
    ensures w.Some? <==> ValidateUsername(name).None? && signedIn
    ensures w.Some? ==> w.value == ToLower(name) && ValidateUsername(w.value).None?
  {
    if ValidateUsername(name).None? && signedIn then (LowerKeepsValid(name); Some(ToLower(name))) else None
  }

  /** The outcome and the write agree: a saved name is the name written. */
  lemma SavedIsWritten(name: string, signedIn: bool, updateError: Option<string>, thrown: bool)
    ensures Submit(name, signedIn, updateError, thrown).Saved? ==>
      ProfileWrite(name, signedIn) == Some(Submit(name, signedIn, updateError, thrown).stored)
    ensures Submit(name, signedIn, updateError, thrown).Rejected? ==> ProfileWrite(name, signedIn).None?
  { }
}

=== FILE: operations.dfy ===
/**
 * The operations and operation_members tables and the two request handlers
 * that write them: creating an operation (src/app/api/operations/route.ts)
 * and joining one by invite code (src/app/api/operations/join/route.ts).
 *
 * Each request is modelled sequentially: the guards run against the state at
 * the start of the call and the inserts follow, with no interleaving.
 */
module Operations {
  import opened Wrappers
  import opened Strings

  type UserId = string

  /** Row identity of an operation; the store hands out fresh ones. */
  type OpId = nat

  datatype Status = Inactive | Active | Completed
  datatype Role = Creator | Member

  /** A row of the operations table (times in milliseconds). */
  datatype Operation = Operation(
    name: string,
    creator: UserId,
    durationDays: int,
    resetHour: int,
    status: Status,
    inviteCode: string,
    startedAt: Option<int>,
    endsAt: Option<int>)

  /** A row of the operation_members table. */
  datatype Membership = Membership(op: OpId, user: UserId, role: Role)

  /** A row of the operation_notification_log table, unique as a whole. */
  datatype LogEntry = LogEntry(op: OpId, day: int, kind: string)

  /** Calls into code the model does not contain, in the order they are issued. */
  datatype Effect =
    | IncrementProfileStat(user: UserId, stat: string)
    | AwardBadges(op: OpId)
    | Push(op: OpId, users: set<UserId>, title: string, body: string)
    | RemovePhotos(op: OpId, paths: seq<string>)
    | DeleteOperation(op: OpId)

  datatype ApiError =
    | Unauthorized
    | NameRequired
    | InvalidDuration
    | AlreadyInOperation
    | CodeRequired
    | CodeNotFound
    | OperationEnded
    | OperationFull
    | StoreError
    | Uncaught  // an exception that leaves a scheduled job's handler

  /** The status each route answers with: 401, 404, 500 for the store or an exception, 400 for the rest. */
  function HttpStatus(e: ApiError): (code: int)
    ensures code == 401 <==> e == Unauthorized
    ensures code == 404 <==> e == CodeNotFound
    ensures code == 500 <==> e == StoreError || e == Uncaught
    ensures code in {400, 401, 404, 500}
  {
    match e
    case Unauthorized => 401
    case CodeNotFound => 404
    case StoreError | Uncaught => 500
    case _ => 400
  }

  /** The statuses the membership queries filter on: `['inactive', 'active']`. */
  predicate IsLive(s: Status) {
    s == Inactive || s == Active
  }

  const CodeAlphabet: string := "ABCDEFGHJKLMNPQRSTUVWXYZ23456789"
  const CodeLength: nat := 6
  const MaxRegenerations: nat := 10
  const MaxMembers: nat := 5

  /** One random draw, `Math.floor(Math.random() * chars.length)`. */
  type Draw = i: int | 0 <= i < 32

  /** The six draws one call of `generateCode` makes. */
  type CodeDraws = s: seq<Draw> | |s| == 6 witness [0, 0, 0, 0, 0, 0]

  /** The invite-code symbols: upper-case letters without I and O, digits 2 to 9. */
  predicate IsCodeChar(c: char) {
    ('A' <= c <= 'Z' && c != 'I' && c != 'O') || ('2' <= c <= '9')
  }

  lemma CodeAlphabetShape()
    ensures |CodeAlphabet| == 32
    ensures forall j :: 0 <= j < 32 ==> IsCodeChar(CodeAlphabet[j])
  {
  }

  /** An order on the symbols in which the alphabet is listed: the letters, then the digits. */
  function SymbolKey(c: char): int {
    if '2' <= c <= '9' then c as int - '2' as int + 100 else c as int
  }

  lemma {:induction false} SymbolKeyIncreases(i: nat, j: nat)
    requires i < j < |CodeAlphabet|
    requires forall k :: 0 <= k < |CodeAlphabet| - 1 ==> SymbolKey(CodeAlphabet[k]) < SymbolKey(CodeAlphabet[k + 1])
    ensures SymbolKey(CodeAlphabet[i]) < SymbolKey(CodeAlphabet[j])
    decreases j - i
  {
    if i + 1 < j {
      SymbolKeyIncreases(i + 1, j);
    }
  }

  /** No symbol is listed twice, so each of the 32 draws gives a different symbol. */
  lemma CodeAlphabetDistinct()
    ensures forall i, j :: 0 <= i < j < |CodeAlphabet| ==> CodeAlphabet[i] != CodeAlphabet[j]
  {
    assert forall k :: 0 <= k < |CodeAlphabet| - 1 ==> SymbolKey(CodeAlphabet[k]) < SymbolKey(CodeAlphabet[k + 1]);
    forall i, j | 0 <= i < j < |CodeAlphabet|
      ensures CodeAlphabet[i] != CodeAlphabet[j]
    {
      SymbolKeyIncreases(i, j);
    }
  }

  /** generateCode: six symbols of the alphabet, one per draw. */
  function GenerateCode(draws: CodeDraws): (code: string)
    ensures |code| == CodeLength
    ensures forall i :: 0 <= i < |code| ==> code[i] == CodeAlphabet[draws[i]]
    ensures forall i :: 0 <= i < |code| ==> IsCodeChar(code[i])
    ensures forall i :: 0 <= i < |code| ==> code[i] !in "IO01"
  {
    CodeAlphabetShape();
    seq(6, i requires 0 <= i < 6 => CodeAlphabet[draws[i]])
  }

  /** The invite codes in use. */
  function InviteCodes(ops: map<OpId, Operation>): set<string> {
    set id | id in ops :: ops[id].inviteCode
  }

  /**
   * The retry loop: starting from draw `k`, the first draw (before the tenth
   * regeneration) whose code is unused or whose check failed, or the tenth
   * regeneration, taken unchecked. `readFails` holds the attempts whose lookup
   * returned an error: `existing` is then null and the loop stops.
   */
  function CodeAttempt(used: set<string>, draws: seq<CodeDraws>, readFails: set<nat>, k: nat): (n: nat)
    requires k <= MaxRegenerations < |draws|
    ensures k <= n <= MaxRegenerations
    ensures forall j :: k <= j < n ==> GenerateCode(draws[j]) in used && j !in readFails
    ensures n < MaxRegenerations ==> GenerateCode(draws[n]) !in used || n in readFails
    decreases MaxRegenerations - k
  {
    if k == MaxRegenerations || k in readFails || GenerateCode(draws[k]) !in used then k
    else CodeAttempt(used, draws, readFails, k + 1)
  }

  /** Memberships of one operation. */
  function Members(ms: set<Membership>, op: OpId): set<Membership> {
    set m | m in ms && m.op == op
  }

  function MemberCount(ms: set<Membership>, op: OpId): nat {
    |Members(ms, op)|
  }

  function MemberIds(ms: set<Membership>, op: OpId): set<UserId> {
    set m | m in ms && m.op == op :: m.user
  }

  predicate IsMember(ms: set<Membership>, op: OpId, user: UserId) {
    exists m :: m in ms && m.op == op && m.user == user
  }

  /**
   * The membership query of both routes: a membership of `user` in an
   * inactive or active operation, other than `except` when given.
   */
  predicate HasLiveMembership(ops: map<OpId, Operation>, ms: set<Membership>, user: UserId, except: Option<OpId>) {
    exists m :: m in ms && m.user == user && m.op in ops && IsLive(ops[m.op].status)
      && (except.None? || m.op != except.value)
  }

  // ---------------------------------------------------------------------------
  // Invariants of the tables

  ghost predicate MembershipsResolve(ops: map<OpId, Operation>, ms: set<Membership>) {
    forall m :: m in ms ==> m.op in ops
  }

  /** The primary key of operation_members is (operation, user). */
  ghost predicate OneRowPerMember(ms: set<Membership>) {
    forall m1, m2 :: m1 in ms && m2 in ms && m1.op == m2.op && m1.user == m2.user ==> m1 == m2
  }

  /** invite_code is unique. */
  ghost predicate UniqueInviteCodes(ops: map<OpId, Operation>) {
    forall a, b :: a in ops && b in ops && ops[a].inviteCode == ops[b].inviteCode ==> a == b
  }

  /** A user belongs to at most one inactive or active operation. */
  ghost predicate OneLiveOperationPerUser(ops: map<OpId, Operation>, ms: set<Membership>)
    requires MembershipsResolve(ops, ms)
  {
    forall m1, m2 :: m1 in ms && m2 in ms && m1.user == m2.user
         && IsLive(ops[m1.op].status) && IsLive(ops[m2.op].status)
      ==> m1.op == m2.op
  }

  /** No operation has more than five members. */
  ghost predicate WithinCapacity(ops: map<OpId, Operation>, ms: set<Membership>) {
    forall id :: id in ops ==> MemberCount(ms, id) <= MaxMembers
  }

  /** A code `generateCode` can produce: six symbols of the alphabet. */
  predicate IsInviteCode(c: string) {
    |c| == CodeLength && forall i :: 0 <= i < |c| ==> IsCodeChar(c[i])
  }

  /** Every stored invite code came from `generateCode`. */
  ghost predicate GeneratedCodes(ops: map<OpId, Operation>) {
    forall id :: id in ops ==> IsInviteCode(ops[id].inviteCode)
  }

  ghost predicate Invariant(ops: map<OpId, Operation>, ms: set<Membership>) {
    && GeneratedCodes(ops)
    && MembershipsResolve(ops, ms)
    && OneRowPerMember(ms)
    && UniqueInviteCodes(ops)
    && OneLiveOperationPerUser(ops, ms)
    && WithinCapacity(ops, ms)
  }

  /** Adding a membership of a user who is not yet a member keeps one row per member. */
  lemma AddKeepsOneRow(ms: set<Membership>, m: Membership)
    requires OneRowPerMember(ms) && !IsMember(ms, m.op, m.user)
    ensures OneRowPerMember(ms + {m})
  {
    assert forall m2 :: m2 in ms ==> !(m2.op == m.op && m2.user == m.user);
  }

  /** Adding a membership of a user with no live membership keeps at most one live operation per user. */
  lemma AddKeepsOneLive(ops: map<OpId, Operation>, ms: set<Membership>, m: Membership)
    requires MembershipsResolve(ops, ms) && OneLiveOperationPerUser(ops, ms)
    requires m.op in ops && !HasLiveMembership(ops, ms, m.user, None)
    ensures MembershipsResolve(ops, ms + {m}) && OneLiveOperationPerUser(ops, ms + {m})
  {
    assert forall m2 :: m2 in ms && m2.user == m.user ==> !IsLive(ops[m2.op].status);
  }

  /** Adding a new membership to an operation with room raises its count by one and keeps every operation within capacity. */
  lemma AddKeepsCapacity(ops: map<OpId, Operation>, ms: set<Membership>, m: Membership)
    requires WithinCapacity(ops, ms) && MemberCount(ms, m.op) < MaxMembers && !IsMember(ms, m.op, m.user)
    ensures MemberCount(ms + {m}, m.op) == MemberCount(ms, m.op) + 1
    ensures forall id :: id != m.op ==> Members(ms + {m}, id) == Members(ms, id)
    ensures WithinCapacity(ops, ms + {m})
  {
    assert Members(ms + {m}, m.op) == Members(ms, m.op) + {m};
    assert m !in Members(ms, m.op);
    forall id | id != m.op
      ensures Members(ms + {m}, id) == Members(ms, id)
    {
    }
  }

  /** Inserting a row under a fresh id, with an unused generated code, keeps the invariant and gives it no members. */
  lemma InsertKeepsInvariant(ops: map<OpId, Operation>, ms: set<Membership>, id: OpId, op: Operation)
    requires Invariant(ops, ms) && id !in ops
    requires IsInviteCode(op.inviteCode) && op.inviteCode !in InviteCodes(ops)
    ensures Invariant(ops[id := op], ms)
    ensures MemberCount(ms, id) == 0
    ensures forall u :: HasLiveMembership(ops[id := op], ms, u, None) <==> HasLiveMembership(ops, ms, u, None)
  {
    assert forall b :: b in ops ==> ops[b].inviteCode in InviteCodes(ops);
    assert Members(ms, id) == {};
  }

  // ---------------------------------------------------------------------------
  // Creating an operation

  /**
   * The guards of the create route, in order; `None` when all pass.
   * `activeFails` says the live-membership read returned an error: its `data`
   * is then null, `(activeMembership || []).length` is 0 and the guard passes.
   */
  function CreateRejectionReads(ops: map<OpId, Operation>, ms: set<Membership>, user: Option<UserId>,
                                name: Option<string>, durationDays: Option<int>, activeFails: bool): (r: Option<ApiError>)
    ensures user.None? ==> r == Some(Unauthorized)
    ensures r.Some? ==> r.value in {Unauthorized, NameRequired, InvalidDuration, AlreadyInOperation}
    ensures r.None? <==>
      && user.Some? && name.Some? && Trim(name.value) != ""
      && durationDays.Some? && durationDays.value in {7, 14, 30}
      && (activeFails || !HasLiveMembership(ops, ms, user.value, None))
  {
    if user.None? then Some(Unauthorized)
    else if name.None? || Trim(name.value) == "" then Some(NameRequired)
    else if durationDays.None? || durationDays.value !in {7, 14, 30} then Some(InvalidDuration)
    else if !activeFails && HasLiveMembership(ops, ms, user.value, None) then Some(AlreadyInOperation)
    else None
  }

  /** The create route's guards when the live-membership read answers. */
  function CreateRejection(ops: map<OpId, Operation>, ms: set<Membership>, user: Option<UserId>,
                           name: Option<string>, durationDays: Option<int>): (r: Option<ApiError>)
    ensures user.None? ==> r == Some(Unauthorized)
    ensures r.Some? ==> r.value in {Unauthorized, NameRequired, InvalidDuration, AlreadyInOperation}
    ensures r.None? <==>
      && user.Some? && name.Some? && Trim(name.value) != ""
      && durationDays.Some? && durationDays.value in {7, 14, 30}
      && !HasLiveMembership(ops, ms, user.value, None)
  {
    CreateRejectionReads(ops, ms, user, name, durationDays, false)
  }

  /**
   * A failed live-membership read lets a user who is already in a live
   * operation create a second one: the creator's row then gives that user two.
   */
  lemma FailedActiveReadCreatesSecond(ops: map<OpId, Operation>, ms: set<Membership>, uid: UserId, name: string,
                                      durationDays: int, resetHour: Option<int>, code: string, id: OpId)
    requires MembershipsResolve(ops, ms) && HasLiveMembership(ops, ms, uid, None)
    requires Trim(name) != "" && durationDays in {7, 14, 30} && id !in ops
    ensures CreateRejection(ops, ms, Some(uid), Some(name), Some(durationDays)) == Some(AlreadyInOperation)
    ensures CreateRejectionReads(ops, ms, Some(uid), Some(name), Some(durationDays), true).None?
    ensures var ops' := ops[id := NewOperation(uid, name, durationDays, resetHour, code)];
      var ms' := ms + {Membership(id, uid, Creator)};
      MembershipsResolve(ops', ms') && !OneLiveOperationPerUser(ops', ms')
  {
    var m2 :| m2 in ms && m2.user == uid && m2.op in ops && IsLive(ops[m2.op].status);
    var ops' := ops[id := NewOperation(uid, name, durationDays, resetHour, code)];
    var m := Membership(id, uid, Creator);
    assert m2.op != id && IsLive(ops'[m2.op].status) && IsLive(ops'[id].status);
    assert m in ms + {m} && m2 in ms + {m};
  }

  /** A request that passes the guards has a user, a non-blank name, an allowed duration and no live membership. */
  lemma CreateAccepts(ops: map<OpId, Operation>, ms: set<Membership>, user: Option<UserId>,
                      name: Option<string>, durationDays: Option<int>)
    requires CreateRejection(ops, ms, user, name, durationDays).None?
    ensures user.Some? && name.Some? && durationDays.Some?
    ensures exists i :: 0 <= i < |name.value| && !IsJsSpace(name.value[i])
    ensures durationDays.value == 7 || durationDays.value == 14 || durationDays.value == 30
    ensures forall m :: m in ms && m.user == user.value && m.op in ops ==> ops[m.op].status == Completed
  {
    TrimEmptyIffBlank(name.value);
  }

  /** The row the create route inserts. */
  function NewOperation(user: UserId, name: string, durationDays: int, resetHour: Option<int>, code: string): (op: Operation)
    ensures op.status == Inactive && op.creator == user && op.inviteCode == code
    ensures op.name == Trim(name) && op.resetHour == (if resetHour.Some? then resetHour.value else 0)
    ensures op.startedAt.None? && op.endsAt.None?
  {
    Operation(Trim(name), user, durationDays, resetHour.GetOr(0), Inactive, code, None, None)
  }

  // ---------------------------------------------------------------------------
  // Joining by invite code

  /** `String(payload.code || payload.invite_code || '').trim().toUpperCase()`. */
  function JoinCode(code: Option<string>, inviteCode: Option<string>): (r: string)
    ensures code.Some? && code.value != "" ==> r == NormaliseCode(code.value)
    ensures !(code.Some? && code.value != "") && inviteCode.Some? && inviteCode.value != "" ==>
      r == NormaliseCode(inviteCode.value)
    ensures !(code.Some? && code.value != "") && !(inviteCode.Some? && inviteCode.value != "") ==> r == ""
  {
    NormaliseCode(FirstNonEmpty(code, inviteCode))
  }

  /** `code || invite_code || ''`. */
  function FirstNonEmpty(code: Option<string>, inviteCode: Option<string>): (raw: string)
    ensures raw != "" <==> (code.Some? && code.value != "") || (inviteCode.Some? && inviteCode.value != "")
  {
    if code.Some? && code.value != "" then code.value
    else if inviteCode.Some? && inviteCode.value != "" then inviteCode.value
    else ""
  }

  /** `.trim().toUpperCase()`: empty exactly when the raw code is blank. */
  function NormaliseCode(raw: string): (r: string)
    ensures r == "" <==> Trim(raw) == ""
  {
    ToUpper(Trim(raw))
  }

  lemma UpperCharKeepsSpace(c: char)
    ensures IsJsSpace(UpperChar(c)) <==> IsJsSpace(c)
    ensures !IsAsciiLower(UpperChar(c)) && UpperChar(UpperChar(c)) == UpperChar(c)
  {
  }

  /** Upper-casing neither creates nor removes white space at either end. */
  lemma UpperKeepsEnds(t: string)
    requires t == [] || (!IsJsSpace(t[0]) && !IsJsSpace(t[|t| - 1]))
    ensures var u := ToUpper(t); u == [] || (!IsJsSpace(u[0]) && !IsJsSpace(u[|u| - 1]))
  {
    if t != [] {
      UpperCharKeepsSpace(t[0]);
      UpperCharKeepsSpace(t[|t| - 1]);
    }
  }

  lemma UpperIdempotent(t: string)
    ensures ToUpper(ToUpper(t)) == ToUpper(t)
    ensures forall i :: 0 <= i < |t| ==> !IsAsciiLower(ToUpper(t)[i])
  {
    forall i | 0 <= i < |t|
      ensures ToUpper(ToUpper(t))[i] == ToUpper(t)[i] && !IsAsciiLower(ToUpper(t)[i])
    {
      UpperCharKeepsSpace(t[i]);
    }
  }

  lemma TrimOfTrimmed(s: string)
    requires s == [] || (!IsJsSpace(s[0]) && !IsJsSpace(s[|s| - 1]))
    ensures Trim(s) == s
  {
    assert TrimStart(s) == s;
    assert TrimEnd(s) == s;
  }

  /** The normalised code has no surrounding white space and no lower-case ASCII letter, so normalising it again changes nothing. */
  lemma NormaliseCodeIdempotent(raw: string)
    ensures var c := NormaliseCode(raw);
      && (c == [] || (!IsJsSpace(c[0]) && !IsJsSpace(c[|c| - 1])))
      && (forall i :: 0 <= i < |c| ==> !IsAsciiLower(c[i]))
      && NormaliseCode(c) == c
  {
    var t := Trim(raw);
    var c := ToUpper(t);
    UpperKeepsEnds(t);
    UpperIdempotent(t);
    TrimOfTrimmed(c);
  }

  /** A generated invite code is already in normal form, so typing it back finds it. */
  lemma InviteCodeIsNormal(c: string)
    requires IsInviteCode(c)
    ensures JoinCode(Some(c), None) == c
  {
    assert !IsJsSpace(c[0]) && !IsJsSpace(c[|c| - 1]);
    TrimOfTrimmed(c);
    assert ToUpper(c) == c;
  }

  /** The operation holding an invite code, if any. */
  ghost function LookupCode(ops: map<OpId, Operation>, code: string): (r: Option<OpId>)
    ensures r.Some? ==> r.value in ops && ops[r.value].inviteCode == code
    ensures r.None? <==> code !in InviteCodes(ops)
  {
    if code in InviteCodes(ops) then
      var id :| id in ops && ops[id].inviteCode == code; Some(id)
    else None
  }

  /** What the join route decides before its insert. */
  datatype JoinStep = Reject(error: ApiError) | AlreadyMember(op: OpId) | Insert(op: OpId, user: UserId)

  /**
   * `c` is the normalised code, `JoinCode` of the payload. `lookupFails` says
   * the code lookup returned an error: `operation` is then null and the route
   * answers as for an unknown code.
   */
  ghost function JoinDecisionReads(ops: map<OpId, Operation>, ms: set<Membership>, user: Option<UserId>, c: string,
                                   lookupFails: bool): (r: JoinStep)
    ensures r == Reject(Unauthorized) <==> user.None?
    ensures r == Reject(CodeRequired) <==> user.Some? && c == ""
    ensures r == Reject(CodeNotFound) <==> user.Some? && c != "" && (lookupFails || c !in InviteCodes(ops))
    ensures r.Insert? || r.AlreadyMember? ==> !lookupFails && r.op in ops && ops[r.op].inviteCode == c
  {
    if user.None? then Reject(Unauthorized)
    else if c == "" then Reject(CodeRequired)
    else if lookupFails || LookupCode(ops, c).None? then Reject(CodeNotFound)
    else JoinAt(ops, ms, user.value, LookupCode(ops, c).value)
  }

  /** The join route's decision when the code lookup answers. */
  ghost function JoinDecision(ops: map<OpId, Operation>, ms: set<Membership>, user: Option<UserId>, c: string): (r: JoinStep)
    ensures r == Reject(Unauthorized) <==> user.None?
    ensures r == Reject(CodeRequired) <==> user.Some? && c == ""
    ensures r == Reject(CodeNotFound) <==> user.Some? && c != "" && c !in InviteCodes(ops)
    ensures r.Insert? || r.AlreadyMember? ==> r.op in ops && ops[r.op].inviteCode == c
  {
    JoinDecisionReads(ops, ms, user, c, false)
  }

  /** A failed code lookup turns away even a code that names an operation. */
  lemma FailedLookupIsNotFound(ops: map<OpId, Operation>, ms: set<Membership>, user: UserId, id: OpId)
    requires id in ops && ops[id].inviteCode != ""
    ensures JoinDecision(ops, ms, Some(user), ops[id].inviteCode) != Reject(CodeNotFound)
    ensures JoinDecisionReads(ops, ms, Some(user), ops[id].inviteCode, true) == Reject(CodeNotFound)
  {
    assert ops[id].inviteCode in InviteCodes(ops);
  }

  /**
   * Which of the join route's reads returned an error. A failed read leaves
   * its `data` or `count` null, which the route takes as no live membership
   * (`activeMembership || []`), zero members (`count || 0`) and no row of the
   * caller (`existing`).
   */
  datatype ReadFailures = ReadFailures(activeFails: bool, countFails: bool, existingFails: bool)

  const AllReadsAnswer: ReadFailures := ReadFailures(false, false, false)

  /** The checks on the operation the code names, `id`, in the route's order, with failed reads failing open. */
  function JoinAtReads(ops: map<OpId, Operation>, ms: set<Membership>, user: UserId, id: OpId, answers: ReadFailures): (r: JoinStep)
    requires id in ops
    ensures r == Reject(OperationEnded) <==> ops[id].status == Completed
    ensures r == Reject(AlreadyInOperation) <==>
      ops[id].status != Completed && !answers.activeFails && HasLiveMembership(ops, ms, user, Some(id))
    ensures r == Reject(OperationFull) <==>
      && ops[id].status != Completed && !(!answers.activeFails && HasLiveMembership(ops, ms, user, Some(id)))
      && !answers.countFails && MemberCount(ms, id) >= MaxMembers
    ensures r.AlreadyMember? ==> r.op == id && !answers.existingFails && IsMember(ms, id, user)
    ensures r.Insert? ==> r == Insert(id, user) && (answers.existingFails || !IsMember(ms, id, user))
    ensures r.Reject? ==> r.error in {OperationEnded, AlreadyInOperation, OperationFull}
  {
    if ops[id].status == Completed then Reject(OperationEnded)
    else if !answers.activeFails && HasLiveMembership(ops, ms, user, Some(id)) then Reject(AlreadyInOperation)
    else if !answers.countFails && MemberCount(ms, id) >= MaxMembers then Reject(OperationFull)
    else if !answers.existingFails && IsMember(ms, id, user) then AlreadyMember(id)
    else Insert(id, user)
  }

  /** The checks on the operation the code names, `id`, when every read answers. */
  function JoinAt(ops: map<OpId, Operation>, ms: set<Membership>, user: UserId, id: OpId): (r: JoinStep)
    requires id in ops
    ensures r == Reject(OperationEnded) <==> ops[id].status == Completed
    ensures r.AlreadyMember? ==> r.op == id && IsMember(ms, id, user) && MemberCount(ms, id) < MaxMembers
    ensures r.Insert? ==>
      && r == Insert(id, user) && ops[id].status != Completed
      && !HasLiveMembership(ops, ms, user, Some(id)) && MemberCount(ms, id) < MaxMembers && !IsMember(ms, id, user)
    ensures r.Reject? ==> r.error in {OperationEnded, AlreadyInOperation, OperationFull}
  {
    JoinAtReads(ops, ms, user, id, AllReadsAnswer)
  }

  /**
   * A failed count read counts zero members: a caller with no other live
   * membership is let into a full operation, which then holds six.
   */
  lemma FailedCountReadOverfills(ops: map<OpId, Operation>, ms: set<Membership>, user: UserId, id: OpId)
    requires id in ops && ops[id].status != Completed
    requires !HasLiveMembership(ops, ms, user, Some(id)) && !IsMember(ms, id, user)
    requires MemberCount(ms, id) == MaxMembers
    ensures JoinAt(ops, ms, user, id) == Reject(OperationFull)
    ensures JoinAtReads(ops, ms, user, id, ReadFailures(false, true, false)) == Insert(id, user)
    ensures MemberCount(ms + {Membership(id, user, Member)}, id) == MaxMembers + 1
    ensures !WithinCapacity(ops, ms + {Membership(id, user, Member)})
  {
    var m := Membership(id, user, Member);
    assert Members(ms + {m}, id) == Members(ms, id) + {m};
    assert m !in Members(ms, id);
  }

  /**
   * A failed read of the caller's other live memberships finds none: the
   * caller joins while still in another live operation.
   */
  lemma FailedActiveReadJoinsSecond(ops: map<OpId, Operation>, ms: set<Membership>, user: UserId, id: OpId)
    requires id in ops && ops[id].status != Completed && MembershipsResolve(ops, ms)
    requires HasLiveMembership(ops, ms, user, Some(id))
    requires MemberCount(ms, id) < MaxMembers && !IsMember(ms, id, user)
    ensures JoinAt(ops, ms, user, id) == Reject(AlreadyInOperation)
    ensures JoinAtReads(ops, ms, user, id, ReadFailures(true, false, false)) == Insert(id, user)
    ensures var ms' := ms + {Membership(id, user, Member)};
      MembershipsResolve(ops, ms') && !OneLiveOperationPerUser(ops, ms')
  {
    var m2 :| m2 in ms && m2.user == user && m2.op in ops && IsLive(ops[m2.op].status) && m2.op != id;
    var m := Membership(id, user, Member);
    assert IsLive(ops[id].status);
    assert m in ms + {m} && m2 in ms + {m};
  }

  /**
   * A failed read of the caller's own row finds none: a member is inserted
   * again instead of answered with success. Under the (operation, user)
   * primary key that insert fails and the route answers 500.
   */
  lemma FailedExistingReadReinserts(ops: map<OpId, Operation>, ms: set<Membership>, user: UserId, id: OpId)
    requires id in ops && ops[id].status != Completed
    requires !HasLiveMembership(ops, ms, user, Some(id)) && MemberCount(ms, id) < MaxMembers
    requires IsMember(ms, id, user)
    ensures JoinAt(ops, ms, user, id) == AlreadyMember(id)
    ensures JoinAtReads(ops, ms, user, id, ReadFailures(false, false, true)) == Insert(id, user)
  {
  }

  /** A join that inserts targets a live operation with room and a caller who is in no live operation. */
  lemma JoinInsertOnlyWithRoom(ops: map<OpId, Operation>, ms: set<Membership>, user: Option<UserId>, c: string)
    requires Invariant(ops, ms)
    requires JoinDecision(ops, ms, user, c).Insert?
    ensures var step := JoinDecision(ops, ms, user, c);
      && user == Some(step.user)
      && step.op in ops && IsLive(ops[step.op].status)
      && MemberCount(ms, step.op) < MaxMembers
      && !IsMember(ms, step.op, step.user)
      && !HasLiveMembership(ops, ms, step.user, None)
  {
  }

  /** The capacity check comes first: a member of a full operation gets the capacity error, not success. */
  lemma JoinFullBeforeMember(ops: map<OpId, Operation>, ms: set<Membership>, user: UserId, id: OpId)
    requires Invariant(ops, ms)
    requires id in ops && ops[id].status != Completed
    requires IsMember(ms, id, user) && MemberCount(ms, id) >= MaxMembers
    ensures JoinDecision(ops, ms, Some(user), ops[id].inviteCode) == Reject(OperationFull)
  {
    var c := ops[id].inviteCode;
    NormalCodeOfMember(ops, id);
    assert LookupCode(ops, c) == Some(id);
  }

  /** A member of an operation that is not full gets success without a new row. */
  lemma JoinExistingMember(ops: map<OpId, Operation>, ms: set<Membership>, user: UserId, id: OpId)
    requires Invariant(ops, ms)
    requires id in ops && ops[id].status != Completed
    requires IsMember(ms, id, user) && MemberCount(ms, id) < MaxMembers
    ensures JoinDecision(ops, ms, Some(user), ops[id].inviteCode) == AlreadyMember(id)
  {
    var c := ops[id].inviteCode;
    NormalCodeOfMember(ops, id);
    assert LookupCode(ops, c) == Some(id);
  }

  /**
   * Typing an existing operation's code back finds it. Codes in the store are
   * assumed to be in normal form (the create route only stores generated codes).
   */
  lemma NormalCodeOfMember(ops: map<OpId, Operation>, id: OpId)
    requires UniqueInviteCodes(ops) && id in ops
    ensures LookupCode(ops, ops[id].inviteCode) == Some(id)
  {
  }

  /**
   * Repeating a join that inserted: the caller is now a member, so the second
   * request succeeds without a new row, unless the first one filled the
   * operation, in which case the capacity check answers first.
   */
  lemma JoinAgain(ops: map<OpId, Operation>, ms: set<Membership>, user: UserId, c: string)
    requires JoinDecision(ops, ms, Some(user), c).Insert?
    ensures JoinDecision(ops, ms, Some(user), c).user == user
    ensures var id := JoinDecision(ops, ms, Some(user), c).op;
      JoinDecision(ops, ms + {Membership(id, user, Member)}, Some(user), c)
        == if MemberCount(ms, id) + 1 >= MaxMembers then Reject(OperationFull) else AlreadyMember(id)
  {
    var id := JoinDecision(ops, ms, Some(user), c).op;
    var m := Membership(id, user, Member);
    var ms' := ms + {m};
    assert !HasLiveMembership(ops, ms', user, Some(id));
    assert Members(ms', id) == Members(ms, id) + {m};
    assert m !in Members(ms, id);
    assert m in ms';
  }

  /** One live membership elsewhere blocks the join; a live membership of the same operation does not. */
  lemma JoinBlockedOnlyByOtherOperation(ops: map<OpId, Operation>, ms: set<Membership>, user: UserId, c: string)
    requires Invariant(ops, ms)
    requires JoinDecision(ops, ms, Some(user), c) == Reject(AlreadyInOperation)
    ensures exists m :: m in ms && m.user == user && IsLive(ops[m.op].status) && Some(m.op) != LookupCode(ops, c)
  {
  }

  /** The code loop of the create route: regenerate while the code is taken, at most ten times. */
  method PickCode(used: set<string>, draws: seq<CodeDraws>, readFails: set<nat>) returns (code: string)
    requires |draws| > MaxRegenerations
    ensures code == GenerateCode(draws[CodeAttempt(used, draws, readFails, 0)])
    ensures IsInviteCode(code)
    ensures code in used ==>
      CodeAttempt(used, draws, readFails, 0) in readFails
      || forall k :: 0 <= k <= MaxRegenerations ==> GenerateCode(draws[k]) in used
  {
    code := GenerateCode(draws[0]);
    var attempts := 0;
    while attempts < MaxRegenerations
      invariant 0 <= attempts <= MaxRegenerations
      invariant code == GenerateCode(draws[attempts])
      invariant CodeAttempt(used, draws, readFails, attempts) == CodeAttempt(used, draws, readFails, 0)
    {
      if attempts in readFails || code !in used {
        break;
      }
      code := GenerateCode(draws[attempts + 1]);
      attempts := attempts + 1;
    }
  }

  // ---------------------------------------------------------------------------
  // The store

  class Store {
    var operations: map<OpId, Operation>
    var memberships: set<Membership>
    /** Non-null photo_url values of each operation's assigned missions. */
    var photos: map<OpId, seq<string>>
    var notificationLog: set<LogEntry>
    var nextId: OpId

    ghost predicate Valid()
      reads this
    {
      && (forall id :: id in operations ==> id < nextId)
      && Invariant(operations, memberships)
      && photos.Keys <= operations.Keys
    }

    constructor ()
      ensures Valid()
      ensures operations == map[] && memberships == {} && photos == map[] && notificationLog == {}
    {
      operations, memberships, photos, notificationLog, nextId := map[], {}, map[], {}, 0;
    }

    /**
     * POST /api/operations. `draws` are the random draws of the first code and
     * its ten possible regenerations; `codeReadFails` the attempts whose code
     * lookup returned an error; `opInsertFails` is the outcome of the
     * operation insert and `memberInsertFails` that of the creator-membership
     * insert.
     */
    method Create(user: Option<UserId>, name: Option<string>, durationDays: Option<int>,
                  resetHour: Option<int>, draws: seq<CodeDraws>, codeReadFails: set<nat>,
                  opInsertFails: bool, memberInsertFails: bool)
      returns (result: Result<OpId, ApiError>, effects: seq<Effect>)
      requires Valid() && |draws| > MaxRegenerations
      modifies this
      ensures Valid()
      ensures notificationLog == old(notificationLog) && photos == old(photos)
      ensures var rejection := CreateRejection(old(operations), old(memberships), user, name, durationDays);
        rejection.Some? ==> result == Err(rejection.value) && effects == [] && unchanged(this)
      ensures var rejection := CreateRejection(old(operations), old(memberships), user, name, durationDays);
        var code := GenerateCode(draws[CodeAttempt(InviteCodes(old(operations)), draws, codeReadFails, 0)]);
        rejection.None? && code in InviteCodes(old(operations)) ==>
          result == Err(StoreError) && effects == [] && unchanged(this)
      ensures var rejection := CreateRejection(old(operations), old(memberships), user, name, durationDays);
        var code := GenerateCode(draws[CodeAttempt(InviteCodes(old(operations)), draws, codeReadFails, 0)]);
        rejection.None? && code !in InviteCodes(old(operations)) && opInsertFails ==>
          result == Err(StoreError) && effects == [] && unchanged(this)
      ensures var rejection := CreateRejection(old(operations), old(memberships), user, name, durationDays);
        var code := GenerateCode(draws[CodeAttempt(InviteCodes(old(operations)), draws, codeReadFails, 0)]);
        rejection.None? && code !in InviteCodes(old(operations)) && !opInsertFails ==>
          && old(nextId) !in old(operations)
          && operations == old(operations)[old(nextId) := NewOperation(user.value, name.value, durationDays.value, resetHour, code)]
          && (memberInsertFails ==> result == Err(StoreError) && effects == [] && memberships == old(memberships))
          && (!memberInsertFails ==>
                && result == Ok(old(nextId))
                && memberships == old(memberships) + {Membership(old(nextId), user.value, Creator)}
                && Members(memberships, old(nextId)) == {Membership(old(nextId), user.value, Creator)}
                && effects == [IncrementProfileStat(user.value, "total_operations")])
    {
      var rejection := CreateRejection(operations, memberships, user, name, durationDays);
      if rejection.Some? {
        return Err(rejection.value), [];
      }
      result, effects := CreateAccepted(user.value, name.value, durationDays.value, resetHour, draws, codeReadFails, opInsertFails, memberInsertFails);
    }

    /** The create route past its guards: the code loop, the operation row, the creator's membership. */
    method CreateAccepted(uid: UserId, name: string, durationDays: int, resetHour: Option<int>,
                          draws: seq<CodeDraws>, codeReadFails: set<nat>, opInsertFails: bool, memberInsertFails: bool)
      returns (result: Result<OpId, ApiError>, effects: seq<Effect>)
      requires Valid() && |draws| > MaxRegenerations
      requires !HasLiveMembership(operations, memberships, uid, None)
      modifies this`operations, this`memberships, this`nextId
      ensures Valid()
      ensures var code := GenerateCode(draws[CodeAttempt(InviteCodes(old(operations)), draws, codeReadFails, 0)]);
        code in InviteCodes(old(operations)) ==>
          result == Err(StoreError) && effects == [] && unchanged(this)
      ensures var code := GenerateCode(draws[CodeAttempt(InviteCodes(old(operations)), draws, codeReadFails, 0)]);
        code !in InviteCodes(old(operations)) && opInsertFails ==>
          result == Err(StoreError) && effects == [] && unchanged(this)
      ensures var code := GenerateCode(draws[CodeAttempt(InviteCodes(old(operations)), draws, codeReadFails, 0)]);
        code !in InviteCodes(old(operations)) && !opInsertFails ==>
          && old(nextId) !in old(operations)
          && operations == old(operations)[old(nextId) := NewOperation(uid, name, durationDays, resetHour, code)]
          && (memberInsertFails ==> result == Err(StoreError) && effects == [] && memberships == old(memberships))
          && (!memberInsertFails ==>
                && result == Ok(old(nextId))
                && memberships == old(memberships) + {Membership(old(nextId), uid, Creator)}
                && Members(memberships, old(nextId)) == {Membership(old(nextId), uid, Creator)}
                && effects == [IncrementProfileStat(uid, "total_operations")])
    {
      var used := InviteCodes(operations);
      var code := PickCode(used, draws, codeReadFails);
      if code in used {
        // the model assumes a unique constraint on invite_code, which rejects the insert
        return Err(StoreError), [];
      }
      result, effects := InsertCreated(NewOperation(uid, name, durationDays, resetHour, code), opInsertFails, memberInsertFails);
    }

    /**
     * The operation row with its unused code, then the creator's membership.
     * A failed operation insert ends the request before any change.
     */
    method InsertCreated(op: Operation, opInsertFails: bool, memberInsertFails: bool)
      returns (result: Result<OpId, ApiError>, effects: seq<Effect>)
      requires Valid() && IsLive(op.status)
      requires IsInviteCode(op.inviteCode) && op.inviteCode !in InviteCodes(operations)
      requires !HasLiveMembership(operations, memberships, op.creator, None)
      modifies this`operations, this`memberships, this`nextId
      ensures Valid()
      ensures opInsertFails ==> result == Err(StoreError) && effects == [] && unchanged(this)
      ensures !opInsertFails ==> old(nextId) !in old(operations) && operations == old(operations)[old(nextId) := op]
      ensures !opInsertFails && memberInsertFails ==> result == Err(StoreError) && effects == [] && memberships == old(memberships)
      ensures !opInsertFails && !memberInsertFails ==>
        && result == Ok(old(nextId))
        && memberships == old(memberships) + {Membership(old(nextId), op.creator, Creator)}
        && Members(memberships, old(nextId)) == {Membership(old(nextId), op.creator, Creator)}
        && effects == [IncrementProfileStat(op.creator, "total_operations")]
    {
      if opInsertFails {
        return Err(StoreError), [];
      }
      var id := InsertOperation(op);
      if memberInsertFails {
        return Err(StoreError), [];
      }
      var creator := Membership(id, op.creator, Creator);
      AddMembership(creator);
      effects := [IncrementProfileStat(op.creator, "total_operations")];
      result := Ok(id);
    }

    /** Inserts an operation row with an unused generated code and no members yet. */
    method InsertOperation(op: Operation) returns (id: OpId)
      requires Valid()
      requires IsInviteCode(op.inviteCode) && op.inviteCode !in InviteCodes(operations)
      modifies this`operations, this`nextId
      ensures Valid()
      ensures id == old(nextId) && id !in old(operations) && operations == old(operations)[id := op]
      ensures MemberCount(memberships, id) == 0
      ensures forall u :: HasLiveMembership(operations, memberships, u, None) <==> HasLiveMembership(old(operations), memberships, u, None)
    {
      id := nextId;
      InsertKeepsInvariant(operations, memberships, id, op);
      operations := operations[id := op];
      nextId := nextId + 1;
    }

    /** Inserts a membership of a user who has no live membership into an operation with room. */
    method AddMembership(m: Membership)
      requires Valid()
      requires m.op in operations && IsLive(operations[m.op].status)
      requires MemberCount(memberships, m.op) < MaxMembers
      requires !IsMember(memberships, m.op, m.user)
      requires !HasLiveMembership(operations, memberships, m.user, None)
      modifies this`memberships
      ensures Valid()
      ensures memberships == old(memberships) + {m}
      ensures MemberCount(memberships, m.op) == MemberCount(old(memberships), m.op) + 1
    {
      AddKeepsOneRow(memberships, m);
      AddKeepsOneLive(operations, memberships, m);
      AddKeepsCapacity(operations, memberships, m);
      memberships := memberships + {m};
    }

    /**
     * POST /api/operations/join. `code` and `inviteCode` are the two payload
     * fields the route accepts; `lookupFails` is the outcome of the code
     * lookup and `insertFails` that of the insert.
     */
    method Join(user: Option<UserId>, code: Option<string>, inviteCode: Option<string>, lookupFails: bool, insertFails: bool)
      returns (result: Result<OpId, ApiError>)
      requires Valid()
      modifies this`memberships
      ensures Valid()
      ensures var step := JoinDecisionReads(old(operations), old(memberships), user, JoinCode(code, inviteCode), lookupFails);
        && (step.Reject? ==> result == Err(step.error) && memberships == old(memberships))
        && (step.AlreadyMember? ==> result == Ok(step.op) && memberships == old(memberships))
        && (step.Insert? && insertFails ==> result == Err(StoreError) && memberships == old(memberships))
        && (step.Insert? && !insertFails ==>
              && result == Ok(step.op)
              && memberships == old(memberships) + {Membership(step.op, step.user, Member)}
              && MemberCount(memberships, step.op) == MemberCount(old(memberships), step.op) + 1
              && MemberCount(memberships, step.op) <= MaxMembers)
    {
      if user.None? {
        return Err(Unauthorized);
      }
      var uid := user.value;
      var c := JoinCode(code, inviteCode);
      if c == "" {
        return Err(CodeRequired);
      }
      if lookupFails || c !in InviteCodes(operations) {
        return Err(CodeNotFound);
      }
      var id :| id in operations && operations[id].inviteCode == c;
      assert LookupCode(operations, c) == Some(id);
      result := JoinOperation(uid, id, insertFails);
    }

    /** The join past the code lookup: `id` is the operation the code names. */
    method JoinOperation(uid: UserId, id: OpId, insertFails: bool) returns (result: Result<OpId, ApiError>)
      requires Valid() && id in operations
      modifies this`memberships
      ensures Valid()
      ensures var step := JoinAt(operations, old(memberships), uid, id);
        && (step.Reject? ==> result == Err(step.error) && memberships == old(memberships))
        && (step.AlreadyMember? ==> result == Ok(step.op) && memberships == old(memberships))
        && (step.Insert? && insertFails ==> result == Err(StoreError) && memberships == old(memberships))
        && (step.Insert? && !insertFails ==>
              && result == Ok(step.op)
              && memberships == old(memberships) + {Membership(step.op, step.user, Member)}
              && MemberCount(memberships, step.op) == MemberCount(old(memberships), step.op) + 1
              && MemberCount(memberships, step.op) <= MaxMembers)
    {
      if operations[id].status == Completed {
        return Err(OperationEnded);
      }
      if HasLiveMembership(operations, memberships, uid, Some(id)) {
        return Err(AlreadyInOperation);
      }
      if MemberCount(memberships, id) >= MaxMembers {
        return Err(OperationFull);
      }
      if IsMember(memberships, id, uid) {
        return Ok(id);
      }
      if insertFails {
        return Err(StoreError);
      }
      assert !HasLiveMembership(operations, memberships, uid, None);
      AddMembership(Membership(id, uid, Member));
      result := Ok(id);
    }
  }

  /** A caller driving the store: the same join sent twice in a row. */
  method JoinTwice(store: Store, user: UserId, code: string) returns (first: Result<OpId, ApiError>, second: Result<OpId, ApiError>)
    requires store.Valid()
    modifies store`memberships
    ensures store.Valid()
    ensures first.Err? ==> second == first && store.memberships == old(store.memberships)
    ensures first.Ok? ==> second == first || second == Err(OperationFull)
    ensures store.memberships == old(store.memberships)
      || (first.Ok? && store.memberships == old(store.memberships) + {Membership(first.value, user, Member)})
  {
    ghost var c := JoinCode(Some(code), None);
    ghost var step := JoinDecision(store.operations, store.memberships, Some(user), c);
    first := store.Join(Some(user), Some(code), None, false, false);
    if step.Insert? {
      JoinAgain(old(store.operations), old(store.memberships), user, c);
    }
    second := store.Join(Some(user), Some(code), None, false, false);
  }
}

=== FILE: push.dfy ===
/**
 * The push-subscription table, its three request handlers, and the push
 * sender that prunes stale endpoints after its send loop.
 */
module Push {
  import opened Wrappers
  import opened Seqs

  type UserId = string

  /** The table's conflict key `(user_id, endpoint)`. */
  datatype SubscriptionKey = SubscriptionKey(user: UserId, endpoint: string)

  /** The key material stored with a subscription. */
  datatype Keys = Keys(p256dh: string, auth: string)

  datatype PushError = Unauthorized | InvalidPayload | MethodNotAllowed | MissingVapidKeys | StoreError

  /** The status each push handler answers with: 401, 400 for a bad payload, 405, and 500 for the store or missing keys. */
  function HttpStatus(e: PushError): (code: int)
    ensures code == 401 <==> e == Unauthorized
    ensures code == 400 <==> e == InvalidPayload
    ensures code == 405 <==> e == MethodNotAllowed
    ensures code == 500 <==> e.MissingVapidKeys? || e.StoreError?
  {
    match e
    case Unauthorized => 401
    case InvalidPayload => 400
    case MethodNotAllowed => 405
    case MissingVapidKeys => 500
    case StoreError => 500
  }

  /** A JSON string field is usable when present and non-empty (JavaScript truthiness). */
  predicate Given(s: Option<string>) {
    s.Some? && s.value != ""
  }

  /** The body of a subscribe request; absent fields are `None`. */
  datatype SubscriptionPayload = SubscriptionPayload(endpoint: Option<string>, p256dh: Option<string>, auth: Option<string>)

  // ---------------------------------------------------------------------------
  // Table operations, as functions on the rows

  /** Whether the user has at least one row. */
  predicate HasRows(rows: map<SubscriptionKey, Keys>, user: UserId) {
    exists k :: k in rows && k.user == user
  }

  /** The upsert on conflict `(user_id, endpoint)`: one row per key, holding the latest keys. */
  function Upsert(rows: map<SubscriptionKey, Keys>, key: SubscriptionKey, keys: Keys): (r: map<SubscriptionKey, Keys>)
    ensures key in r && r[key] == keys
    ensures r.Keys == rows.Keys + {key}
    ensures forall k :: k in rows && k != key ==> r[k] == rows[k]
  {
    rows[key := keys]
  }

  /** Repeating an upsert changes nothing. */
  lemma UpsertIdempotent(rows: map<SubscriptionKey, Keys>, key: SubscriptionKey, keys: Keys)
    ensures Upsert(Upsert(rows, key, keys), key, keys) == Upsert(rows, key, keys)
  { }

  /** An upsert leaves the user subscribed. */
  lemma UpsertSubscribes(rows: map<SubscriptionKey, Keys>, key: SubscriptionKey, keys: Keys)
    ensures HasRows(Upsert(rows, key, keys), key.user)
  {
    assert key in Upsert(rows, key, keys);
  }

  /** Whether the delete filter `user_id = user [and endpoint = e]` matches a key. */
  predicate DeleteMatches(key: SubscriptionKey, user: UserId, endpoint: Option<string>) {
    key.user == user && (Given(endpoint) ==> key.endpoint == endpoint.value)
  }

  /**
   * The rows left by the delete: the caller's row for the endpoint, or all of
   * the caller's rows when no usable endpoint is given; nothing else.
   */
  function RemoveRows(rows: map<SubscriptionKey, Keys>, user: UserId, endpoint: Option<string>): (r: map<SubscriptionKey, Keys>)
    ensures forall k :: k in r <==> k in rows && !DeleteMatches(k, user, endpoint)
    ensures forall k :: k in r ==> r[k] == rows[k]
  {
    map k | k in rows && !DeleteMatches(k, user, endpoint) :: rows[k]
  }

  /** Other users' rows survive any delete. */
  lemma RemoveKeepsOthers(rows: map<SubscriptionKey, Keys>, user: UserId, endpoint: Option<string>, other: UserId)
    requires other != user
    ensures HasRows(RemoveRows(rows, user, endpoint), other) == HasRows(rows, other)
  {
    if HasRows(rows, other) {
      var k :| k in rows && k.user == other;
      assert k in RemoveRows(rows, user, endpoint);
    }
  }

  /** A delete without an endpoint unsubscribes the caller. */
  lemma RemoveAllUnsubscribes(rows: map<SubscriptionKey, Keys>, user: UserId)
    ensures !HasRows(RemoveRows(rows, user, None), user)
  { }

  /** A delete with an endpoint keeps the caller's rows for other endpoints. */
  lemma RemoveOneKeepsOtherEndpoints(rows: map<SubscriptionKey, Keys>, user: UserId, endpoint: string, k: SubscriptionKey)
    requires endpoint != "" && k in rows && k.endpoint != endpoint
    ensures k in RemoveRows(rows, user, Some(endpoint))
  { }

  /** The rows left once every row whose endpoint is in `gone` is deleted, whoever owns it. */
  function WithoutEndpoints(rows: map<SubscriptionKey, Keys>, gone: set<string>): (r: map<SubscriptionKey, Keys>)
    ensures forall k :: k in r <==> k in rows && k.endpoint !in gone
    ensures forall k :: k in r ==> r[k] == rows[k]
  {
    map k | k in rows && k.endpoint !in gone :: rows[k]
  }

  // ---------------------------------------------------------------------------
  // The table and its handlers

  class SubscriptionTable {
    var rows: map<SubscriptionKey, Keys>

    constructor()
      ensures rows == map[]
    {
      rows := map[];
    }

    /**
     * `GET`: whether the caller has a subscription. A failed count reads as
     * `null`, hence as not subscribed.
     */
    function Get(user: Option<UserId>, countFails: bool): (r: Result<bool, PushError>)
      reads this
      ensures user.None? ==> r == Err(Unauthorized)
      ensures user.Some? ==> r.Ok? && (r.value <==> !countFails && HasRows(rows, user.value))
    {
      if user.None? then Err(Unauthorized)
      else Ok(!countFails && exists k | k in rows :: k.user == user.value)
    }

    /** `POST`: upserts the caller's subscription for the endpoint. */
    method Post(user: Option<UserId>, payload: SubscriptionPayload, storeFails: bool) returns (r: Result<(), PushError>)
      modifies this
      ensures user.None? ==> r == Err(Unauthorized) && rows == old(rows)
      ensures user.Some? && !(Given(payload.endpoint) && Given(payload.p256dh) && Given(payload.auth)) ==>
        r == Err(InvalidPayload) && rows == old(rows)
      ensures user.Some? && Given(payload.endpoint) && Given(payload.p256dh) && Given(payload.auth) ==>
        if storeFails then r == Err(StoreError) && rows == old(rows)
        else r == Ok(()) &&
             rows == Upsert(old(rows), SubscriptionKey(user.value, payload.endpoint.value),
                            Keys(payload.p256dh.value, payload.auth.value))
    {
      if user.None? {
        return Err(Unauthorized);
      }
      if !Given(payload.endpoint) || !Given(payload.p256dh) || !Given(payload.auth) {
        return Err(InvalidPayload);
      }
      if storeFails {
        return Err(StoreError);
      }
      rows := rows[SubscriptionKey(user.value, payload.endpoint.value) := Keys(payload.p256dh.value, payload.auth.value)];
      r := Ok(());
    }

    /**
     * `DELETE`: removes the caller's row for `endpoint`, or all of the
     * caller's rows when the body has no endpoint or does not parse (`None`).
     */
    method Delete(user: Option<UserId>, endpoint: Option<string>, storeFails: bool) returns (r: Result<(), PushError>)
      modifies this
      ensures user.None? ==> r == Err(Unauthorized) && rows == old(rows)
      ensures user.Some? && storeFails ==> r == Err(StoreError) && rows == old(rows)
      ensures user.Some? && !storeFails ==> r == Ok(()) && rows == RemoveRows(old(rows), user.value, endpoint)
    {
      if user.None? {
        return Err(Unauthorized);
      }
      if storeFails {
        return Err(StoreError);
      }
      rows := map k | k in rows && !DeleteMatches(k, user.value, endpoint) :: rows[k];
      r := Ok(());
    }
  }

  // ---------------------------------------------------------------------------
  // The push sender

  /** The body of a send request; absent fields are `None`. */
  datatype PushRequest = PushRequest(userIds: Option<seq<UserId>>, title: Option<string>, body: Option<string>)

  /** What one `sendNotification` call does: delivers, or throws with an optional status code. */
  datatype SendOutcome = Delivered | Rejected(statusCode: Option<int>)

  /** A rejection with status 404 or 410 marks the endpoint stale. */
  predicate IsStale(o: SendOutcome) {
    o.Rejected? && (o.statusCode == Some(404) || o.statusCode == Some(410))
  }

  datatype SendReport = SendReport(sent: nat, staleRemoved: nat)

  /** The tallies of the send loop over the first subscriptions of the scan. */
  datatype SendTally = SendTally(sent: nat, stale: seq<string>)

  function SendSteps(scan: seq<SubscriptionKey>, send: SubscriptionKey -> SendOutcome): (t: SendTally)
    ensures t.sent + |t.stale| <= |scan|
  {
    if scan == [] then SendTally(0, [])
    else
      var prev := SendSteps(scan[..|scan| - 1], send);
      var k := scan[|scan| - 1];
      if send(k).Delivered? then SendTally(prev.sent + 1, prev.stale)
      else if IsStale(send(k)) then SendTally(prev.sent, prev.stale + [k.endpoint])
      else prev
  }

  /** An endpoint is reported stale exactly when a scanned subscription with that endpoint got 404 or 410. */
  lemma {:induction false} StaleEndpoints(scan: seq<SubscriptionKey>, send: SubscriptionKey -> SendOutcome, e: string)
    ensures e in SendSteps(scan, send).stale <==> exists k :: k in scan && IsStale(send(k)) && k.endpoint == e
  {
    if scan != [] {
      var init := scan[..|scan| - 1];
      StaleEndpoints(init, send, e);
      assert forall k :: k in scan <==> k in init || k == scan[|scan| - 1];
    }
  }

  /** `sent` counts exactly the delivered subscriptions. */
  lemma {:induction false} SentCount(scan: seq<SubscriptionKey>, send: SubscriptionKey -> SendOutcome)
    ensures SendSteps(scan, send).sent == |Filter(scan, k => send(k).Delivered?)|
  {
    if scan != [] {
      SentCount(scan[..|scan| - 1], send);
    }
  }

  /** When every attempt either delivers or finds its endpoint stale, the tallies account for every subscription. */
  lemma {:induction false} TallyComplete(scan: seq<SubscriptionKey>, send: SubscriptionKey -> SendOutcome)
    requires forall k :: k in scan ==> send(k).Delivered? || IsStale(send(k))
    ensures SendSteps(scan, send).sent + |SendSteps(scan, send).stale| == |scan|
  {
    if scan != [] {
      TallyComplete(scan[..|scan| - 1], send);
    }
  }

  /** Whether a send request passes validation. */
  predicate ValidRequest(request: PushRequest) {
    request.userIds.Some? && |request.userIds.value| > 0 && Given(request.title) && Given(request.body)
  }

  /**
   * The push sender. `scan` is what the subscription query returns: the rows of
   * the listed users. `send` is the outcome of each push; `deleteFails` whether
   * the final delete of stale endpoints fails, which the sender ignores.
   * Returns the report and the subscriptions it attempted, in order.
   */
  method SendPushNotification(table: SubscriptionTable, isPost: bool, vapidConfigured: bool, request: PushRequest,
                              queryFails: bool, scan: seq<SubscriptionKey>, send: SubscriptionKey -> SendOutcome,
                              deleteFails: bool)
    returns (response: Result<SendReport, PushError>, attempted: seq<SubscriptionKey>)
    requires ValidRequest(request) ==>
      Distinct(scan) && forall k :: k in scan <==> k in table.rows && k.user in request.userIds.value
    modifies table
    ensures !isPost ==> response == Err(MethodNotAllowed)
    ensures isPost && !vapidConfigured ==> response == Err(MissingVapidKeys)
    ensures isPost && vapidConfigured && !ValidRequest(request) ==> response == Err(InvalidPayload)
    ensures isPost && vapidConfigured && ValidRequest(request) && queryFails ==> response == Err(StoreError)
    ensures isPost && vapidConfigured && ValidRequest(request) && !queryFails ==> response.Ok?
    ensures response.Err? ==> attempted == [] && table.rows == old(table.rows)
    ensures response.Ok? ==>
      var t := SendSteps(scan, send);
      && isPost && vapidConfigured && ValidRequest(request) && !queryFails
      && attempted == scan
      && (forall k :: k in attempted ==> k.user in request.userIds.value)
      && response.value == SendReport(t.sent, |t.stale|)
      && table.rows == (if |t.stale| > 0 && !deleteFails
                        then WithoutEndpoints(old(table.rows), set e | e in t.stale)
                        else old(table.rows))
  {
    attempted := [];
    if !isPost {
      return Err(MethodNotAllowed), attempted;
    }
    if !vapidConfigured {
      return Err(MissingVapidKeys), attempted;
    }
    if !ValidRequest(request) {
      return Err(InvalidPayload), attempted;
    }
    if queryFails {
      return Err(StoreError), attempted;
    }
    var sent: nat := 0;
    var stale: seq<string> := [];
    var i := 0;
    while i < |scan|
      invariant 0 <= i <= |scan|
      invariant SendSteps(scan[..i], send) == SendTally(sent, stale)
      invariant attempted == scan[..i]
    {
      var k := scan[i];
      assert scan[..i + 1][..i] == scan[..i];
      var outcome := send(k);
      if outcome.Delivered? {
        sent := sent + 1;
      } else if IsStale(outcome) {
        stale := stale + [k.endpoint];
      }
      attempted := attempted + [k];
      i := i + 1;
    }
    assert scan[..i] == scan;
    if |stale| > 0 && !deleteFails {
      var gone := set e | e in stale;
      table.rows := map k | k in table.rows && k.endpoint !in gone :: table.rows[k];
    }
    response := Ok(SendReport(sent, |stale|));
  }
}

=== FILE: seqs.dfy ===
/**
 * Order-preserving filtering and counting over sequences: the model of the
 * source's `Array.prototype.filter`, `.filter(...).length` and of the rows
 * a query returns in scan order.
 */
module Seqs {

  /** `s.filter(p)`, defined from the back so that extending a prefix is one unfolding. */
  function Filter<T>(s: seq<T>, p: T -> bool): (r: seq<T>)
    ensures |r| <= |s|
    ensures forall i :: 0 <= i < |r| ==> p(r[i])
  {
    if s == [] then []
    else Filter(s[..|s| - 1], p) + (if p(s[|s| - 1]) then [s[|s| - 1]] else [])
  }

  /** An element survives filtering exactly when it was there and passes `p`. */
  lemma {:induction false} FilterMembership<T>(s: seq<T>, p: T -> bool, x: T)
    ensures x in Filter(s, p) <==> x in s && p(x)
  {
    if s != [] {
      FilterMembership(s[..|s| - 1], p, x);
      assert s == s[..|s| - 1] + [s[|s| - 1]];
    }
  }

  lemma FilterPrefix<T>(s: seq<T>, p: T -> bool, i: nat)
    requires i < |s|
    ensures Filter(s[..i + 1], p) == Filter(s[..i], p) + (if p(s[i]) then [s[i]] else [])
  {
    assert s[..i + 1][..i] == s[..i];
  }

  lemma {:induction false} FilterAll<T>(s: seq<T>, p: T -> bool)
    requires forall x :: x in s ==> p(x)
    ensures Filter(s, p) == s
  {
    if s != [] {
      FilterAll(s[..|s| - 1], p);
      assert s[..|s| - 1] + [s[|s| - 1]] == s;
    }
  }

  /** `s` is a subsequence of `t`: `t` with some elements dropped, order kept. */
  predicate IsSubsequence<T(==)>(s: seq<T>, t: seq<T>)
    decreases |t|
  {
    if t == [] then s == []
    else
      || IsSubsequence(s, t[..|t| - 1])
      || (s != [] && s[|s| - 1] == t[|t| - 1] && IsSubsequence(s[..|s| - 1], t[..|t| - 1]))
  }

  /** Filtering keeps the survivors in their original order. */
  lemma {:induction false} FilterIsSubsequence<T>(s: seq<T>, p: T -> bool)
    ensures IsSubsequence(Filter(s, p), s)
  {
    if s != [] {
      var init := s[..|s| - 1];
      FilterIsSubsequence(init, p);
      if p(s[|s| - 1]) {
        var r := Filter(s, p);
        assert r == Filter(init, p) + [s[|s| - 1]];
        assert r[..|r| - 1] == Filter(init, p);
        assert r != [] && r[|r| - 1] == s[|s| - 1];
      } else {
        assert Filter(s, p) == Filter(init, p);
      }
    }
  }

  /** Filtering twice is filtering once by both conditions. */
  lemma {:induction false} FilterTwice<T>(s: seq<T>, p: T -> bool, q: T -> bool, both: T -> bool)
    requires forall x :: both(x) == (p(x) && q(x))
    ensures Filter(Filter(s, p), q) == Filter(s, both)
  {
    if s != [] {
      var init := s[..|s| - 1];
      FilterTwice(init, p, q, both);
      var f := Filter(s, p);
      if p(s[|s| - 1]) {
        assert f[..|f| - 1] == Filter(init, p);
      } else {
        assert f == Filter(init, p);
      }
    }
  }

  /** Two conditions that agree on every element select the same elements. */
  lemma {:induction false} FilterAgree<T>(s: seq<T>, p: T -> bool, q: T -> bool)
    requires forall x :: x in s ==> p(x) == q(x)
    ensures Filter(s, p) == Filter(s, q)
  {
    if s != [] {
      FilterAgree(s[..|s| - 1], p, q);
    }
  }

  /** No element occurs twice. */
  predicate Distinct<T(==)>(s: seq<T>) {
    forall i, j :: 0 <= i < j < |s| ==> s[i] != s[j]
  }

  lemma {:induction false} FilterDistinct<T>(s: seq<T>, p: T -> bool)
    requires Distinct(s)
    ensures Distinct(Filter(s, p))
  {
    if s != [] {
      var init := s[..|s| - 1];
      FilterDistinct(init, p);
      assert s[|s| - 1] !in init;
      FilterMembership(init, p, s[|s| - 1]);
    }
  }

  /** `s.filter(p).length`. */
  function Count<T>(s: seq<T>, p: T -> bool): (n: nat)
    ensures n <= |s|
  {
    |Filter(s, p)|
  }
}

=== FILE: strings.dfy ===
/**
 * String helpers shared by the model: prefixes, substring search, the
 * whitespace trimming of `String.prototype.trim`, ASCII case mapping and
 * decimal rendering of integers (`String(n)`, template literals, `padStart`).
 */
module Strings {
  import opened Wrappers

  predicate StartsWith(s: string, prefix: string) {
    |prefix| <= |s| && s[..|prefix|] == prefix
  }

  predicate EndsWith(s: string, suffix: string) {
    |suffix| <= |s| && s[|s| - |suffix|..] == suffix
  }

  /** `t` occurs in `s` starting at index `i`. */
  predicate OccursAt(s: string, t: string, i: nat) {
    i + |t| <= |s| && s[i..i + |t|] == t
  }

  /** `s.includes(t)`. */
  predicate Contains(s: string, t: string) {
    exists i :: 0 <= i <= |s| - |t| && OccursAt(s, t, i)
  }

  /** Search for the first occurrence of `t` at index `from` or later. */
  function IndexFrom(s: string, t: string, from: nat): (r: Option<nat>)
    ensures r.Some? ==> from <= r.value && OccursAt(s, t, r.value)
    ensures r.Some? ==> forall j: nat :: from <= j < r.value ==> !OccursAt(s, t, j)
    ensures r.None? ==> forall j: nat :: from <= j ==> !OccursAt(s, t, j)
    decreases |s| - from
  {
    if from + |t| > |s| then None
    else if s[from..from + |t|] == t then Some(from)
    else IndexFrom(s, t, from + 1)
  }

  /** `s.indexOf(t)`, with `None` for the source's `-1`. */
  function IndexOf(s: string, t: string): (r: Option<nat>)
    ensures r.None? <==> !Contains(s, t)
    ensures r.Some? ==> OccursAt(s, t, r.value)
    ensures r.Some? ==> forall j: nat :: j < r.value ==> !OccursAt(s, t, j)
  {
    IndexFrom(s, t, 0)
  }

  /** The characters `String.prototype.trim` removes: white space and line terminators. */
  predicate IsJsSpace(c: char) {
    c == '\t' || c == '\n' || c == '\U{000B}' || c == '\U{000C}' || c == '\r' || c == ' '
    || c == '\U{00A0}' || c == '\U{1680}' || ('\U{2000}' <= c <= '\U{200A}')
    || c == '\U{2028}' || c == '\U{2029}' || c == '\U{202F}' || c == '\U{205F}'
    || c == '\U{3000}' || c == '\U{FEFF}'
  }

  function TrimStart(s: string): (r: string)
    ensures |r| <= |s| && r == s[|s| - |r|..]
    ensures r == [] || !IsJsSpace(r[0])
    ensures forall i :: 0 <= i < |s| - |r| ==> IsJsSpace(s[i])
  {
    if s != [] && IsJsSpace(s[0]) then TrimStart(s[1..]) else s
  }

  function TrimEnd(s: string): (r: string)
    ensures |r| <= |s| && r == s[..|r|]
    ensures r == [] || !IsJsSpace(r[|r| - 1])
    ensures forall i :: |r| <= i < |s| ==> IsJsSpace(s[i])
  {
    if s != [] && IsJsSpace(s[|s| - 1]) then TrimEnd(s[..|s| - 1]) else s
  }

  /** `s.trim()`: a slice of `s` that neither starts nor ends with white space. */
  function Trim(s: string): (r: string)
    ensures r == [] || (!IsJsSpace(r[0]) && !IsJsSpace(r[|r| - 1]))
    ensures OccursAt(s, r, |s| - |TrimStart(s)|)
  {
    var t := TrimStart(s);
    var r := TrimEnd(t);
    var k := |s| - |t|;
    assert t == s[k..] && r == t[..|r|];
    assert s[k..k + |r|] == r;
    r
  }

  /** `s.trim()` is empty exactly when every character of `s` is white space. */
  lemma TrimEmptyIffBlank(s: string)
    ensures Trim(s) == [] <==> forall i :: 0 <= i < |s| ==> IsJsSpace(s[i])
  {
    var t := TrimStart(s);
    if Trim(s) == [] {
      assert t == [];
    }
  }

  predicate IsAsciiUpper(c: char) { 'A' <= c <= 'Z' }
  predicate IsAsciiLower(c: char) { 'a' <= c <= 'z' }
  predicate IsAsciiDigit(c: char) { '0' <= c <= '9' }

  function UpperChar(c: char): char {
    if IsAsciiLower(c) then (c as int - 32) as char else c
  }

  function LowerChar(c: char): char {
    if IsAsciiUpper(c) then (c as int + 32) as char else c
  }

  /** `s.toUpperCase()` on the ASCII letters; every other character is kept. */
  function ToUpper(s: string): (r: string)
    ensures |r| == |s| && forall i :: 0 <= i < |s| ==> r[i] == UpperChar(s[i])
  {
    seq(|s|, i requires 0 <= i < |s| => UpperChar(s[i]))
  }

  /** `s.toLowerCase()` on the ASCII letters; every other character is kept. */
  function ToLower(s: string): (r: string)
    ensures |r| == |s| && forall i :: 0 <= i < |s| ==> r[i] == LowerChar(s[i])
  {
    seq(|s|, i requires 0 <= i < |s| => LowerChar(s[i]))
  }

  // ---------------------------------------------------------------------------
  // Decimal rendering

  function DigitChar(d: nat): (c: char)
    requires d < 10
    ensures IsAsciiDigit(c) && c as int - '0' as int == d
  {
    (48 + d) as char
  }

  function DigitValue(c: char): nat
    requires IsAsciiDigit(c)
  {
    c as int - '0' as int
  }

  predicate AllDigits(s: string) {
    forall i :: 0 <= i < |s| ==> IsAsciiDigit(s[i])
  }

  /** The decimal digits of `n`, most significant first, without leading zeros. */
  function NatToString(n: nat): (r: string)
    ensures |r| >= 1 && AllDigits(r)
    ensures r[0] == '0' ==> n == 0 && r == "0"
  {
    if n < 10 then [DigitChar(n)] else NatToString(n / 10) + [DigitChar(n % 10)]
  }

  /** The number a string of decimal digits denotes. */
  function DigitsValue(s: string): nat
    requires AllDigits(s)
  {
    if s == [] then 0 else DigitsValue(s[..|s| - 1]) * 10 + DigitValue(s[|s| - 1])
  }

  /** Reading back the digits of `n` gives `n`. */
  lemma {:induction false} NatToStringRoundTrip(n: nat)
    ensures DigitsValue(NatToString(n)) == n
  {
    if n >= 10 {
      var s := NatToString(n);
      assert s[..|s| - 1] == NatToString(n / 10);
      NatToStringRoundTrip(n / 10);
    }
  }

  /** `String(i)` for an integer `i`. */
  function IntToString(i: int): (r: string)
    ensures i < 0 <==> (r != [] && r[0] == '-')
  {
    if i < 0 then "-" + NatToString(-i) else NatToString(i)
  }

  /** Parse an optionally negative decimal integer: the inverse of `IntToString`. */
  function ParseInt(s: string): Option<int> {
    if |s| >= 2 && s[0] == '-' && AllDigits(s[1..]) then Some(-(DigitsValue(s[1..]) as int))
    else if |s| >= 1 && AllDigits(s) then Some(DigitsValue(s))
    else None
  }

  lemma IntToStringRoundTrip(i: int)
    ensures ParseInt(IntToString(i)) == Some(i)
  {
    if i < 0 {
      var r := IntToString(i);
      assert r[1..] == NatToString(-i);
      NatToStringRoundTrip(-i);
    } else {
      NatToStringRoundTrip(i);
    }
  }

  /** `s.padStart(width, fill)`. */
  function PadStart(s: string, width: nat, fill: char): (r: string)
    ensures |r| == if |s| >= width then |s| else width
    ensures EndsWith(r, s)
    ensures forall i :: 0 <= i < |r| - |s| ==> r[i] == fill
  {
    if |s| >= width then s else seq(width - |s|, _ => fill) + s
  }
}

=== FILE: utils.dfy ===
/**
 * The pure helpers of src/lib/utils.ts: rank normalisation and ordering,
 * difficulty glyphs and colours, the operation day counter, the countdown to
 * the next daily reset and the points label.
 *
 * Time is an integer number of milliseconds since the epoch, read in UTC, and
 * every calendar day is exactly 24 hours long.
 */
module Utils {
  import opened Wrappers
  import opened Strings

  // ---------------------------------------------------------------------------
  // Ranks

  /** RANK_ORDER: the six rank keys and their level. */
  const RankOrder: map<string, nat> := map[
    "RECRUTA" := 0, "AGENTE" := 1, "SENIOR" := 2,
    "OPERADOR" := 3, "VETERANO" := 4, "LENDA" := 5]

  /** RANK_COLORS. */
  const RankColors: map<string, string> := map[
    "RECRUTA" := "#6b6660", "AGENTE" := "#4a7ab5", "SENIOR" := "#4a8c4a",
    "OPERADOR" := "#c9a227", "VETERANO" := "#c94040", "LENDA" := "#c9a227"]

  /** Combining diacritical marks (U+0300 to U+036F), removed after decomposition. */
  predicate IsCombiningMark(c: char) {
    '\U{0300}' <= c <= '\U{036F}'
  }

  function StripMarks(s: string): (r: string)
    ensures |r| <= |s|
    ensures forall i :: 0 <= i < |r| ==> !IsCombiningMark(r[i])
  {
    if s == [] then []
    else (if IsCombiningMark(s[0]) then [] else [s[0]]) + StripMarks(s[1..])
  }

  /** `value.replace(/[^A-Z]/g, '')`. */
  function KeepAsciiUpper(s: string): (r: string)
    ensures |r| <= |s|
    ensures forall i :: 0 <= i < |r| ==> IsAsciiUpper(r[i])
  {
    if s == [] then []
    else (if IsAsciiUpper(s[0]) then [s[0]] else []) + KeepAsciiUpper(s[1..])
  }

  predicate AllAsciiUpper(s: string) {
    forall i :: 0 <= i < |s| ==> IsAsciiUpper(s[i])
  }

  /**
   * normalizeRank: a missing or empty rank reads as RECRUTA; an exact key
   * (after stripping marks and upper-casing) is kept; the spellings that
   * compact to SENIOR or SNIOR give SENIOR; anything else is RECRUTA.
   */
  function NormalizeRank(rank: Option<string>): (r: string)
    ensures r in RankOrder
    ensures rank.None? || rank == Some("") ==> r == "RECRUTA"
  {
    var raw := if rank.None? || rank.value == "" then "RECRUTA" else rank.value;
    KeysAreUpper();
    UpperStringIsFixed("RECRUTA");
    var value := ToUpper(StripMarks(raw));
    var compact := KeepAsciiUpper(value);
    if value in RankOrder then value
    else if compact == "SENIOR" || compact == "SNIOR" then "SENIOR"
    else "RECRUTA"
  }

  lemma {:induction false} UpperStringIsFixed(s: string)
    requires AllAsciiUpper(s)
    ensures StripMarks(s) == s && ToUpper(s) == s
  {
    if s != [] {
      UpperStringIsFixed(s[1..]);
    }
  }

  lemma KeysAreUpper()
    ensures AllAsciiUpper("RECRUTA") && AllAsciiUpper("AGENTE") && AllAsciiUpper("SENIOR")
    ensures AllAsciiUpper("OPERADOR") && AllAsciiUpper("VETERANO") && AllAsciiUpper("LENDA")
  {
  }

  /** Every rank key normalises to itself. */
  lemma NormalizeRankKey(k: string)
    requires k in RankOrder
    ensures NormalizeRank(Some(k)) == k
  {
    KeysAreUpper();
    assert k in RankOrder.Keys;
    assert RankOrder.Keys == {"RECRUTA", "AGENTE", "SENIOR", "OPERADOR", "VETERANO", "LENDA"};
    UpperStringIsFixed(k);
  }

  /** normalizeRank is idempotent. */
  lemma NormalizeRankIdempotent(rank: Option<string>)
    ensures NormalizeRank(Some(NormalizeRank(rank))) == NormalizeRank(rank)
  {
    NormalizeRankKey(NormalizeRank(rank));
  }

  /** rankColor: the colour of the normalised rank; the RECRUTA fallback never applies. */
  function RankColor(rank: Option<string>): (r: string)
    ensures r == RankColors[NormalizeRank(rank)]
  {
    var key := NormalizeRank(rank);
    if key in RankColors && RankColors[key] != "" then RankColors[key] else "#6b6660"
  }

  /** didRankUp: the normalised next rank has a higher level than the previous one. */
  function DidRankUp(previous: Option<string>, next: Option<string>): (r: bool)
    ensures r ==> NormalizeRank(next) != NormalizeRank(previous)
    ensures r ==> NormalizeRank(previous) != "LENDA" && NormalizeRank(next) != "RECRUTA"
  {
    RankOrder[NormalizeRank(next)] > RankOrder[NormalizeRank(previous)]
  }

  /** On rank keys, didRankUp is exactly the comparison of their levels. */
  lemma DidRankUpOnKeys(previous: string, next: string)
    requires previous in RankOrder && next in RankOrder
    ensures DidRankUp(Some(previous), Some(next)) <==> RankOrder[next] > RankOrder[previous]
  {
    NormalizeRankKey(previous);
    NormalizeRankKey(next);
  }

  /** didRankUp is a strict order: irreflexive, asymmetric and transitive. */
  lemma DidRankUpStrictOrder(a: Option<string>, b: Option<string>, c: Option<string>)
    ensures !DidRankUp(a, a)
    ensures DidRankUp(a, b) ==> !DidRankUp(b, a)
    ensures DidRankUp(a, b) && DidRankUp(b, c) ==> DidRankUp(a, c)
  {
  }

  // ---------------------------------------------------------------------------
  // Difficulty

  const FilledDot: char := '\U{25CF}'
  const HollowDot: char := '\U{25CB}'

  /** How many dots a difficulty fills: easy 1, medium 2, hard 3, anything else 0. */
  function DifficultyLevel(difficulty: string): nat {
    if difficulty == "easy" then 1
    else if difficulty == "medium" then 2
    else if difficulty == "hard" then 3
    else 0
  }

  /** getDifficultyDots: three glyphs, the filled ones first. */
  function DifficultyDots(difficulty: string): (r: string)
    ensures |r| == 3
    ensures forall i :: 0 <= i < 3 ==> r[i] == if i < DifficultyLevel(difficulty) then FilledDot else HollowDot
  {
    match difficulty
    case "easy" => [FilledDot, HollowDot, HollowDot]
    case "medium" => [FilledDot, FilledDot, HollowDot]
    case "hard" => [FilledDot, FilledDot, FilledDot]
    case _ => [HollowDot, HollowDot, HollowDot]
  }

  /** getDifficultyColor: a known difficulty gets its own colour, any other the grey default. */
  function DifficultyColor(difficulty: string): (r: string)
    ensures r == "#6b6660" <==> DifficultyLevel(difficulty) == 0
    ensures DifficultyLevel(difficulty) == 1 ==> r == RankColors["SENIOR"]
    ensures DifficultyLevel(difficulty) == 2 ==> r == RankColors["OPERADOR"]
    ensures DifficultyLevel(difficulty) == 3 ==> r == RankColors["VETERANO"]
  {
    match difficulty
    case "easy" => "#4a8c4a"
    case "medium" => "#c9a227"
    case "hard" => "#c94040"
    case _ => "#6b6660"
  }

  // ---------------------------------------------------------------------------
  // Days and the daily reset

  const SecondMs: int := 1000
  const MinuteMs: int := 60 * SecondMs
  const HourMs: int := 60 * MinuteMs
  const DayMs: int := 24 * HourMs

  /** Midnight of the calendar day that holds instant `t`. */
  function DayStart(t: int): int {
    (t / DayMs) * DayMs
  }

  /** The reset hour on the calendar date of the operation's start. */
  function ResetBoundary(startedAt: int, resetHour: int): int {
    DayStart(startedAt) + resetHour * HourMs
  }

  /** getCurrentDay: whole days elapsed since the start's reset boundary, plus one, at least one. */
  function GetCurrentDay(startedAt: int, resetHour: int, now: int): (day: int)
    ensures day >= 1
  {
    var diff := now - ResetBoundary(startedAt, resetHour);
    if diff / DayMs + 1 > 1 then diff / DayMs + 1 else 1
  }

  lemma DivUnique(a: int, q: int, r: int)
    requires a == q * DayMs + r && 0 <= r < DayMs
    ensures a / DayMs == q
  {
  }

  lemma DivMonotone(a: int, b: int)
    requires a <= b
    ensures a / DayMs <= b / DayMs
  {
  }

  /** The day number never decreases as time advances. */
  lemma CurrentDayMonotone(startedAt: int, resetHour: int, now1: int, now2: int)
    requires now1 <= now2
    ensures GetCurrentDay(startedAt, resetHour, now1) <= GetCurrentDay(startedAt, resetHour, now2)
  {
    var b := ResetBoundary(startedAt, resetHour);
    DivMonotone(now1 - b, now2 - b);
  }

  /** During the k-th whole 24h period after the boundary the day number is k + 1. */
  lemma CurrentDayInPeriod(startedAt: int, resetHour: int, k: nat, offset: int)
    requires 0 <= offset < DayMs
    ensures GetCurrentDay(startedAt, resetHour, ResetBoundary(startedAt, resetHour) + k * DayMs + offset) == k + 1
  {
    DivUnique(k * DayMs + offset, k, offset);
  }

  /** Until one full day after the boundary (and before it) the operation is on day 1. */
  lemma CurrentDayFirst(startedAt: int, resetHour: int, now: int)
    requires now < ResetBoundary(startedAt, resetHour) + DayMs
    ensures GetCurrentDay(startedAt, resetHour, now) == 1
  {
    var b := ResetBoundary(startedAt, resetHour);
    DivMonotone(now - b, DayMs - 1);
  }

  /** From the boundary on, 24 hours later is exactly one day later. */
  lemma CurrentDayAdvances(startedAt: int, resetHour: int, now: int)
    requires now >= ResetBoundary(startedAt, resetHour)
    ensures GetCurrentDay(startedAt, resetHour, now + DayMs)
         == GetCurrentDay(startedAt, resetHour, now) + 1
  {
    var diff := now - ResetBoundary(startedAt, resetHour);
    DivUnique(diff + DayMs, diff / DayMs + 1, diff % DayMs);
  }

  /** The next reset `getTimeUntilReset` counts down to. */
  function NextReset(resetHour: int, now: int): int {
    var next := DayStart(now) + resetHour * HourMs;
    if next <= now then next + DayMs else next
  }

  /** The next reset falls on the reset hour: a whole number of days after that hour of the epoch's day. */
  lemma NextResetOnResetHour(resetHour: int, now: int)
    ensures (NextReset(resetHour, now) - resetHour * HourMs) % DayMs == 0
  {
  }

  /** For an hour of the day, the next reset is strictly ahead and at most 24 hours away. */
  lemma NextResetInNextDay(resetHour: int, now: int)
    requires 0 <= resetHour < 24
    ensures now < NextReset(resetHour, now) <= now + DayMs
  {
    DivUnique(now, now / DayMs, now % DayMs);
  }

  /** JavaScript's `%`, which keeps the sign of the dividend. */
  function JsRem(a: int, b: int): int
    requires b > 0
  {
    if a >= 0 then a % b else -((-a) % b)
  }

  datatype Clock = Clock(hours: int, minutes: int, seconds: int)

  /** Hours, minutes and seconds of a duration, as `Math.floor` and `%` give them. */
  function Countdown(diff: int): Clock {
    Clock(diff / HourMs, JsRem(diff, HourMs) / MinuteMs, JsRem(diff, MinuteMs) / SecondMs)
  }

  /** For a non-negative duration, minutes and seconds are below 60 and the fields give the duration to the second. */
  lemma CountdownBounds(diff: int)
    ensures diff >= 0 ==> var c := Countdown(diff);
      0 <= c.minutes < 60 && 0 <= c.seconds < 60 && c.hours >= 0
    ensures diff >= 0 ==> var c := Countdown(diff);
      c.hours * HourMs + c.minutes * MinuteMs + c.seconds * SecondMs <= diff
      < c.hours * HourMs + c.minutes * MinuteMs + c.seconds * SecondMs + SecondMs
  {
    CountdownArith(diff);
  }

  lemma MinuteDivUnique(a: int, q: int, r: int)
    requires a == q * MinuteMs + r && 0 <= r < MinuteMs
    ensures a % MinuteMs == r
  {
  }

  lemma CountdownArith(diff: int)
    ensures diff >= 0 ==> var h, m, s := diff / HourMs, (diff % HourMs) / MinuteMs, (diff % MinuteMs) / SecondMs;
      0 <= m < 60 && 0 <= s < 60 && h >= 0
      && h * HourMs + m * MinuteMs + s * SecondMs <= diff < h * HourMs + m * MinuteMs + s * SecondMs + SecondMs
  {
    if diff >= 0 {
      var h, r1 := diff / HourMs, diff % HourMs;
      var m, r2 := r1 / MinuteMs, r1 % MinuteMs;
      var s, r3 := r2 / SecondMs, r2 % SecondMs;
      assert diff == h * HourMs + r1;
      assert r1 == m * MinuteMs + r2;
      assert r2 == s * SecondMs + r3;
      assert diff == (h * 60 + m) * MinuteMs + r2;
      MinuteDivUnique(diff, h * 60 + m, r2);
    }
  }

  /** `String(n).padStart(2, '0')`: two characters below 100, a leading `0` below 10. */
  function Pad2(n: int): (r: string)
    ensures 0 <= n < 100 ==> |r| == 2
    ensures 0 <= n < 10 ==> r == ['0', DigitChar(n)]
  {
    if 0 <= n < 100 then (SmallNatString(n); PadStart(IntToString(n), 2, '0'))
    else PadStart(IntToString(n), 2, '0')
  }

  /** `${hh}:${mm}:${ss}`: the three padded fields joined by `:`. */
  function FormatClock(c: Clock): string {
    Pad2(c.hours) + ":" + Pad2(c.minutes) + ":" + Pad2(c.seconds)
  }

  /** For fields below 100, the text is eight characters that read back as the three padded fields. */
  lemma FormatClockShape(c: Clock)
    requires 0 <= c.hours < 100 && 0 <= c.minutes < 100 && 0 <= c.seconds < 100
    ensures var r := FormatClock(c);
      && |r| == 8 && r[2] == ':' && r[5] == ':'
      && r[..2] == Pad2(c.hours) && r[3..5] == Pad2(c.minutes) && r[6..] == Pad2(c.seconds)
  {
    ColonJoin(Pad2(c.hours), Pad2(c.minutes), Pad2(c.seconds));
  }

  /** Three two-character fields joined by `:` are eight characters with the fields at 0, 3 and 6. */
  lemma ColonJoin(h: string, m: string, s: string)
    requires |h| == 2 && |m| == 2 && |s| == 2
    ensures var r := h + ":" + m + ":" + s;
      |r| == 8 && r[2] == ':' && r[5] == ':' && r[..2] == h && r[3..5] == m && r[6..] == s
  {
    var r := h + ":" + m + ":" + s;
    assert r == [h[0], h[1], ':', m[0], m[1], ':', s[0], s[1]];
  }

  /** getTimeUntilReset: the countdown to the next reset as `hh:mm:ss`. */
  function GetTimeUntilReset(resetHour: int, now: int): string {
    ClockUntil(NextReset(resetHour, now), now)
  }

  /** For an hour of the day, the countdown reads as eight characters `hh:mm:ss`. */
  lemma TimeUntilResetFormat(resetHour: int, now: int)
    requires 0 <= resetHour < 24
    ensures var r := GetTimeUntilReset(resetHour, now);
      |r| == 8 && r[2] == ':' && r[5] == ':'
  {
    NextResetInNextDay(resetHour, now);
    ClockUntilShape(NextReset(resetHour, now), now);
  }

  /** The `hh:mm:ss` countdown from `now` to `target`. */
  function ClockUntil(target: int, now: int): string {
    FormatClock(Countdown(target - now))
  }

  /** A target at most a day ahead gives eight characters `hh:mm:ss`. */
  lemma ClockUntilShape(target: int, now: int)
    requires now <= target <= now + DayMs
    ensures var r := ClockUntil(target, now);
      |r| == 8 && r[2] == ':' && r[5] == ':'
  {
    var c := Countdown(target - now);
    CountdownBounds(target - now);
    FormatClockShape(c);
  }

  lemma SmallNatString(n: nat)
    requires n < 100
    ensures 1 <= |NatToString(n)| <= 2
  {
  }

  /** For an hour of the day the countdown is at most 24 hours, with minutes and seconds below 60. */
  lemma TimeUntilResetShape(resetHour: int, now: int)
    requires 0 <= resetHour < 24
    ensures var c := Countdown(NextReset(resetHour, now) - now);
      0 <= c.hours <= 24 && 0 <= c.minutes < 60 && 0 <= c.seconds < 60
  {
    NextResetInNextDay(resetHour, now);
    CountdownBounds(NextReset(resetHour, now) - now);
  }

  /** formatPoints: the decimal of the points followed by `pt`. */
  function FormatPoints(points: int): (r: string)
    ensures EndsWith(r, "pt")
    ensures ParseInt(r[..|r| - 2]) == Some(points)
  {
    IntToStringRoundTrip(points);
    var r := IntToString(points) + "pt";
    assert r[..|r| - 2] == IntToString(points);
    r
  }
}

=== FILE: wrappers.dfy ===
/** Optional values and request outcomes, standing for the `null`/`undefined` cases and the error responses of the source. */
module Wrappers {

  datatype Option<+T> = None | Some(value: T) {

    /** The value, or `default` when absent (the source's `??` operator). */
    function GetOr(default: T): T {
      match this
      case Some(v) => v
      case None => default
    }
  }

  /** A handler's outcome: a value, or the error it answers with. */
  datatype Result<+T, +E> = Ok(value: T) | Err(error: E)
}
